=== FILE: README.md ===
# boltStax core logic in Dafny

boltStax is a supplier-compliance web application: a company keeps a
question bank and questionnaire templates, invites suppliers and
customers, sends product sheets to suppliers, collects their questionnaire
answers, scores their compliance and notifies people by email. Most of the
code is user interface talking directly to a document store; this project
models the logic underneath that glue, as pure functions over immutable
datatypes, and proves what that logic promises.

What is modelled, one Dafny module per source file (plus small shared
modules):

- questionnaire responses: creating a response, the autosave that upserts
  one answer into its section and recomputes the completion rate, the
  debounce that lets only the last call of a burst through, submission
  (`QuestionnaireResponses`, `QuestionnaireTypes`);
- questionnaire templates: creation (the template document plus a copy of
  each section and question in collections of their own), versioned
  updates with a snapshot per version, archiving, the listing that reads
  sections and questions from those collections, and version lookup
  (`QuestionnaireTemplates`), the template editor's form and list edits
  (`TemplateEditor`), the question editor (`QuestionEditor`), the response
  view's merge of template and answers (`ResponseView`) and the templates
  list with its duplicate action (`TemplatesView`);
- product sheets: the store conversion round trip, create, fetch, send and
  delete on the sheet and company-index collections, the create dialog's
  checks, and the sheet schema (`ProductSheets`);
- invitations and relationships: inviting a customer (invite, placeholder
  company and the inviter's customer list in one batch, clean-up when the
  email fails), customer search and conversion (`Customers`), invite
  redemption at sign-up (`Auth`), inviting suppliers and their invitation
  status (`SupplierInvitations`), supplier conversion, lookup, update and
  listing (`Suppliers`), questionnaire requests and submissions
  (`SupplierQuestionnaires`) and the supplier's sign-up question form
  (`SupplierQuestionsForm`);
- compliance arithmetic: the rounded mean of the three latest scores, the
  report's category scores and overall score, the history filter
  (`SupplierCompliance`, `Rounding`);
- list operations of the question bank: tag selection (`TagSelector`),
  select-all and per-question selection (`QuestionsView`), the move up
  and move down buttons, which as written swap by a question's position in
  its panel within the whole list (`QuestionList`), section add, rename and drag
  reordering (`SectionsManager`), the add-question dialog
  (`AddQuestionModal`), and the tag record (`Tags`);
- notifications and email: the notification record and the email queue
  entry it produces (`Notifications`), the client's reading of the email
  function's result and errors (`EmailClient`), and the email function's
  request checks, recipient pattern and message bodies (`EmailFunction`).

The document store is a set of maps from document id to document; every
operation that writes returns an `Effect` holding the new store and a
`Result` (the error message the source throws, or the value it returns).
Fresh document ids, random tokens and the current time are parameters, as
are the outcomes of calls into services the model cannot see (the mail
service, the authentication service, the email function as seen from the
client). Shared helpers: `Wrappers` (`Option`, `Result`, JavaScript
truthiness), `Seqs` (the array idioms: filter, toggle, splice, swap),
`Text` (`trim`, `split`, `join`, `toLowerCase`, `includes`), `Rounding`
(`Math.round` of a mean), `Listing` (a `where` + `orderBy` query as a
sorted duplicate-free list, ties and unordered queries in document-id
order) and `Firestore` (`arrayUnion`, the update of a
missing document).

## Model

| member | source | states |
|---|---|---|
| QuestionnaireResponses.UpsertAnswer | src/services/questionnaireResponses.ts:121-140 | In the target section every entry for the question gets the new value, file urls, time and user while every other entry is kept; one entry is appended at the end exactly when the section had none for that question. |
| QuestionnaireResponses.MergeSections | src/services/questionnaireResponses.ts:118-146 | The written sections keep their count and order; a section with another id comes back unchanged and a section with the target id has the answer upserted. |
| QuestionnaireResponses.MergeUnknownSection | src/services/questionnaireResponses.ts:118-146 | When no section has the target id, the sections written are the stored ones. |
| QuestionnaireResponses.UpsertTwice | src/services/questionnaireResponses.ts:121-140 | Saving the same answer twice is the same as saving it once at the later time. |
| QuestionnaireResponses.AnsweredCount | src/services/questionnaireResponses.ts:153-156 | The answered entries (value not null) never outnumber the entries. |
| QuestionnaireResponses.CompletionRate | src/services/questionnaireResponses.ts:149-157 | The rate lies in [0, 100]; it is 0 when there are no entries, otherwise rate × entries = answered × 100; it is 100 exactly when there are entries and every one is answered. |
| QuestionnaireResponses.Create | src/services/questionnaireResponses.ts:66-79 | A new response under the fresh id with the given template, sheet, supplier and sections, status pending, rate 0, no documents, start and update times now; nothing else in the store changes. |
| QuestionnaireResponses.AutoSave | src/services/questionnaireResponses.ts:100-163 | The draft is logged first; an empty response id then fails as an invalid document reference and a missing response with 'Response not found', in both cases the draft kept and no response written; otherwise the merged sections and the time are written with a rate computed from the sections before the merge. |
| QuestionnaireResponses.AutoSaveRateLags | src/services/questionnaireResponses.ts:148-157 | A concrete save into a section without entries is stored with rate 0 although every stored entry is answered. |
| QuestionnaireResponses.AutoSaveFixed | src/services/questionnaireResponses.ts:100-163 | The same autosave with the rate computed over the sections it writes. |
| QuestionnaireResponses.AutoSaveFixedRateCurrent | src/services/questionnaireResponses.ts:148-163 | After the corrected autosave the stored rate is the completion rate of the stored sections, and the stored response differs from the as-written one only in the rate. |
| QuestionnaireResponses.Submit | src/services/questionnaireResponses.ts:176-195 | An empty response id fails as an invalid document reference and a missing response with 'Response not found', both with nothing written; otherwise the response becomes completed with submitter and time, and a questionnaireSubmitted notification naming its sheet and supplier is sent; drafts are untouched. |
| QuestionnaireResponses.SubmitLeavesDeclaredStatuses | src/services/questionnaireResponses.ts:180-185 | The status submit writes, 'completed', is none of the five submission statuses the response type declares. |
| QuestionnaireResponses.LastCallWins | src/services/questionnaireResponses.ts:94-100 | After a non-empty burst of calls only the last call's save is scheduled, whatever was pending before. |
| QuestionnaireResponses.BurstPersistsLast | src/services/questionnaireResponses.ts:94-168 | A burst followed by the timer persists exactly the last call's save. |
| QuestionnaireTypes.QuestionCountAppend | src/components/questionnaires/QuestionnaireTemplatesView.tsx:179 | The summed question count of two section lists put together is the sum of their counts. |
| QuestionnaireTemplates.Create | src/services/questionnaireTemplates.ts:29-67 | The new template holds the caller's fields, sections included, at version 1, not archived whatever the caller asked, created and updated now, under the fresh id; besides, every section is written to the section collection under its own fresh id, tagged with the template and without questions, and every question to the question collection, tagged with the template and its section's document; nothing stored before changes. |
| QuestionnaireTemplates.WriteSections | src/services/questionnaireTemplates.ts:45-50 | The section collection gains exactly one document per section, under that section's id, holding the section tagged with the template and with no questions; existing documents are kept. |
| QuestionnaireTemplates.WriteQuestions | src/services/questionnaireTemplates.ts:52-59 | The question collection gains exactly one document per question, under that question's id, holding the question tagged with the template and the document id of its section; existing documents are kept. |
| QuestionnaireTemplates.Update | src/services/questionnaireTemplates.ts:77-101 | An unknown id fails with 'Template not found' and writes nothing; otherwise one version record holds the current version, the one change description and the update's sections when given (else the stored ones), and the template gets the update, version + 1 and the new time. |
| QuestionnaireTemplates.UpdateSnapshotsPrevious | src/services/questionnaireTemplates.ts:84-101 | The snapshot's version is one below the template's new version, and without new sections it holds the sections the template keeps. |
| QuestionnaireTemplates.UpdateTwice | src/services/questionnaireTemplates.ts:84-101 | Two updates raise the version by two and leave two snapshots with consecutive version numbers. |
| QuestionnaireTemplates.Archive | src/services/questionnaireTemplates.ts:196-202 | An empty id is not a document reference; a missing template makes the update fail; in both cases nothing is written. Otherwise the template becomes archived with the new time and nothing else changes. |
| QuestionnaireTemplates.ArchiveIdempotent | src/services/questionnaireTemplates.ts:196-202 | Archiving twice is archiving once at the later time. |
| QuestionnaireTemplates.ArchivedNotListed | src/services/questionnaireTemplates.ts:110-119 | An archived template is not in the default listing. |
| QuestionnaireTemplates.ListQuestions | src/services/questionnaireTemplates.ts:140-151 | Every question document of the section exactly once, in document-id order, each shown with the document's id as its id. |
| QuestionnaireTemplates.ListSections | src/services/questionnaireTemplates.ts:128-153 | Every section document of the template exactly once, ordered by `order` with ties by document id, each shown with the document's id and the questions listed for that document. |
| QuestionnaireTemplates.GetTemplates | src/services/questionnaireTemplates.ts:110-159 | Every template, or by default every non-archived one, exactly once, ordered by title; each keeps its stored fields except the sections, which are those listed from the section and question collections, not its embedded copy. |
| QuestionnaireTemplates.GetTemplatesFixed | src/services/questionnaireTemplates.ts:110-159 | As evidently intended: the same templates in the same order, each exactly as the template document holds it, sections included. |
| QuestionnaireTemplates.EditsNeverListed | src/services/questionnaireTemplates.ts:97-101 | A template created with sections and then updated with any other sections, none included, still lists a non-empty set of sections, all of them documents written at creation, while the template document holds the update's sections. |
| QuestionnaireTemplates.EditThenListFixed | src/services/questionnaireTemplates.ts:69-108 | With the corrected listing, right after an update that replaces the sections the template is listed, unless archived ones are left out and it is archived, and with exactly the update's sections. |
| QuestionnaireTemplates.GetTemplateVersion | src/services/questionnaireTemplates.ts:214-226 | Nothing exactly when no version record matches the template and number; otherwise the query's first document, the matching record with the least document id, paired with that id |
| TemplateEditor.Validate | src/components/questionnaires/TemplateEditorModal.tsx:84-93 | A blank title (after trimming) is reported first, then an empty section list; the form passes exactly when neither holds. |
| TemplateEditor.Save | src/components/questionnaires/TemplateEditorModal.tsx:84-112 | A failing check stops with its field error; otherwise an editor opened on a template updates that template's id with 'Updated template content', and one opened without a template creates a new one. |
| TemplateEditor.SaveFixed | src/components/questionnaires/TemplateEditorModal.tsx:97-112 | The corrected save: an editor opened on a template without an id creates a template instead of updating; with an id it behaves as the save as written. |
| TemplateEditor.AddSection | src/components/questionnaires/TemplateEditorModal.tsx:134-147 | One empty section is appended, ordered at the previous count, and its id is added to the expanded sections. |
| TemplateEditor.UpdateSection | src/components/questionnaires/TemplateEditorModal.tsx:149-156 | Only the section at the index is patched; every other index, and an index out of range, leaves the list unchanged. |
| TemplateEditor.RemoveSection | src/components/questionnaires/TemplateEditorModal.tsx:158-163 | Exactly the section at the index goes, the others keep their relative order and their order fields are not renumbered; an index out of range changes nothing. |
| TemplateEditor.AddThenRemoveSection | src/components/questionnaires/TemplateEditorModal.tsx:134-163 | Removing a section just added restores the section list. |
| TemplateEditor.MoveSection | src/components/questionnaires/TemplateEditorModal.tsx:165-184 | Up at the first and down at the last index change nothing; otherwise the section trades places with its neighbour, every order becomes the position, and every other section keeps its place. |
| TemplateEditor.MoveDownThenUp | src/components/questionnaires/TemplateEditorModal.tsx:165-184 | Moving a section down and back up returns every section to its place, renumbered. |
| TemplateEditor.ToggleSection | src/components/questionnaires/TemplateEditorModal.tsx:187-193 | Collapsing drops every copy of the id and keeps every other id as often as before; expanding appends the id once at the end of the list |
| TemplateEditor.OnlyFirstSectionOpen | src/components/questionnaires/TemplateEditorModal.tsx:61-69 | A template opens with its first section expanded and every section with another id collapsed, so toggling the first section collapses everything. |
| TemplateEditor.AddQuestion | src/components/questionnaires/TemplateEditorModal.tsx:195-208 | A blank short-text question, not required and untagged, is appended to the one section and nothing else changes. |
| TemplateEditor.UpdateQuestion | src/components/questionnaires/TemplateEditorModal.tsx:210-214 | Only the addressed question of the addressed section is patched. |
| TemplateEditor.RemoveQuestion | src/components/questionnaires/TemplateEditorModal.tsx:216-220 | Exactly one question of one section goes (none when the question index is past the end); other sections are unchanged. |
| TemplateEditor.QuestionCountUpdate | src/components/questionnaires/TemplateEditorModal.tsx:149-156 | Replacing one section changes the summed question count by that section's difference. |
| TemplateEditor.AddQuestionCount | src/components/questionnaires/TemplateEditorModal.tsx:195-208 | Adding a question raises the template's question count by one. |
| QuestionEditor.ShowOptionsExactly | src/components/questionnaires/QuestionEditor.tsx:40-49 | The option editor is shown for single and multiple choice and for none of the six other types. |
| QuestionEditor.AddOption | src/components/questionnaires/QuestionEditor.tsx:62-71 | One option with empty text and value is appended (an absent list counts as empty) and nothing else changes. |
| QuestionEditor.UpdateOption | src/components/questionnaires/QuestionEditor.tsx:73-77 | Only the option at the index is patched. |
| QuestionEditor.RemoveOption | src/components/questionnaires/QuestionEditor.tsx:79-83 | Exactly the option at the index is removed, none past the end. |
| QuestionEditor.AddThenRemoveOption | src/components/questionnaires/QuestionEditor.tsx:62-83 | Removing an option just added restores the option list. |
| QuestionEditor.ToggleTag | src/components/questionnaires/QuestionEditor.tsx:85-90 | The tag's membership flips, every other tag's membership is kept, and an absent tag is appended once at the end. |
| QuestionEditor.ToggleTagTwice | src/components/questionnaires/QuestionEditor.tsx:85-90 | Toggling an absent tag twice restores the question. |
| QuestionEditor.SetMin | src/components/questionnaires/QuestionEditor.tsx:240-247 | An empty input clears the minimum, any other input sets it to the parsed number, and no other validation field changes. |
| QuestionEditor.SetMax | src/components/questionnaires/QuestionEditor.tsx:254-261 | The same for the maximum. |
| QuestionEditor.ParseFileTypes | src/components/questionnaires/QuestionEditor.tsx:293-296 | The allowed file types are the input's comma-separated pieces, each trimmed. |
| QuestionEditor.FileTypesRoundTrip | src/components/questionnaires/QuestionEditor.tsx:292-296 | Showing trimmed, comma-free file types joined by ', ' and parsing the field back gives the same list. |
| ResponseView.FindSection | src/components/questionnaires/QuestionnaireResponseView.tsx:117 | The first response section with the template section's id, or none when there is none. |
| ResponseView.Merge | src/components/questionnaires/QuestionnaireResponseView.tsx:116-122 | One merged section per template section, in template order. |
| ResponseView.MergeTakesFirstMatch | src/components/questionnaires/QuestionnaireResponseView.tsx:116-122 | A template section without a response entry is shown with no answers; one with an entry shows exactly the first matching entry's answers. |
| ResponseView.StatusColor | src/components/questionnaires/QuestionnaireResponseView.tsx:62-71 | A colour exists exactly for the five declared statuses; 'completed', which submit writes, has none. |
| ResponseView.StatusColorInjective | src/components/questionnaires/QuestionnaireResponseView.tsx:62-71 | Distinct declared statuses get distinct colours. |
| ResponseView.SubmitHidesButton | src/components/questionnaires/QuestionnaireResponseView.tsx:416 | After submission the submit button is gone and the status badge has no colour. |
| ResponseView.CreateShowsButton | src/components/questionnaires/QuestionnaireResponseView.tsx:416 | A freshly created response offers the submit button. |
| ResponseView.DisplayedValue | src/components/questionnaires/QuestionnaireResponseView.tsx:390-407 | A question shows the value of its first answer, or null when it has none. |
| ResponseView.DisplayedAfterUpsert | src/components/questionnaires/QuestionnaireResponseView.tsx:390-407 | Once an answer is saved into a section, the question shows the saved value. |
| ResponseView.DisplayedOtherUnchanged | src/components/questionnaires/QuestionnaireResponseView.tsx:390-407 | Saving an answer does not change what another question shows. |
| TemplatesView.CountQuestions | src/components/questionnaires/QuestionnaireTemplatesView.tsx:179 | The question count shown, summed section by section, is the total number of questions. |
| TemplatesView.DuplicateKeepsCounts | src/components/questionnaires/QuestionnaireTemplatesView.tsx:94-102 | A copy shows the same section and question counts as its original. |
| TemplatesView.DuplicateValidates | src/components/questionnaires/QuestionnaireTemplatesView.tsx:98 | A copy of a template with a section always passes the editor's checks, since ' (Copy)' alone is not blank. |
| TemplatesView.DuplicateSaveFails | src/components/questionnaires/TemplateEditorModal.tsx:97-105 | Saving a copy with the editor as written passes the empty id to the update, which fails and stores nothing. |
| TemplatesView.DuplicateSaveFixedCreates | src/components/questionnaires/TemplateEditorModal.tsx:97-112 | Saving a copy with the corrected editor stores a new template with a fresh id, the copied title and sections, at version 1. |
| ProductSheets.Issues | src/types/productSheet.ts:3-15 | The sheet schema reports a name message exactly when the name is empty, a supplier message exactly when the supplier is empty and a tag message exactly when no tag is selected. |
| ProductSheets.ValidIffNoIssues | src/types/productSheet.ts:3-15 | A sheet satisfies the schema exactly when it has no issue. |
| ProductSheets.ToStore | src/services/productSheets.ts:21-32 | The stored document carries the sheet's tags, absent answers are written as an empty record, and a fresh document has no send time. |
| ProductSheets.FromStore | src/services/productSheets.ts:34-46 | A missing tag list reads as empty and the answers are read as stored. |
| ProductSheets.RoundTrip | src/services/productSheets.ts:21-46 | Writing a sheet and reading it back gives the same sheet, except that absent answers come back as an empty record; the optional dates survive. |
| ProductSheets.RoundTripStable | src/services/productSheets.ts:21-46 | After one write and read, a further round trip writes the same document. |
| ProductSheets.Create | src/services/productSheets.ts:48-82 | The sheet is always stored under the fresh id, with both times now, the fresh token, the caller's fields, written tags and answers (absent answers as an empty record) and no send time. For a non-empty company id one index entry of the company then points at it and the sheet is returned; an empty company id makes no index path, so the call fails with 'Failed to create product sheet' after the sheet is stored and no index changes. Other companies' indexes never change. |
| ProductSheets.GetSheet | src/services/productSheets.ts:115-128 | A missing sheet fails with 'Failed to fetch product sheet'; otherwise the stored sheet is read back with its name, status, token and tags. |
| ProductSheets.CreateThenGet | src/services/productSheets.ts:48-128 | Fetching a created sheet gives what creation returned, with absent answers read as an empty record; after a failed creation the sheet can be fetched all the same. |
| ProductSheets.GetAllSheets | src/services/productSheets.ts:84-113 | A company id that is left out or empty makes no index path and fails with 'Failed to fetch product sheets', as does an index of more than 30 entries, which exceeds the `in` filter; otherwise an empty index gives nothing, and any other gives every stored sheet the index points at, once each, in document-id order, and only those. |
| ProductSheets.ViewLoad | src/components/products/SupplierProductsView.tsx:46-57 | The supplier products view, calling the service without a company id, always gets 'Failed to fetch product sheets'. |
| ProductSheets.ViewLoadFixed | src/components/products/SupplierProductsView.tsx:46-57 | As evidently intended, with the signed-in user's company: the load succeeds exactly when the company id is non-empty and its index fits the `in` filter, and then lists every stored sheet the index points at. |
| ProductSheets.DeleteSheet | src/services/productSheets.ts:157-176 | An empty sheet id is not a document reference: the call fails and nothing changes. Otherwise the sheet goes first; then, for a company id that makes an index path, exactly every index entry of that company pointing at the sheet goes and the rest stay; for one that is left out or empty the call fails with 'Failed to delete product sheet' with the sheet gone and every index untouched. |
| ProductSheets.DeleteLeavesNoDangling | src/services/productSheets.ts:157-176 | After a delete for a company no index entry of that company points at the sheet and fetching it fails. |
| ProductSheets.ViewDeleteFails | src/components/products/SupplierProductsView.tsx:111-127 | The view's delete, passing no company id, removes the sheet but reports 'Failed to delete product sheet', and every company's index still points where it did. |
| ProductSheets.SendSheet | src/services/productSheets.ts:178-189 | Whatever its status, an existing sheet becomes sent with update and send times now; a missing one fails with 'Failed to send product sheet' and nothing written. |
| ProductSheets.SendFromAnyStatus | src/services/productSheets.ts:178-185 | There is no draft check: any sheet reads back as sent, and sending twice is sending once at the later time. |
| ProductSheets.CheckForm | src/components/products/CreateProductSheetModal.tsx:73-84 | The dialog's checks in order: blank name, then missing supplier, then no tags; the form passes exactly when none holds. |
| ProductSheets.DueDate | src/components/products/CreateProductSheetModal.tsx:94 | An empty due date input gives no due date. |
| ProductSheets.Submit | src/components/products/CreateProductSheetModal.tsx:68-101 | A failed check or a failed supplier lookup ('Selected supplier not found') stops with that field error; otherwise the service is called with the sheet name in the place of the company id and the supplier id string in the place of the sheet record |
| ProductSheets.SubmitPassesNoSheet | src/components/products/CreateProductSheetModal.tsx:96-101 | For a form that passes every check, the service never receives a sheet record, and the company it indexes under is the user's only when the sheet is named after it. |
| ProductSheets.SubmitFixed | src/components/products/CreateProductSheetModal.tsx:68-131 | As evidently intended: the same field errors as written; otherwise the sheet is stored under the new id with the parsed due date; for a non-empty company id it is indexed for the user's company and sent when sending at once (a draft otherwise), while an empty one makes the creation fail with its message and leaves the sheet a draft. |
| ProductSheets.SubmitStoresValidSheet | src/components/products/CreateProductSheetModal.tsx:68-131 | Whatever the corrected dialog stores passes the sheet schema and carries the form's name, supplier and tags |
| Customers.ParseCustomer | src/types/customer.ts:11-27 | Parsing keeps every given field (name, contact name and address, status, progress, last update, the three optional dates, notes), fills counters with 0 and lists with empty, and refuses exactly the records that break a constraint of the customer schema, the e-mail check on the contact included; an empty contact is always refused |
| Customers.ParseInvite | src/types/customer.ts:29-35 | The invite schema accepts exactly the invites with both names given and a contact the e-mail check accepts, never an empty one, and absent tags become empty |
| Customers.ToCustomer | src/services/customers.ts:23-39 | The contact is the email field when non-empty, else primaryContact; a blank status reads as inactive; missing numbers read as 0 and missing lists as empty; the last update is updatedAt, else lastUpdated, else now; the invitation, registration and last login dates are read as stored. |
| Customers.Search | src/services/customers.ts:41-57 | At most five companies, each stored, read with the conversion, in the name range of the lower-cased term and containing it case-insensitively, in name order. |
| Customers.InviteEmail | src/services/customers.ts:176-188 | The invite email goes to the primary contact with the supplier-invitation template and a sign-up link carrying the invite code. |
| Customers.Invite | src/services/customers.ts:121-223 | An unknown inviter fails the batch and writes nothing; a sent email leaves invite, placeholder and link; a failed email leaves the invites as they were, the placeholder gone, the inviter still linked to the new id, and fails with 'Failed to invite customer: ' and the email error. |
| Customers.CleanUp | src/services/customers.ts:189-215 | One clean-up as written deletes the invite and the placeholder and set-unions the id into the inviter again. |
| Customers.InviteFailureLeavesDanglingLink | src/services/customers.ts:189-199 | After a failed email the inviter's customers name a company that no longer exists. |
| Customers.CleanUpFixed | src/services/customers.ts:189-215 | The corrected clean-up removes the id from the inviter's customers instead. |
| Customers.RolledBack | src/services/customers.ts:189-215 | The batch followed by both corrected clean-ups leaves the invites as they were and every company as it was except the inviter's update time. |
| Customers.InviteFixed | src/services/customers.ts:121-223 | The invite with the corrected clean-up: on a failed email the invites are as they were and the inviter's customers no longer hold the new id. |
| Customers.InviteFixedRollsBack | src/services/customers.ts:189-215 | With the corrected clean-up a failed invite leaves no company pointing at the removed placeholder. |
| Customers.PlaceholderIsValidCustomer | src/services/customers.ts:148-164 | The placeholder company reads back as a schema-valid customer awaiting its invitation, with the invite's contact and no activity. |
| Auth.SignUp | src/contexts/AuthContext.tsx:64-113 | An email in use fails before anything is written; otherwise the account exists even when the invite checks then fail ('Invalid invite token', 'Email does not match invitation', no profile); with a valid invite the profile takes the invite's companyId and role and the invite is marked used; without a token the user gets a company under their uid and the admin role. |
| Auth.SignUpWith | src/contexts/AuthContext.tsx:64-113 | The same sign-up for any way of reading the company and role off an invite. |
| Auth.InvitedCustomerGetsNoCompany | src/contexts/AuthContext.tsx:84 | A customer who signs up through the invite a customer invitation wrote gets no company. |
| Auth.SignUpFixed | src/contexts/AuthContext.tsx:72-95 | The corrected sign-up succeeds and fails exactly as the original, and is the original without a token. |
| Auth.InvitedCustomerJoinsCompany | src/contexts/AuthContext.tsx:84-85 | With the correction a customer signing up through their invite joins the placeholder company the invite created. |
| SupplierInvitations.NewSupplierIsValid | src/types/supplier.ts:17-41 | An invitation the invite schema accepts gives a supplier the supplier schema accepts. |
| SupplierInvitations.InviteRequest | src/services/supplierInvitations.ts:56-68 | The invitation email goes to the primary contact with the supplier-invitation template, the two names, and a link carrying the new supplier's id. |
| SupplierInvitations.InviteSupplier | src/services/supplierInvitations.ts:31-81 | The record is stored before the email is sent; a failed email is reported as 'Failed to invite supplier: ' and the email error, and the record stays. |
| SupplierInvitations.InvitedSupplierPersists | src/services/supplierInvitations.ts:54-80 | Whatever the email does, the new supplier can be fetched afterwards as it was created. |
| SupplierInvitations.StatusPatch | src/services/supplierInvitations.ts:110-118 | The status update writes the status and time, and a registration date exactly when the status is registered. |
| SupplierInvitations.UpdateInvitationStatus | src/services/supplierInvitations.ts:104-128 | A missing supplier fails and nothing is written; otherwise only status and time change, and the registration date is set exactly when registering. |
| SupplierInvitations.StatusUpdateIsSupplierUpdate | src/services/supplierInvitations.ts:104-128 | A status change writes what the general supplier update writes with the same fields. |
| SupplierInvitations.RegistrationDateSticks | src/services/supplierInvitations.ts:115-118 | A registered supplier keeps its registration date through later status changes. |
| SupplierInvitations.ReadPending | src/services/supplierInvitations.ts:8-29 | This service's conversion fails on a document without a history, with the error mapping over the missing list raises; otherwise it keeps the stored history and any stored tags |
| SupplierInvitations.ReadAll | src/services/supplierInvitations.ts:92-94 | Reading a listing succeeds exactly when every document has a history, one supplier per document in order. |
| SupplierInvitations.GetPendingInvitations | src/services/supplierInvitations.ts:83-102 | Exactly the pending suppliers, once each, newest invitation first; a pending document without a history fails the listing. |
| Suppliers.ParseSupplier | src/types/supplier.ts:17-34 | Parsing keeps every given field (name, progress, contact address and name, status, score, last update, the three optional dates, notes), fills counters with 0 and lists with empty, and refuses exactly the records with an empty name or contact name, a contact the e-mail check refuses, a progress or score outside [0, 100], or a history score outside [0, 100] |
| Suppliers.ParseInvite | src/types/supplier.ts:36-41 | The supplier invite schema accepts exactly the invites with both names given and a contact the e-mail check accepts, never an empty one |
| Suppliers.ToStore | src/services/suppliers.ts:18-38 | Absent dates are written as null and the tags and history are always written. |
| Suppliers.FromStore | src/services/suppliers.ts:40-61 | Missing tags and a missing history read as empty. |
| Suppliers.RoundTrip | src/services/suppliers.ts:18-61 | Writing a supplier and reading it back gives the same supplier. |
| Suppliers.StoreRoundTrip | src/services/suppliers.ts:18-61 | Reading a document and writing it back only fills in missing lists. |
| Suppliers.AddSupplier | src/services/suppliers.ts:63-78 | The supplier is stored under the fresh id and returned as given. |
| Suppliers.GetSupplier | src/services/suppliers.ts:80-97 | The fetch succeeds exactly for a non-empty id that is stored; a missing supplier fails with 'Failed to fetch supplier: Supplier not found' and an empty id with the invalid-reference error under the same prefix. |
| Suppliers.AddThenGet | src/services/suppliers.ts:63-97 | An added supplier reads back exactly as given. |
| Suppliers.GetSuppliers | src/services/suppliers.ts:99-106 | Every supplier exactly once, read with the conversion, most recently updated first. |
| Suppliers.ApplyPatch | src/services/suppliers.ts:116-135 | An empty update leaves the document as it was, and a tag list or history present in the update replaces the stored one. |
| Suppliers.UpdateCommutes | src/services/suppliers.ts:116-135 | Updating the stored document and reading it is reading it and updating the record; the same update twice is the update once. |
| Suppliers.UpdateSupplier | src/services/suppliers.ts:116-143 | A missing supplier fails and nothing is written; otherwise only the fields present in the update change, and no other supplier does. |
| SupplierCompliance.SortedHistory | src/services/supplierCompliance.ts:53-54 | The sorted history holds the same records, newest first. |
| SupplierCompliance.Recent | src/services/supplierCompliance.ts:53-55 | The three newest records (all when fewer), none older than any record left out. |
| SupplierCompliance.RecentMean | src/services/supplierCompliance.ts:57-59 | When every record's score is a percentage, so is the rounded mean of the recent ones. |
| SupplierCompliance.AddComplianceRecord | src/services/supplierCompliance.ts:26-73 | The record document is written first; a missing supplier then fails with 'Supplier not found' and the record stays; otherwise the history gains the new record, is written newest first, and the score becomes the rounded mean of the three newest. |
| SupplierCompliance.AddKeepsScoreInRange | src/services/supplierCompliance.ts:47-62 | With percentages stored and added, the new score is a percentage and the written history is the old records plus the new one. |
| SupplierCompliance.FirstRecordSetsScore | src/services/supplierCompliance.ts:47-59 | The first record of a supplier sets the score to that record's score. |
| SupplierCompliance.FindQuestion | src/services/supplierCompliance.ts:97 | The first embedded question with the id, or none exactly when there is none. |
| SupplierCompliance.TagContributions | src/services/supplierCompliance.ts:100-118 | One contribution per tag of the question, in tag order, worth 50 exactly when the answer is flagged and 100 otherwise. |
| SupplierCompliance.AnswerContributions | src/services/supplierCompliance.ts:96-98 | An answer whose question is not embedded contributes nothing. |
| SupplierCompliance.AllContributions | src/services/supplierCompliance.ts:94-120 | The contributions of a list of submissions are those of its parts, in order. |
| SupplierCompliance.Categories | src/services/supplierCompliance.ts:101-103 | Each tag that received a contribution appears once, and no other. |
| SupplierCompliance.PointsFor | src/services/supplierCompliance.ts:105-117 | A category has points exactly when it received a contribution, each between 50 and 100. |
| SupplierCompliance.CategoryScore | src/services/supplierCompliance.ts:127-129 | A category score lies in [50, 100]. |
| SupplierCompliance.CategoryScores | src/services/supplierCompliance.ts:123-132 | Every category that received a contribution has a score in [50, 100], and no other category does. |
| SupplierCompliance.OverallScore | src/services/supplierCompliance.ts:134 | The overall score is 0 without categories and in [50, 100] with them. |
| SupplierCompliance.Findings | src/services/supplierCompliance.ts:106-113 | There are never more findings than contributions. |
| SupplierCompliance.FindingsMatchFlags | src/services/supplierCompliance.ts:106-116 | There is one finding per flagged contribution. |
| SupplierCompliance.FindingsNameCategories | src/services/supplierCompliance.ts:108-113 | Every finding is of medium severity and names a scored category. |
| SupplierCompliance.BuildReport | src/services/supplierCompliance.ts:137-144 | The report names the supplier, time and questionnaires, with an overall score in [0, 100] that is 0 without categories, and category scores in [50, 100]. |
| SupplierCompliance.UnknownQuestionsSkipped | src/services/supplierCompliance.ts:97-98 | A submission none of whose answers has an embedded question changes nothing in the report. |
| SupplierCompliance.UnknownAnswersContributeNothing | src/services/supplierCompliance.ts:97-98 | Answers to questions that are not embedded contribute nothing. |
| SupplierCompliance.NoFlagsFullMarks | src/services/supplierCompliance.ts:114-116 | Without flagged answers there are no findings and every category scores 100. |
| SupplierCompliance.Stored | src/services/supplierCompliance.ts:88-95 | The submissions read, one per selected id in order. |
| SupplierCompliance.GenerateReport | src/services/supplierCompliance.ts:75-154 | An empty questionnaire list, or one of more than 30, is refused by the `in` filter and fails before any write; otherwise the report is built over exactly the approved submissions of the supplier for those questionnaires, each once, in document-id order, and stored |
| SupplierCompliance.SelectedIds | src/services/supplierCompliance.ts:84-91 | The query without `orderBy` gives exactly the approved submissions of the supplier for the questionnaires, each once, in document-id order. |
| SupplierCompliance.History | src/services/supplierCompliance.ts:164-202 | A missing supplier fails with 'Supplier not found'; otherwise exactly the records within the range, each as often as it is stored (equal multisets with the filtered history), newest first. |
| SupplierCompliance.UnboundedHistoryIsComplete | src/services/supplierCompliance.ts:175-194 | Without a range every stored record is returned, each as often as stored. |
| SupplierQuestionnaires.NextPending | src/services/supplierQuestionnaires.ts:86 | The pending count becomes one more than before, or 1 when there was no count; it is never 0. |
| SupplierQuestionnaires.CreateRequest | src/services/supplierQuestionnaires.ts:48-98 | A missing template fails with 'Template not found' before any write; otherwise the pending questionnaire (null deadline when none is given) and its draft submission are written, and then the supplier's pending count is raised, a missing supplier failing only at that step. |
| SupplierQuestionnaires.RequestCountsPending | src/services/supplierQuestionnaires.ts:84-88 | Each successful request raises a non-negative pending count by exactly one. |
| SupplierQuestionnaires.CreatedSubmissionIsFound | src/services/supplierQuestionnaires.ts:73-81 | The new request's submission is the one the lookup then finds for it. |
| SupplierQuestionnaires.GetSubmission | src/services/supplierQuestionnaires.ts:101-127 | Nothing exactly when no submission matches the questionnaire and supplier; otherwise a matching one, the first in id order. |
| Listing.First | src/services/questionnaireTemplates.ts:218-225 | The first document of a `where` query: nothing exactly when no document is kept, otherwise a kept document, paired with its id, whose id is the least of the kept ones. |
| SupplierQuestionnaires.UpdateStatus | src/services/supplierQuestionnaires.ts:137-165 | A missing submission fails and nothing is written; otherwise the status and time change, the submission time is set exactly for 'submitted', and the comment only when one is given. |
| SupplierQuestionnaires.ReviewKeepsSubmissionTime | src/services/supplierQuestionnaires.ts:149-155 | Approving or rejecting keeps the submission time, and no comment keeps the previous one. |
| SupplierQuestionnaires.AddDocument | src/services/supplierQuestionnaires.ts:167-194 | A missing submission fails with 'Submission not found'; otherwise exactly one document, stamped now, is appended after the existing ones. |
| SupplierQuestionnaires.TwoUploadsInOrder | src/services/supplierQuestionnaires.ts:178-181 | Two uploads leave both documents, in upload order, after the earlier ones. |
| SupplierQuestionnaires.UpdateAnswers | src/services/supplierQuestionnaires.ts:196-215 | The answers and the completion rate are replaced, the status and documents kept; a missing submission fails. |
| SupplierQuestionnaires.LastAnswersWin | src/services/supplierQuestionnaires.ts:203-207 | Answers are replaced, not merged: after two updates only the later remains. |
| SupplierQuestionsForm.InitialAnswers | src/components/auth/SupplierQuestionsForm.tsx:55-59 | Every loaded question id maps to the empty answer, and no other id appears. |
| SupplierQuestionsForm.Load | src/components/auth/SupplierQuestionsForm.tsx:45-59 | An invite without tags loads no questions and no answers; otherwise the fetched questions, each with an empty answer. |
| SupplierQuestionsForm.Errors | src/components/auth/SupplierQuestionsForm.tsx:79-84 | A question id is in the error map exactly when the question is required and its answer is missing or blank after trimming. |
| SupplierQuestionsForm.Submit | src/components/auth/SupplierQuestionsForm.tsx:86-93 | The answers are handed on exactly when no required question is unanswered; otherwise the non-empty error map is shown. |
| SupplierQuestionsForm.OptionalNeverFlagged | src/components/auth/SupplierQuestionsForm.tsx:81 | A question that is not required never gets an error. |
| SupplierQuestionsForm.FreshFormRejectsRequired | src/components/auth/SupplierQuestionsForm.tsx:55-93 | A freshly loaded form with a required question cannot be submitted. |
| SupplierQuestionsForm.AllOptionalCompletes | src/components/auth/SupplierQuestionsForm.tsx:79-93 | A form whose questions are all optional is submitted at once. |
| TagSelector.FilteredTags | src/components/questions/TagSelector.tsx:47-50 | The dropdown holds exactly the available tags that are not selected and whose lower-cased name contains the lower-cased search. |
| TagSelector.Remove | src/components/questions/TagSelector.tsx:58-60 | Every occurrence of the id leaves the selection and nothing else does. |
| TagSelector.SelectedTags | src/components/questions/TagSelector.tsx:62 | The chips are exactly the available tags whose id is selected, so a selected id with no tag behind it shows nothing. |
| TagSelector.EmptySearchListsUnselected | src/components/questions/TagSelector.tsx:47-50 | With an empty search the dropdown holds exactly the unselected tags. |
| TagSelector.SelectMovesTag | src/components/questions/TagSelector.tsx:47-62 | A chosen tag leaves the dropdown and shows as a chip when it is available. |
| TagSelector.SelectThenRemove | src/components/questions/TagSelector.tsx:52-60 | Removing a just-chosen tag restores a selection that did not hold it. |
| TagSelector.ListsKeepOrder | src/components/questions/TagSelector.tsx:47-62 | Splitting the available tags splits the dropdown and the chips the same way. |
| TagSelector.RemoveOffersTagAgain | src/components/questions/TagSelector.tsx:47-60 | A removed tag is offered again whenever its name matches the search. |
| QuestionsView.ToggleQuestion | src/components/questions/QuestionsView.tsx:133-139 | A selected question is deselected, every occurrence; an unselected one is appended. |
| QuestionsView.Header | src/components/questions/QuestionsView.tsx:226-228 | The header box is ticked exactly when the counts are equal, indeterminate exactly when some but fewer are selected, never both. |
| QuestionsView.SelectAllThenClear | src/components/questions/QuestionsView.tsx:125-131 | After a partial selection the header ticks everything, and a second click clears it. |
| QuestionsView.ToggleQuestionTwice | src/components/questions/QuestionsView.tsx:133-139 | Toggling a question twice restores a selection it was not in. |
| QuestionsView.KnownLabelsDiffer | src/components/questions/QuestionsView.tsx:141-154 | Distinct known types get distinct labels, and none is shown by its raw name. |
| QuestionList.Panel | src/components/questions/QuestionList.tsx:96-110 | A panel shows, in list order, exactly the questions of its group: no section for the unsorted panel, the section's id otherwise. |
| QuestionList.Positions | src/components/questions/QuestionList.tsx:96-110 | The whole-list indices of a panel's questions, increasing, one per panel question. |
| QuestionList.MoveUp | src/components/questions/QuestionList.tsx:34-48 | Nothing at index 0; otherwise the question trades places with the one before it in the whole list, nothing else moves, and the result is a permutation. |
| QuestionList.MoveDown | src/components/questions/QuestionList.tsx:50-64 | Nothing at the last index; otherwise the question trades places with the one after it, nothing else moves, and the result is a permutation. |
| QuestionList.MoveUpThenDown | src/components/questions/QuestionList.tsx:34-64 | Moving up and then down again restores the list. |
| QuestionList.MoveUpUsesPanelIndex | src/components/questions/QuestionList.tsx:66-83 | With two unsorted questions ahead of a section's two, moving up the section's second question swaps the two unsorted ones and leaves the section as it was. |
| QuestionList.SwapInPanel | src/components/questions/QuestionList.tsx:38-47 | Exchanging two positions of a panel exchanges the two questions in the panel and changes nothing else it shows. |
| QuestionList.MoveUpInPanel | src/components/questions/QuestionList.tsx:34-48 | The corrected move up: nothing at the top of the panel; otherwise the question trades places with the one before it in its own panel, the result a permutation. |
| QuestionList.MoveDownInPanel | src/components/questions/QuestionList.tsx:50-64 | The corrected move down, symmetric. |
| QuestionList.MoveUpInPanelKeepsOtherPanels | src/components/questions/QuestionList.tsx:66-83 | The corrected move up leaves every panel that shares no question with the moved one as it was. |
| QuestionList.MoveDownInPanelKeepsOtherPanels | src/components/questions/QuestionList.tsx:66-83 | The same for the corrected move down. |
| QuestionList.SinglePanelAgrees | src/components/questions/QuestionList.tsx:34-64 | When one panel holds the whole list, the corrected moves do what the handlers as written do. |
| QuestionList.MoveUpInPanelExample | src/components/questions/QuestionList.tsx:66-83 | In the same example the corrected move up brings the section's second question to the top of its panel. |
| SectionsManager.AddSection | src/components/questions/SectionsManager.tsx:55-76 | A blank name adds nothing; any other name adds a section named by the name with the white space at both ends trimmed, placed after the current sections and without description. |
| SectionsManager.AddedNameIsStable | src/components/questions/SectionsManager.tsx:56-63 | The kept name is already trimmed: adding it again adds the same section. |
| SectionsManager.Find | src/components/questions/SectionsManager.tsx:80-81 | The first section with the id, or none exactly when there is none. |
| SectionsManager.RenameSection | src/components/questions/SectionsManager.tsx:78-97 | An unknown id writes nothing; otherwise the section with that id is written back with the trimmed new name and every other field kept. |
| SectionsManager.Replace | src/components/questions/SectionsManager.tsx:86-90 | Writing a section back replaces every section with its id and nothing else. |
| SectionsManager.RenameTwice | src/components/questions/SectionsManager.tsx:78-97 | Renaming twice leaves the second name and everything else as the first rename found it. |
| SectionsManager.Renumber | src/components/questions/SectionsManager.tsx:122-125 | Every section's order becomes its position and nothing else changes. |
| SectionsManager.DragEnd | src/components/questions/SectionsManager.tsx:114-131 | A drop outside the list changes nothing; otherwise the dragged section lands at the drop index, the others keep their relative order, and orders are renumbered by position. |
| SectionsManager.DragBack | src/components/questions/SectionsManager.tsx:114-131 | Dragging a section back to where it came from restores the arrangement, numbered by position. |
| AddQuestionModal.TypeChange | src/components/questions/AddQuestionModal.tsx:137-144 | Multiple choice starts one empty option and shows the editor; any other type drops the options and hides it; nothing else changes. |
| AddQuestionModal.TypeChangeShowsOptionsIffAny | src/components/questions/AddQuestionModal.tsx:137-144 | After a type change the editor shows exactly when there are options, and choosing the same type again changes nothing more. |
| AddQuestionModal.RemoveOption | src/components/questions/AddQuestionModal.tsx:123-128 | Exactly the option at the index goes, an index outside changes nothing. |
| AddQuestionModal.UpdateOption | src/components/questions/AddQuestionModal.tsx:130-135 | Only the option at the index changes. |
| AddQuestionModal.AddThenRemoveOption | src/components/questions/AddQuestionModal.tsx:116-128 | Removing the option just added restores the form. |
| AddQuestionModal.UpdateOptionTwice | src/components/questions/AddQuestionModal.tsx:130-135 | Editing an option twice keeps the later text. |
| AddQuestionModal.FieldErrors | src/components/questions/AddQuestionModal.tsx:73-83 | One error per field with an issue, holding the last issue's message for that field. |
| AddQuestionModal.Submit | src/components/questions/AddQuestionModal.tsx:59-114 | Any schema issue shows the field errors and adds nothing; otherwise the question is added and, when stored, the form resets and the option editor hides, while a failed store keeps the form. |
| AddQuestionModal.AddResetsForm | src/components/questions/AddQuestionModal.tsx:95-103 | After a successful add the dialog is back to its opening state whatever was typed. |
| Notifications.EmailTemplate | src/services/notifications.ts:87-107 | A template exists exactly for the two questionnaire and two supplier kinds. |
| Notifications.EmailTemplateInjective | src/services/notifications.ts:90-104 | Distinct kinds get distinct templates. |
| Notifications.EmailContext | src/services/notifications.ts:94-104 | The context always names the supplier, and the product sheet exactly for questionnaire kinds. |
| Notifications.Send | src/services/notifications.ts:73-122 | The notification is stored unread first; a known kind then queues one unsent email with its template and context, scheduled now, and returns the id; an unknown kind fails with 'Invalid notification type' with the notification already stored. |
| Notifications.MarkRead | src/services/notifications.ts:151-162 | An existing notification is marked read with the time and nothing else changes; the empty id is not a document reference and a missing notification fails the update, neither writing anything |
| Notifications.MarkReadTwice | src/services/notifications.ts:151-157 | Marking twice is marking once at the later time. |
| Tags.Issues | src/types/tag.ts:3-8 | The tag schema reports the name message exactly for an empty name and the colour message exactly for a colour that is not '#' and three or six hex digits. |
| Tags.EnsureTagColor | src/types/tag.ts:13-16 | A non-empty colour and every other field are kept; an empty colour becomes '#2E7D32'. |
| Tags.EnsureTagColorRepairs | src/types/tag.ts:3-16 | A named tag with an empty or valid colour passes the schema after the fill-in, a malformed colour is still reported, and filling in twice changes nothing more. |
| EmailClient.SendEmail | src/services/email.ts:18-63 | Defined data is success; undefined data fails with 'Email sending failed: Failed to initiate email sending'; internal and unavailable errors are success; any other error fails with its details, else its message, else the unknown-error text. |
| EmailClient.Classify | src/services/email.ts:30-62 | The error handling alone, in the same order. |
| EmailClient.FailuresAreLabelled | src/services/email.ts:30-62 | Every failure carries the send-failure prefix or is the unknown-error text, and a swallowed error code succeeds whatever else the error carries. |
| EmailFunction.CheckRecipient | functions/src/index.ts:109-111 | Accepts exactly the addresses with a non-empty local part, one '@', and a domain with a '.' that has text on both sides, none of them holding white space or another '@'. |
| EmailFunction.TemplateNamed | functions/src/index.ts:103-106 | Exactly the four template names are known. |
| EmailFunction.CreatedBody | functions/src/index.ts:35-47 | The new-sheet body has the due-date paragraph, third, exactly when a due date is given. |
| EmailFunction.ReminderBody | functions/src/index.ts:48-59 | The reminder always has the due date third, read as it is. |
| EmailFunction.SendEmail | functions/src/index.ts:80-143 | The checks run in order: configuration, fields, template, address, the first failure deciding the error with nothing sent; otherwise one message goes out with the template's subject and body, and success is returned only when that send succeeds. |
| EmailFunction.AtClient | functions/src/index.ts:130-144 | A success reaches the browser as defined data; every failure reaches it as the callable protocol's internal error. |
| EmailFunction.Invoke | src/services/email.ts:18-43 | End to end, the caller is told the e-mail was sent whatever happened in the function, a refused recipient or the mail service's rejection included; when nothing was handed to the mail service the function itself failed. |
| Seqs.Toggle | src/components/questions/QuestionsView.tsx:134-138 | The membership of the element flips, every other membership is kept, an absent element is appended once, and a present one is removed everywhere. |
| Seqs.RemoveAllIsFilter | src/components/questions/QuestionsView.tsx:134-138 | Removing every occurrence of a value is filtering it out, so what is kept stays in its original order. |
| Seqs.Move | src/components/questions/SectionsManager.tsx:117-119 | Moving takes the element out and puts it in at the destination, the others keeping their relative order. |
| Seqs.MoveBack | src/components/questions/SectionsManager.tsx:117-119 | Moving an element back to where it came from undoes a move. |
| Text.Trim | src/components/questions/SectionsManager.tsx:56-59 | No white space is left at either end, and the result is empty exactly when the input is all white space. |
| Text.TrimIsSlice | src/components/questions/SectionsManager.tsx:59 | Trimming keeps one contiguous piece and drops only white space around it. |
| Text.SplitJoin | src/components/questionnaires/QuestionEditor.tsx:292-296 | Splitting a join of separator-free pieces gives the pieces back. |
| Firestore.ArrayUnion | src/services/customers.ts:167-171 | The value is in the result, nothing else is added, an existing value changes nothing and a new one goes at the end. |
| Firestore.RemoveUndoesUnion | src/services/customers.ts:194-197 | Applying the union again changes nothing, while removing after it removes the value as if it had never been added. |
| Rounding.RoundDiv | src/services/supplierCompliance.ts:57-59 | The rounded quotient is the nearest integer, halves rounded up. |
| Rounding.RoundedMeanBounds | src/services/supplierCompliance.ts:57-59 | The rounded mean of values in a range stays in that range. |
| Listing.Sort | src/services/suppliers.ts:101 | The result is a permutation of the input, sorted whenever the order is a preorder, and free of duplicates when the input is. |
| Listing.Query | src/services/questionnaireTemplates.ts:114-119 | Every kept document exactly once, paired with its id, in the query's order, documents the order cannot tell apart by id in the direction of the ordering; a query without order comes back in document-id order. |

Some behaviour of the source is odd but deliberate-looking, and the model keeps it as written:

- SectionsManager.RenameSection writes the trimmed name even when it is blank. Only adding a section refuses a blank name.
- QuestionsView.Header shows the header box ticked when there are no questions and nothing is selected, because it compares two zero lengths.
- EmailFunction.Invoke: every error the email function throws is a plain `Error`, which reaches the browser as the internal error, and the client counts that as success ("it might still be processing"). A refused recipient or a rejection by the mail service is therefore reported to the user as an email sent.
- QuestionsView.ToggleSelectAll compares only the lengths of the selection and the list. A selection of the right length that holds unknown ids is cleared, not completed.

## Left out

- Timing: the 2-second debounce of the autosave is modelled only as "the last call of a burst wins". A timer firing between calls is modelled as a separate `Fire`.
- Concurrency: interleaved requests, and partial failure of a batch or of `Promise.all` (the section renumbering in `onDragEnd` writes every section or none in the model), are not modelled. Nor is a failure between two writes the source awaits one after the other: `createTemplate` (src/services/questionnaireTemplates.ts:45-60) adds the section and question documents one `addDoc` at a time, so a failure part-way leaves some of them stored, while the model's `QuestionnaireTemplates.Create` writes all of them or, when its fresh-id precondition fails, is not called.
- Floating point: the completion rate is a `real`. Rounded scores use exact integer rounding of the mean, halves up, as `Math.round` does for non-negative values.
- External services are parameters: the document store's generated ids, the current time, random tokens and invite codes, the authentication service's account creation, the mail service's delivery and the callable as seen from the client. The rendering of the pages, toasts and navigation is left out.
- The HTML of the email bodies is modelled as a list of paragraphs, without markup or styling.
- zod's `.email()` pattern: the pattern lives in the zod library and differs between its versions, and the library's version is not part of this model. The customer and supplier schemas take the library's verdict as the parameter `emailOk`; the model itself demands only what every version does, an '@' with text on both sides, so an empty address is always refused. The recipient pattern of the email function is modelled exactly.
- Text.ToLower folds ASCII letters only; JavaScript's full Unicode case mapping is not modelled.
- The question bank service (src/services/questions.ts) and the question schema are not part of this model: the questions it returns and the schema's issues are parameters.
- Missing exports: the supplier question form imports `getInviteData` from src/services/supplierInvitations.ts and `getQuestionsByTags` from src/services/supplierQuestionnaires.ts, and neither file exports them. The section manager imports `getSections`, `addSection`, `updateSection` and `deleteSection` from src/services/questions.ts, which exports none of them. The invite data and questions are parameters, and the section manager is modelled as its list edits and the records it would write.
- Writes of `undefined`: the document store refuses a field whose value is `undefined` unless `ignoreUndefinedProperties` is set, and src/config/firebase.ts, which would say, is not part of this model. The model leaves such a field out of the document, as with that setting. Under the default instead, these writes would be refused: QuestionnaireTemplates.Update without `createdBy` (src/services/questionnaireTemplates.ts:93, and the template editor never passes one), Customers.Invite without notes (src/services/customers.ts:143 and :156), Auth.SignUp through an invite without `companyId` (src/contexts/AuthContext.tsx:84 and :101), QuestionnaireResponses.AutoSave of any answer that is not a file (the response view passes a file list for file questions only, src/components/questionnaires/QuestionnaireResponseView.tsx:210-298, so `fileUrls` is `undefined` in the draft and in the response entry written at src/services/questionnaireResponses.ts:103-110 and :123-139, and the refusal is thrown inside the timer), and TemplateEditor.Save of a question whose minimum or maximum was cleared (QuestionEditor.SetMin and QuestionEditor.SetMax set the bound to `undefined`, src/components/questionnaires/QuestionEditor.tsx:245 and :259).
- The `in` filter's limits are modelled: a list of more than 30 values, or an empty one, makes ProductSheets.GetAllSheets and SupplierCompliance.GenerateReport fail.
- Numbers: zod's `z.number()` and the stored counters and scores are modelled as unbounded integers. Fractions, `NaN` and infinities are not modelled.
- SupplierCompliance.GenerateReport: the category table is an ordinary map. In the source it is a plain object, so a tag named like an `Object.prototype` member, such as `constructor`, starts from the inherited value instead of an empty entry. That case is not modelled.
- TemplateEditor.MoveSection: the source rewrites `order` on the section objects it shares with the previous state; the model builds new values, so earlier states keep their old `order`.
- SupplierInvitations.ReadPending: a document without tags reads here with empty tags, as in the supplier service. This service copies the field as it is, so the caller sees `undefined` tags.
- ProductSheets.Submit: stops at the service call. What the service then writes, from a string where it expects a sheet record, depends on the store's setting for `undefined` values.
- `addQuestionToSection` in src/services/questionnaireTemplates.ts is not modelled. It appends a question to a section through a separate collection.
- The section and question documents `createTemplate` writes also carry the template and section ids as fields, and `getTemplates` passes those fields through into the sections and questions it returns. The model keeps them in the document wrappers and leaves them out of the returned sections and questions.
- Company ids containing '/': such an id adds path segments to `companyProducts/{companyId}/products`. Only a missing or empty company id is modelled as making no index path.
- Operations outside the modelled core:
  - `getTemplatesByTags`;
  - `getCustomer` and `getCustomers` of src/services/customers.ts;
  - `updateSheet` of src/services/productSheets.ts;
  - `getUnreadNotifications`;
  - `saveQuestionnaireTemplate` and `getQuestionnaireTemplates` of src/services/supplierQuestionnaires.ts;
  - `getTypeColor` and `handleDeleteSection` of the question bank pages.
- Auth.SignUp: of the authentication service's refusals only "email already in use" is modelled. A weak password or a malformed email, refused before anything is written, is not. The new account's uid is a fresh parameter.
- Customers.Search: states that every result is a stored company in the name range that contains the term, at most five, in name order. It does not state that every matching company within the first five of the range is returned.
- EmailFunction.TemplateNamed: the template table is an ordinary map of four names. In the source, `emailTemplates[name]` also resolves names inherited from `Object.prototype`, such as `toString`. That lookup is not modelled.
- The compiled copy of the email function (functions/lib) and the test utilities are not modelled.

## Findings

| source | as written | input that shows it | evidently intended | confidence | as-written member | corrected member |
|---|---|---|---|---|---|---|
| src/services/customers.ts:194-197 | when the invitation email fails, the clean-up deletes the invite and the placeholder company but applies `arrayUnion` to the inviter's customer list again | an inviter with no customers and a call to the email function that times out in the browser (code `functions/deadline-exceeded`, which the client does not swallow): afterwards the inviter's customers hold the id of the deleted placeholder | the id is removed from the inviter's customers (`arrayRemove`), which rolls the batch back | high (not executed) | Customers.InviteFailureLeavesDanglingLink | Customers.InviteFixedRollsBack |
| src/contexts/AuthContext.tsx:84 | sign-up with an invite token takes the company from the invite's `companyId` | the invite a customer invitation writes (src/services/customers.ts:134-136) holds `invitingCompanyId` and `customerCompanyId` but no `companyId`, so the new user gets no company (with the store's default setting the profile write is refused instead, after the account exists) | a customer joins the placeholder company the invite names | high (not executed) | Auth.InvitedCustomerGetsNoCompany | Auth.InvitedCustomerJoinsCompany |
| src/components/questions/QuestionList.tsx:34-64 | move up and move down swap positions `index` and `index ± 1` of the whole question list, but the buttons pass the question's index within its panel (lines 70, 79-80) | two unsorted questions followed by two questions of one section: moving up the section's second question swaps the two unsorted questions and leaves the section as it was | the question trades places with its neighbour in its own panel | high (not executed) | QuestionList.MoveUpUsesPanelIndex | QuestionList.MoveUpInPanelExample |
| src/components/questionnaires/TemplateEditorModal.tsx:97-105 | saving a duplicated template updates the template with id '' because the duplicate (src/components/questionnaires/QuestionnaireTemplatesView.tsx:94-102) is passed in as an existing template | duplicate any template and save: the empty id is not a document reference, so the update fails and no copy is stored | a duplicate is saved as a new template | high (not executed) | TemplatesView.DuplicateSaveFails | TemplatesView.DuplicateSaveFixedCreates |
| src/services/questionnaireResponses.ts:149-157 | the autosave computes the completion rate from the sections as they were before the answer was merged in | a response whose only section has no entries: saving one answer stores rate 0 although every stored entry is answered | the rate of the sections being written | high (not executed) | QuestionnaireResponses.AutoSaveRateLags | QuestionnaireResponses.AutoSaveFixedRateCurrent |
| src/services/questionnaireTemplates.ts:97-101 | `updateTemplate` rewrites only the template document's embedded sections, while `getTemplates` (lines 124-153) reads sections and questions from the section and question collections, which only `createTemplate` writes | create a template with one section, then save it from the editor with that section deleted and another added: the templates view and the response view, which both read `getTemplates`, still show the original section | the listing shows the sections the editor saved | high (not executed) | QuestionnaireTemplates.EditsNeverListed | QuestionnaireTemplates.EditThenListFixed |
| src/components/products/SupplierProductsView.tsx:51 | the view calls `getAllSheets()` and `deleteSheet(sheetId)` (line 113) without the company id both take, so the index path `companyProducts/undefined/products` is never built | open the supplier products view: loading fails with 'Failed to fetch product sheets'; delete any sheet: the sheet is removed but the view reports 'Failed to delete product sheet' and the company's index entries keep pointing at it | the signed-in user's company id is passed | high (not executed) | ProductSheets.ViewDeleteFails | ProductSheets.ViewLoadFixed |
| src/components/products/CreateProductSheetModal.tsx:96-101 | the dialog calls `createProductSheet(name, supplierId, selectedTags, dueDate)`, but the service takes `(companyId, sheetData)` (src/services/productSheets.ts:48-51) | any form that passes the checks, e.g. name 'Resin', a known supplier and one tag: the service is told to index under company 'Resin' and gets the supplier id string as its sheet record, so no sheet with the form's fields is stored for the user's company | the user's company id and a sheet record built from the form, stored as a draft or sent | high (not executed) | ProductSheets.SubmitPassesNoSheet | ProductSheets.SubmitStoresValidSheet |

=== FILE: add_question_modal.dfy ===
/** The "add question" dialog of the question bank: its form, the option
    editor that appears for multiple-choice questions, and the question
    record it submits.
 */
module AddQuestionModal {

  import Seqs

  /** The dialog's form. */
  datatype QuestionForm = QuestionForm(text: string, kind: string, tags: seq<string>, required: bool,
                                       options: seq<string>, description: string)

  /** The question record submitted: the form's fields plus an id, the
      creation time twice and position 0. */
  datatype BankQuestionDoc = BankQuestionDoc(id: string, text: string, kind: string, tags: seq<string>, required: bool,
                                             options: seq<string>, description: string,
                                             createdAt: nat, updatedAt: nat, order: int)

  /** The form as the dialog opens, and as it is reset after a question is
      added: a required short-text question with no tags or options. */
  function DefaultForm(): (f: QuestionForm)
    ensures f.kind == "text" && f.required && f.tags == [] && f.options == []
    ensures f.text == "" && f.description == ""
  {
    QuestionForm("", "text", [], true, [], "")
  }

  /** The form and whether the option editor is shown. */
  datatype ModalState = ModalState(form: QuestionForm, showOptions: bool)

  /** `handleTypeChange`: a switch to multiple choice starts one empty
      option and shows the editor; any other type drops the options and
      hides it. */
  function TypeChange(m: ModalState, kind: string): (r: ModalState)
    ensures r.form.kind == kind
    ensures r.showOptions <==> kind == "multipleChoice"
    ensures r.form.options == (if kind == "multipleChoice" then [""] else [])
    ensures r.form.(kind := m.form.kind, options := m.form.options) == m.form
  {
    var multi := kind == "multipleChoice";
    ModalState(m.form.(kind := kind, options := if multi then [""] else []), multi)
  }

  /** After a type change the editor is shown exactly when there are
      options, and choosing the same type again starts the options over. */
  lemma TypeChangeShowsOptionsIffAny(m: ModalState, kind: string)
    ensures TypeChange(m, kind).showOptions <==> |TypeChange(m, kind).form.options| > 0
    ensures TypeChange(TypeChange(m, kind), kind) == TypeChange(m, kind)
  {
  }

  /** `addOption`: one more, empty, option at the end. */
  function AddOption(f: QuestionForm): (r: QuestionForm)
    ensures |r.options| == |f.options| + 1 && r.options[..|f.options|] == f.options && r.options[|f.options|] == ""
    ensures r.(options := f.options) == f
  {
    f.(options := f.options + [""])
  }

  /** `removeOption(i)`: index `i` goes, the others keep their order; an
      index outside the list changes nothing. */
  function RemoveOption(f: QuestionForm, i: int): (r: QuestionForm)
    ensures 0 <= i < |f.options| ==> |r.options| == |f.options| - 1
    ensures 0 <= i < |f.options| ==> r.options[..i] == f.options[..i] && r.options[i..] == f.options[i + 1..]
    ensures !(0 <= i < |f.options|) ==> r == f
    ensures r.(options := f.options) == f
  {
    f.(options := Seqs.RemoveAt(f.options, i))
  }

  /** `updateOption(i, v)`: only index `i` changes; an index outside the
      list changes nothing. */
  function UpdateOption(f: QuestionForm, i: int, value: string): (r: QuestionForm)
    ensures |r.options| == |f.options|
    ensures forall k :: 0 <= k < |f.options| ==> r.options[k] == (if k == i then value else f.options[k])
    ensures r.(options := f.options) == f
  {
    f.(options := seq(|f.options|, k requires 0 <= k < |f.options| => if k == i then value else f.options[k]))
  }

  /** Removing the option just added restores the form. */
  lemma AddThenRemoveOption(f: QuestionForm)
    ensures RemoveOption(AddOption(f), |f.options|) == f
  {
  }

  /** Editing an option twice keeps the later text. */
  lemma UpdateOptionTwice(f: QuestionForm, i: int, a: string, b: string)
    ensures UpdateOption(UpdateOption(f, i, a), i, b) == UpdateOption(f, i, b)
  {
  }

  /** The record the dialog builds from its form. */
  function NewQuestion(f: QuestionForm, id: string, now: nat): (q: BankQuestionDoc)
    ensures q.createdAt == q.updatedAt == now && q.order == 0 && q.id == id
    ensures q.text == f.text && q.kind == f.kind && q.tags == f.tags && q.required == f.required
    ensures q.options == f.options && q.description == f.description
  {
    BankQuestionDoc(id, f.text, f.kind, f.tags, f.required, f.options, f.description, now, now, 0)
  }

  /** Issue `k` is the last one about `field`. */
  predicate LastIssueFor(issues: seq<(string, string)>, field: string, k: int) {
    0 <= k < |issues| && issues[k].0 == field && forall l :: k < l < |issues| ==> issues[l].0 != field
  }

  /** The error map built from the schema's issues, one message per field;
      a later issue for the same field replaces an earlier one. */
  function FieldErrors(issues: seq<(string, string)>): (errs: map<string, string>)
    ensures forall field :: field in errs <==> exists k :: 0 <= k < |issues| && issues[k].0 == field
    ensures forall field :: field in errs ==> exists k :: LastIssueFor(issues, field, k) && issues[k].1 == errs[field]
  {
    if |issues| == 0 then map[]
    else
      var n := |issues| - 1;
      var front := issues[..n];
      var last := issues[n];
      var before := FieldErrors(front);
      var errs := before[last.0 := last.1];
      assert forall k :: 0 <= k < n ==> front[k] == issues[k];
      assert LastIssueFor(issues, last.0, n);
      assert forall field :: field in before && field != last.0 ==>
               exists k :: LastIssueFor(issues, field, k) && issues[k].1 == errs[field] by {
        forall field | field in before && field != last.0
          ensures exists k :: LastIssueFor(issues, field, k) && issues[k].1 == errs[field]
        {
          var k :| LastIssueFor(front, field, k) && front[k].1 == before[field];
          assert LastIssueFor(issues, field, k);
        }
      }
      errs
  }

  /** What submitting leads to. */
  datatype Submitted =
    | Invalid(errors: map<string, string>)
    | Added(question: BankQuestionDoc)
    | Failed

  /** `handleSubmit`. The question built from the form is checked by the
      question schema (its issues, as field and message, are a parameter);
      any issue shows the field errors and adds nothing. Otherwise the
      question is added (`saved` says whether the store accepted it): on
      success the form is reset and the option editor hidden, on failure
      the form stays as it was. */
  function Submit(m: ModalState, id: string, now: nat, issues: seq<(string, string)>, saved: bool): (r: (Submitted, ModalState))
    ensures |issues| > 0 ==> r.0 == Invalid(FieldErrors(issues)) && r.1 == m
    ensures |issues| == 0 && saved ==> r.0 == Added(NewQuestion(m.form, id, now)) && r.1 == ModalState(DefaultForm(), false)
    ensures |issues| == 0 && !saved ==> r.0 == Failed && r.1 == m
  {
    if |issues| > 0 then (Invalid(FieldErrors(issues)), m)
    else if saved then (Added(NewQuestion(m.form, id, now)), ModalState(DefaultForm(), false))
    else (Failed, m)
  }

  /** After a successful add the dialog is back to how it opened, whatever
      was typed. */
  lemma AddResetsForm(m1: ModalState, m2: ModalState, id1: string, id2: string, t1: nat, t2: nat)
    ensures Submit(m1, id1, t1, [], true).1 == Submit(m2, id2, t2, [], true).1
    ensures Submit(m1, id1, t1, [], true).1.form == DefaultForm()
  {
  }
}

=== FILE: auth.dfy ===
/** Signing up: the account is created first, then an invite (when a token
    is given) or a new company decides the user's company and role, the
    profile is written, and the invite is marked used.
 */
module Auth {

  import opened Wrappers
  import Customers

  /** A document of the `users` collection. */
  datatype UserDoc = UserDoc(email: string, name: string, companyId: Option<string>, role: Option<string>, createdAt: nat)

  /** The authentication accounts (uid to e-mail), the user profiles, and
      the company and invite collections. */
  datatype Db = Db(accounts: map<string, string>, users: map<string, UserDoc>, store: Customers.Db)

  /** The authentication error for an e-mail that already has an account. */
  const EmailInUse := "auth/email-already-in-use"

  /** The company a self-registered user gets, keyed by the user's uid. */
  function OwnCompany(name: string, uid: string, now: nat): Customers.CompanyDoc {
    Customers.NamedCompany(name + "'s Company").(createdAt := Some(now), createdBy := Some(uid))
  }

  /** Which company and role a valid invite grants, as the sign-up reads
      it: the invite's `companyId` field. */
  function Granted(invite: Customers.InviteDoc): (Option<string>, Option<string>) {
    (invite.companyId, invite.role)
  }

  /** `signUp`, parameterised by how an invite is read (`grant`). */
  function SignUpWith(db: Db, email: string, name: string, token: Option<string>, uid: string, now: nat,
                      grant: Customers.InviteDoc -> (Option<string>, Option<string>)): (e: Effect<Db, ()>)
    requires uid !in db.accounts && uid !in db.users
    ensures email in db.accounts.Values ==> e == Effect(db, Err(EmailInUse))
    ensures email !in db.accounts.Values ==> e.store.accounts == db.accounts[uid := email]
    ensures e.result.Ok? <==>
              email !in db.accounts.Values
              && (Truthy(token) ==> token.value in db.store.invites && db.store.invites[token.value].email == email)
    ensures email !in db.accounts.Values && Truthy(token) && token.value !in db.store.invites ==>
              e.result == Err("Invalid invite token") && uid !in e.store.users
    ensures email !in db.accounts.Values && Truthy(token) && token.value in db.store.invites
            && db.store.invites[token.value].email != email ==>
              e.result == Err("Email does not match invitation") && uid !in e.store.users
    ensures e.result.Ok? && Truthy(token) ==>
              var invite := db.store.invites[token.value];
              && uid in e.store.users && e.store.users[uid] == UserDoc(email, name, grant(invite).0, grant(invite).1, now)
              && token.value in e.store.store.invites && e.store.store.invites[token.value] == invite.(usedAt := Some(now), usedBy := Some(uid))
              && e.store.store.companies == db.store.companies
    ensures e.result.Ok? && !Truthy(token) ==>
              && uid in e.store.users && e.store.users[uid] == UserDoc(email, name, Some(uid), Some("admin"), now)
              && e.store.store.companies == db.store.companies[uid := OwnCompany(name, uid, now)]
              && e.store.store.invites == db.store.invites
  {
    if email in db.accounts.Values then Effect(db, Err(EmailInUse))
    else
      var withAccount := db.(accounts := db.accounts[uid := email]);
      if Truthy(token) then
        var t := token.value;
        if t !in db.store.invites then Effect(withAccount, Err("Invalid invite token"))
        else
          var invite := db.store.invites[t];
          if invite.email != email then Effect(withAccount, Err("Email does not match invitation"))
          else
            var (companyId, role) := grant(invite);
            var profiled := withAccount.(users := withAccount.users[uid := UserDoc(email, name, companyId, role, now)]);
            var used := invite.(usedAt := Some(now), usedBy := Some(uid));
            Effect(profiled.(store := profiled.store.(invites := profiled.store.invites[t := used])), Ok(()))
      else
        var withCompany := withAccount.(store := withAccount.store.(
          companies := withAccount.store.companies[uid := OwnCompany(name, uid, now)]));
        Effect(withCompany.(users := withCompany.users[uid := UserDoc(email, name, Some(uid), Some("admin"), now)]), Ok(()))
  }

  /** `signUp` as written. An e-mail already in use fails before anything
      is written. Otherwise the account exists from then on, even when the
      invite checks fail afterwards. With a token the invite must exist and
      carry the same e-mail; the user gets the invite's company and role and
      the invite is marked used by this user. Without one the user gets a
      new company under their own uid and the admin role. */
  function SignUp(db: Db, email: string, name: string, token: Option<string>, uid: string, now: nat): (e: Effect<Db, ()>)
    requires uid !in db.accounts && uid !in db.users
    ensures email in db.accounts.Values ==> e == Effect(db, Err(EmailInUse))
    ensures email !in db.accounts.Values ==> e.store.accounts == db.accounts[uid := email]
    ensures e.result.Ok? <==>
              email !in db.accounts.Values
              && (Truthy(token) ==> token.value in db.store.invites && db.store.invites[token.value].email == email)
    ensures email !in db.accounts.Values && Truthy(token) && token.value !in db.store.invites ==>
              e.result == Err("Invalid invite token") && uid !in e.store.users
    ensures email !in db.accounts.Values && Truthy(token) && token.value in db.store.invites
            && db.store.invites[token.value].email != email ==>
              e.result == Err("Email does not match invitation") && uid !in e.store.users
    ensures e.result.Ok? && Truthy(token) ==>
              var invite := db.store.invites[token.value];
              && uid in e.store.users && e.store.users[uid] == UserDoc(email, name, invite.companyId, invite.role, now)
              && token.value in e.store.store.invites && e.store.store.invites[token.value] == invite.(usedAt := Some(now), usedBy := Some(uid))
              && e.store.store.companies == db.store.companies
    ensures e.result.Ok? && !Truthy(token) ==>
              && uid in e.store.users && e.store.users[uid] == UserDoc(email, name, Some(uid), Some("admin"), now)
              && e.store.store.companies == db.store.companies[uid := OwnCompany(name, uid, now)]
              && e.store.store.invites == db.store.invites
  {
    SignUpWith(db, email, name, token, uid, now, Granted)
  }

  /** As written, a customer who signs up through their invite gets no
      company: customer invites record `customerCompanyId`, never
      `companyId`. */
  lemma InvitedCustomerGetsNoCompany(db: Db, invite: Customers.CustomerInvite, inviter: string,
                                     outcome: Customers.EmailClient.CallOutcome, code: string, customerId: string,
                                     t1: nat, t2: nat, name: string, uid: string, t3: nat)
    requires code !in db.store.invites && customerId !in db.store.companies && customerId != inviter
    requires inviter != "" && inviter in db.store.companies
    requires Customers.EmailClient.SendEmail(outcome).Ok?
    requires code != "" && uid !in db.accounts && uid !in db.users && invite.primaryContact !in db.accounts.Values
    ensures var invited := Customers.Invite(db.store, invite, inviter, outcome, code, customerId, t1, t2).store;
            var e := SignUp(db.(store := invited), invite.primaryContact, name, Some(code), uid, t3);
            e.result.Ok? && e.store.users[uid].companyId.None? && e.store.users[uid].role == Some("customer")
  {
  }

  /** How an invite is read as evidently intended: customer invites name the
      customer company in `customerCompanyId`; other invites use `companyId`. */
  function GrantedFixed(invite: Customers.InviteDoc): (r: (Option<string>, Option<string>))
    ensures r.0 == (if invite.customerCompanyId.Some? then invite.customerCompanyId else invite.companyId)
    ensures r.1 == invite.role
  {
    (if invite.customerCompanyId.Some? then invite.customerCompanyId else invite.companyId, invite.role)
  }

  /** `signUp` with the corrected invite reading. */
  function SignUpFixed(db: Db, email: string, name: string, token: Option<string>, uid: string, now: nat): (e: Effect<Db, ()>)
    requires uid !in db.accounts && uid !in db.users
    ensures e.result.Ok? <==> SignUp(db, email, name, token, uid, now).result.Ok?
    ensures !Truthy(token) ==> e == SignUp(db, email, name, token, uid, now)
  {
    SignUpWith(db, email, name, token, uid, now, GrantedFixed)
  }

  /** With the correction, the customer joins the placeholder company the
      invite created. */
  lemma InvitedCustomerJoinsCompany(db: Db, invite: Customers.CustomerInvite, inviter: string,
                                    outcome: Customers.EmailClient.CallOutcome, code: string, customerId: string,
                                    t1: nat, t2: nat, name: string, uid: string, t3: nat)
    requires code !in db.store.invites && customerId !in db.store.companies && customerId != inviter
    requires inviter != "" && inviter in db.store.companies
    requires Customers.EmailClient.SendEmail(outcome).Ok?
    requires code != "" && uid !in db.accounts && uid !in db.users && invite.primaryContact !in db.accounts.Values
    ensures var invited := Customers.Invite(db.store, invite, inviter, outcome, code, customerId, t1, t2).store;
            var e := SignUpFixed(db.(store := invited), invite.primaryContact, name, Some(code), uid, t3);
            e.result.Ok? && e.store.users[uid].companyId == Some(customerId)
            && customerId in e.store.store.companies
  {
  }
}

=== FILE: customers.dfy ===
/** Customer companies: the stored company and invite documents, reading a
    company as a customer, the customer schema, name search, and inviting a
    customer with its compensating clean-up.
 */
module Customers {

  import opened Wrappers
  import Seqs
  import Text
  import Listing
  import Firestore
  import EmailClient
  import Zod

  /** A document of the `companies` collection. Every field but the name may
      be missing; a field written with an undefined value is left out. */
  datatype CompanyDoc = CompanyDoc(
    name: string,
    contactName: Option<string>,
    email: Option<string>,
    primaryContact: Option<string>,
    status: Option<string>,
    taskProgress: Option<int>,
    createdAt: Option<nat>,
    createdBy: Option<string>,
    updatedAt: Option<nat>,
    lastUpdated: Option<nat>,
    invitationSentDate: Option<nat>,
    registrationDate: Option<nat>,
    lastLoginDate: Option<nat>,
    pendingRequests: Option<int>,
    completedRequests: Option<int>,
    tags: Option<seq<string>>,
    notes: Option<string>,
    purchasedProducts: Option<seq<string>>,
    suppliers: Option<seq<string>>,
    customers: Option<seq<string>>)

  /** A company document holding only a name. */
  function NamedCompany(name: string): CompanyDoc {
    CompanyDoc(name, None, None, None, None, None, None, None, None, None, None, None, None, None, None, None, None,
               None, None, None)
  }

  /** A document of the `invites` collection. */
  datatype InviteDoc = InviteDoc(
    invitingCompanyId: Option<string>,
    customerCompanyId: Option<string>,
    companyId: Option<string>,
    email: string,
    name: Option<string>,
    contactName: Option<string>,
    createdAt: Option<nat>,
    status: Option<string>,
    role: Option<string>,
    notes: Option<string>,
    tags: Option<seq<string>>,
    usedAt: Option<nat>,
    usedBy: Option<string>)

  datatype Db = Db(companies: map<string, CompanyDoc>, invites: map<string, InviteDoc>)

  // ----- the customer record and its schema -------------------------------

  const Statuses: seq<string> := ["pending_invitation", "invitation_sent", "registered", "active", "inactive"]

  datatype Customer = Customer(
    name: string,
    contactName: Option<string>,
    primaryContact: Option<string>,
    status: string,
    taskProgress: int,
    lastUpdated: nat,
    invitationSentDate: Option<nat>,
    registrationDate: Option<nat>,
    lastLoginDate: Option<nat>,
    pendingRequests: int,
    completedRequests: int,
    tags: seq<string>,
    notes: Option<string>,
    purchasedProducts: seq<string>)

  /** What the customer schema checks; `emailOk` is zod's verdict on an
      address. */
  predicate ValidCustomer(c: Customer, emailOk: string -> bool) {
    |c.name| >= 1 && c.contactName.Some? && |c.contactName.value| >= 1
    && 0 <= c.taskProgress <= 100 && c.status in Statuses
    && c.primaryContact.Some? && Zod.Email(emailOk, c.primaryContact.value)
  }

  /** A customer as parsed before defaults: counters and lists may be absent. */
  datatype CustomerInput = CustomerInput(
    name: string,
    contactName: Option<string>,
    primaryContact: Option<string>,
    status: string,
    taskProgress: int,
    lastUpdated: nat,
    invitationSentDate: Option<nat>,
    registrationDate: Option<nat>,
    lastLoginDate: Option<nat>,
    pendingRequests: Option<int>,
    completedRequests: Option<int>,
    tags: Option<seq<string>>,
    notes: Option<string>,
    purchasedProducts: Option<seq<string>>)

  /** Parsing with the customer schema: absent counters become 0 and absent
      lists empty; the result is refused when it breaks a constraint. */
  function ParseCustomer(i: CustomerInput, emailOk: string -> bool): (r: Option<Customer>)
    ensures r.Some? ==> ValidCustomer(r.value, emailOk)
    ensures r.Some? ==> && r.value.name == i.name && r.value.contactName == i.contactName
                        && r.value.primaryContact == i.primaryContact && r.value.status == i.status
                        && r.value.taskProgress == i.taskProgress && r.value.lastUpdated == i.lastUpdated
                        && r.value.invitationSentDate == i.invitationSentDate
                        && r.value.registrationDate == i.registrationDate
                        && r.value.lastLoginDate == i.lastLoginDate && r.value.notes == i.notes
    ensures r.Some? ==> r.value.pendingRequests == i.pendingRequests.GetOr(0)
                        && r.value.completedRequests == i.completedRequests.GetOr(0)
                        && r.value.tags == i.tags.GetOr([]) && r.value.purchasedProducts == i.purchasedProducts.GetOr([])
    ensures r.None? <==> !ValidCustomer(Defaults(i), emailOk)
    ensures i.primaryContact == Some("") ==> r.None?
  {
    var c := Defaults(i);
    if ValidCustomer(c, emailOk) then Some(c) else None
  }

  function Defaults(i: CustomerInput): Customer {
    Customer(i.name, i.contactName, i.primaryContact, i.status, i.taskProgress, i.lastUpdated,
             i.invitationSentDate, i.registrationDate, i.lastLoginDate, i.pendingRequests.GetOr(0), i.completedRequests.GetOr(0), i.tags.GetOr([]), i.notes,
             i.purchasedProducts.GetOr([]))
  }

  /** The invite form's record after parsing. */
  datatype CustomerInvite = CustomerInvite(
    name: string,
    contactName: string,
    primaryContact: string,
    tags: seq<string>,
    notes: Option<string>)

  /** Parsing with the invite schema: both names are required, the contact
      must pass the e-mail check (`emailOk` is zod's verdict) and absent
      tags become empty. */
  function ParseInvite(name: string, contactName: string, primaryContact: string,
                       tags: Option<seq<string>>, notes: Option<string>, emailOk: string -> bool)
    : (r: Option<CustomerInvite>)
    ensures r.Some? <==> name != "" && contactName != "" && Zod.Email(emailOk, primaryContact)
    ensures r.Some? ==> r.value == CustomerInvite(name, contactName, primaryContact, tags.GetOr([]), notes)
    ensures primaryContact == "" ==> r.None?
  {
    if name == "" || contactName == "" || !Zod.Email(emailOk, primaryContact) then None
    else Some(CustomerInvite(name, contactName, primaryContact, tags.GetOr([]), notes))
  }

  // ----- reading a company -------------------------------------------------

  /** `convertToCustomer`. The contact is the `email` field when it is
      non-empty, else `primaryContact`; a blank status reads as inactive;
      missing numbers read as 0 and missing lists as empty; the last update
      is `updatedAt`, else `lastUpdated`, else the current time; the
      invitation, registration and last login dates are read as stored. */
  function ToCustomer(d: CompanyDoc, now: nat): (c: Customer)
    ensures c.name == d.name && c.contactName == d.contactName && c.notes == d.notes
    ensures c.primaryContact == OrElse(d.email, d.primaryContact)
    ensures c.status == (if Truthy(d.status) then d.status.value else "inactive")
    ensures c.taskProgress == d.taskProgress.GetOr(0)
    ensures c.pendingRequests == d.pendingRequests.GetOr(0) && c.completedRequests == d.completedRequests.GetOr(0)
    ensures c.tags == d.tags.GetOr([]) && c.purchasedProducts == d.purchasedProducts.GetOr([])
    ensures c.lastUpdated == d.updatedAt.GetOr(d.lastUpdated.GetOr(now))
    ensures c.invitationSentDate == d.invitationSentDate && c.registrationDate == d.registrationDate
            && c.lastLoginDate == d.lastLoginDate
  {
    Customer(d.name, d.contactName, OrElse(d.email, d.primaryContact),
             if Truthy(d.status) then d.status.value else "inactive",
             d.taskProgress.GetOr(0), d.updatedAt.GetOr(d.lastUpdated.GetOr(now)),
             d.invitationSentDate, d.registrationDate, d.lastLoginDate,
             d.pendingRequests.GetOr(0), d.completedRequests.GetOr(0), d.tags.GetOr([]), d.notes,
             d.purchasedProducts.GetOr([]))
  }

  // ----- search -------------------------------------------------------------

  /** The highest character of the Basic Multilingual Plane's private use
      area, appended to make a prefix range. */
  const RangeEnd: char := '\U{F8FF}'

  /** The stored names the range query admits for a lower-cased term. */
  predicate InRange(name: string, lower: string) {
    Listing.LexLe(lower, name) && Listing.LexLe(name, lower + [RangeEnd])
  }

  function ByName(): (CompanyDoc, CompanyDoc) -> bool {
    (a: CompanyDoc, b: CompanyDoc) => Listing.LexLe(a.name, b.name)
  }

  lemma ByNameIsPreorder()
    ensures Listing.Preorder(ByName())
  {
    forall a: CompanyDoc, b: CompanyDoc
      ensures ByName()(a, b) || ByName()(b, a)
    {
      Listing.LexLeTotal(a.name, b.name);
    }
    forall a: CompanyDoc, b: CompanyDoc, c: CompanyDoc | ByName()(a, b) && ByName()(b, c)
      ensures ByName()(a, c)
    {
      Listing.LexLeTransitive(a.name, b.name, c.name);
    }
  }

  /** Whether entries are in name order. */
  predicate NameOrdered(s: seq<(string, CompanyDoc)>) {
    forall i, j :: 0 <= i < j < |s| ==> Listing.LexLe(s[i].1.name, s[j].1.name)
  }

  /** Whether a company's lower-cased name contains the lower-cased term. */
  predicate NameMatches(d: CompanyDoc, lower: string) {
    Text.Includes(Text.ToLower(d.name), lower)
  }

  /** `searchCustomersByName`: at most five companies from the name range of
      the lower-cased term, in name order, keeping those whose lower-cased
      name contains the lower-cased term. */
  method Search(db: Db, term: string, now: nat) returns (r: seq<(string, Customer)>)
    ensures |r| <= 5
    ensures forall i :: 0 <= i < |r| ==>
              r[i].0 in db.companies && r[i].1 == ToCustomer(db.companies[r[i].0], now)
              && NameMatches(db.companies[r[i].0], Text.ToLower(term))
              && InRange(db.companies[r[i].0].name, Text.ToLower(term))
    ensures forall i, j :: 0 <= i < j < |r| ==> Listing.LexLe(r[i].1.name, r[j].1.name)
  {
    var lower := Text.ToLower(term);
    ByNameIsPreorder();
    var ranged := Listing.Query(db.companies, (d: CompanyDoc) => InRange(d.name, lower), ByName(), false);
    assert NameOrdered(ranged) by {
      assert Listing.Sorted(ranged, Listing.OnDocs(ByName()));
    }
    assert forall p :: p in ranged ==> Hit(db, lower, p);
    var page := Seqs.Take(ranged, 5);
    assert NameOrdered(page);
    assert forall p :: p in page ==> p in ranged;
    var kept := Keep(page, lower);
    assert NameOrdered(kept);
    assert forall i :: 0 <= i < |kept| ==> Hit(db, lower, kept[i]);
    r := ToCustomers(kept, now);
  }

  /** A stored company the range query admits, with its id. */
  predicate Hit(db: Db, lower: string, p: (string, CompanyDoc)) {
    p.0 in db.companies && db.companies[p.0] == p.1 && InRange(p.1.name, lower)
  }

  /** The client-side filter of a result page. */
  function Keep(page: seq<(string, CompanyDoc)>, lower: string): (r: seq<(string, CompanyDoc)>)
    ensures |r| <= |page|
    ensures forall i :: 0 <= i < |r| ==> r[i] in page && NameMatches(r[i].1, lower)
    ensures NameOrdered(page) ==> NameOrdered(r)
  {
    var r := Seqs.Filter(page, (p: (string, CompanyDoc)) => NameMatches(p.1, lower));
    assert NameOrdered(page) ==> NameOrdered(r) by {
      if NameOrdered(page) {
        SortedFilter(page, (p: (string, CompanyDoc)) => NameMatches(p.1, lower));
      }
    }
    r
  }

  function ToCustomers(s: seq<(string, CompanyDoc)>, now: nat): (r: seq<(string, Customer)>)
    ensures |r| == |s|
    ensures forall i :: 0 <= i < |r| ==> r[i] == (s[i].0, ToCustomer(s[i].1, now))
  {
    seq(|s|, i requires 0 <= i < |s| => (s[i].0, ToCustomer(s[i].1, now)))
  }

  /** A filtered name-ordered list is still name-ordered. */
  lemma {:induction false} SortedFilter(s: seq<(string, CompanyDoc)>, p: ((string, CompanyDoc)) -> bool)
    requires NameOrdered(s)
    ensures NameOrdered(Seqs.Filter(s, p))
  {
    if |s| > 0 {
      assert NameOrdered(s[1..]);
      SortedFilter(s[1..], p);
      var rest := Seqs.Filter(s[1..], p);
      var f := Seqs.Filter(s, p);
      if p(s[0]) {
        assert f == [s[0]] + rest;
        forall k | 0 <= k < |rest|
          ensures Listing.LexLe(s[0].1.name, rest[k].1.name)
        {
          assert rest[k] in s[1..];
          var j :| 0 <= j < |s[1..]| && s[1..][j] == rest[k];
          assert s[j + 1] == rest[k];
        }
      } else {
        assert f == rest;
      }
    }
  }

  // ----- inviting a customer ------------------------------------------------

  /** The e-mail the invite sends: the supplier-invitation template with a
      sign-up link carrying the invite code. */
  function InviteEmail(invite: CustomerInvite, origin: string, inviteCode: string): (m: EmailClient.EmailRequest)
    ensures m.to == invite.primaryContact && m.template == EmailClient.SupplierInvitation
    ensures m.data.Keys == {"contactName", "companyName", "accessUrl"}
    ensures var url := m.data["accessUrl"];
            |url| >= |inviteCode| && url[|url| - |inviteCode|..] == inviteCode
  {
    var url := origin + "/signup?invite=" + inviteCode;
    assert url[|url| - |inviteCode|..] == inviteCode;
    EmailClient.EmailRequest(invite.primaryContact, EmailClient.SupplierInvitation,
      map["contactName" := invite.contactName, "companyName" := invite.name, "accessUrl" := url])
  }

  /** The invite record. */
  function InviteRecord(invite: CustomerInvite, companyId: string, customerCompanyId: string, now: nat): InviteDoc {
    InviteDoc(Some(companyId), Some(customerCompanyId), None, invite.primaryContact, Some(invite.name),
              Some(invite.contactName), Some(now), Some("pending"), Some("customer"), invite.notes,
              Some(invite.tags), None, None)
  }

  /** The placeholder company of the invited customer. */
  function Placeholder(invite: CustomerInvite, companyId: string, now: nat): CompanyDoc {
    CompanyDoc(invite.name, Some(invite.contactName), Some(invite.primaryContact), None,
               Some("pending_invitation"), Some(0), Some(now), None, Some(now), None, None, None, None, Some(0), Some(0),
               Some(invite.tags), invite.notes, Some([]), Some([companyId]), Some([]))
  }

  /** The inviting company with the customer id set-unioned in. */
  function Linked(d: CompanyDoc, customerCompanyId: string, now: nat): CompanyDoc {
    d.(customers := Some(Firestore.ArrayUnion(d.customers.GetOr([]), customerCompanyId)), updatedAt := Some(now))
  }

  /** The one batch of an invite: the invite record, the placeholder
      company and the inviter's link. */
  function Batch(db: Db, invite: CustomerInvite, companyId: string, inviteCode: string,
                 customerCompanyId: string, now: nat): (r: Db)
    requires companyId in db.companies
    ensures r.invites == db.invites[inviteCode := InviteRecord(invite, companyId, customerCompanyId, now)]
    ensures r.companies == db.companies[customerCompanyId := Placeholder(invite, companyId, now)]
                                       [companyId := Linked(db.companies[companyId], customerCompanyId, now)]
  {
    Db(db.companies[customerCompanyId := Placeholder(invite, companyId, now)]
                   [companyId := Linked(db.companies[companyId], customerCompanyId, now)],
       db.invites[inviteCode := InviteRecord(invite, companyId, customerCompanyId, now)])
  }

  /** `inviteCustomer`. One batch writes the invite, the placeholder company
      and the inviter's link; it fails as a whole when the inviter does not
      exist, and then so does the clean-up. After the batch the e-mail is
      sent (`mail` is what the callable function does); when that fails the
      clean-up deletes the invite and the placeholder and set-unions the id
      into the inviter again, twice, and the error is re-thrown with a
      prefix. */
  function Invite(db: Db, invite: CustomerInvite, companyId: string, outcome: EmailClient.CallOutcome,
                  inviteCode: string, customerCompanyId: string, now: nat, later: nat): (e: Effect<Db, ()>)
    requires inviteCode !in db.invites && customerCompanyId !in db.companies && customerCompanyId != companyId
    ensures companyId == "" ==> e == Effect(db, Err(Firestore.InvalidReference))
    ensures companyId != "" && companyId !in db.companies ==> e == Effect(db, Err(Firestore.UpdateMissing))
    ensures companyId in db.companies && companyId != "" && EmailClient.SendEmail(outcome).Ok? ==>
              && e.result.Ok?
              && e.store.invites == db.invites[inviteCode := InviteRecord(invite, companyId, customerCompanyId, now)]
              && e.store.companies == db.companies[customerCompanyId := Placeholder(invite, companyId, now)]
                                                 [companyId := Linked(db.companies[companyId], customerCompanyId, now)]
    ensures companyId in db.companies && companyId != "" && EmailClient.SendEmail(outcome).Err? ==>
              && e.result == Err("Failed to invite customer: " + EmailClient.SendEmail(outcome).message)
              && e.store.invites == db.invites
              && e.store.companies == db.companies[companyId := Linked(db.companies[companyId], customerCompanyId, later)]
  {
    if companyId == "" then Effect(db, Err(Firestore.InvalidReference))
    else if companyId !in db.companies then Effect(db, Err(Firestore.UpdateMissing))
    else
      var written := Batch(db, invite, companyId, inviteCode, customerCompanyId, now);
      match EmailClient.SendEmail(outcome)
      case Ok(_) => Effect(written, Ok(()))
      case Err(msg) =>
        var first := CleanUp(written, inviteCode, companyId, customerCompanyId, now);
        var second := CleanUp(first, inviteCode, companyId, customerCompanyId, later);
        assert Linked(Linked(Linked(db.companies[companyId], customerCompanyId, now), customerCompanyId, now), customerCompanyId, later)
            == Linked(db.companies[companyId], customerCompanyId, later);
        assert second.companies == db.companies[companyId := Linked(db.companies[companyId], customerCompanyId, later)];
        assert second.invites == db.invites;
        Effect(second, Err("Failed to invite customer: " + msg))
  }

  /** One clean-up batch as written: delete the invite and the placeholder,
      and set-union the id into the inviter once more. */
  function CleanUp(db: Db, inviteCode: string, companyId: string, customerCompanyId: string, now: nat): (r: Db)
    requires companyId in db.companies && customerCompanyId != companyId
    ensures r.invites == db.invites - {inviteCode}
    ensures r.companies == (db.companies - {customerCompanyId})[companyId := Linked(db.companies[companyId], customerCompanyId, now)]
  {
    Db((db.companies - {customerCompanyId})[companyId := Linked(db.companies[companyId], customerCompanyId, now)],
       db.invites - {inviteCode})
  }

  /** As written, a failed e-mail leaves the inviter pointing at a customer
      company that no longer exists. */
  lemma InviteFailureLeavesDanglingLink(db: Db, invite: CustomerInvite, companyId: string,
                                        outcome: EmailClient.CallOutcome, inviteCode: string,
                                        customerCompanyId: string, now: nat, later: nat)
    requires inviteCode !in db.invites && customerCompanyId !in db.companies && customerCompanyId != companyId
    requires companyId != "" && companyId in db.companies
    requires EmailClient.SendEmail(outcome).Err?
    ensures var s := Invite(db, invite, companyId, outcome, inviteCode, customerCompanyId, now, later).store;
            customerCompanyId !in s.companies
            && customerCompanyId in s.companies[companyId].customers.value
  {
  }

  /** The inviting company with the customer id removed from its
      customers. */
  function Unlinked(d: CompanyDoc, customerCompanyId: string, now: nat): CompanyDoc {
    d.(customers := Some(Seqs.RemoveAll(d.customers.GetOr([]), customerCompanyId)), updatedAt := Some(now))
  }

  /** The clean-up as evidently intended: the id is removed from the
      inviter's customers instead of added again. */
  function CleanUpFixed(db: Db, inviteCode: string, companyId: string, customerCompanyId: string, now: nat): (r: Db)
    requires companyId in db.companies && customerCompanyId != companyId
    ensures r.invites == db.invites - {inviteCode}
    ensures customerCompanyId !in r.companies && companyId in r.companies
    ensures r.companies[companyId].customers.Some?
    ensures customerCompanyId !in r.companies[companyId].customers.value
    ensures r.companies == (db.companies - {customerCompanyId})[companyId := Unlinked(db.companies[companyId], customerCompanyId, now)]
  {
    Db((db.companies - {customerCompanyId})[companyId := Unlinked(db.companies[companyId], customerCompanyId, now)],
       db.invites - {inviteCode})
  }

  /** Writing a key that is then deleted again leaves no trace. */
  lemma DropAndReplace<V>(m: map<string, V>, gone: string, kept: string, a: V, b: V, c: V)
    requires gone !in m && gone != kept
    ensures (m[gone := a][kept := b] - {gone})[kept := c] == m[kept := c]
    ensures (m[kept := b] - {gone})[kept := c] == m[kept := c]
  {
  }

  /** Deleting an added key, even twice, restores the map. */
  lemma DeleteTwice<V>(m: map<string, V>, k: string, v: V)
    requires k !in m
    ensures (m[k := v] - {k}) - {k} == m
  {
  }

  /** The batch and then the two corrected clean-ups: the invites as they
      were, the placeholder gone and the id removed from the inviter. */
  function RolledBack(db: Db, invite: CustomerInvite, companyId: string, inviteCode: string,
                      customerCompanyId: string, now: nat, later: nat): (r: Db)
    requires inviteCode !in db.invites && customerCompanyId !in db.companies && customerCompanyId != companyId
    requires companyId in db.companies
    ensures r.invites == db.invites
    ensures r.companies == db.companies[companyId := Unlinked(db.companies[companyId], customerCompanyId, later)]
  {
    var written := Batch(db, invite, companyId, inviteCode, customerCompanyId, now);
    var first := CleanUpFixed(written, inviteCode, companyId, customerCompanyId, now);
    var d := db.companies[companyId];
    var removed := Seqs.RemoveAll(d.customers.GetOr([]), customerCompanyId);
    Firestore.RemoveUndoesUnion(d.customers.GetOr([]), customerCompanyId);
    assert first.companies[companyId].customers.value == removed;
    assert Seqs.RemoveAll(removed, customerCompanyId) == removed;
    DropAndReplace(db.companies, customerCompanyId, companyId, Placeholder(invite, companyId, now),
                   Linked(d, customerCompanyId, now), first.companies[companyId]);
    DropAndReplace(db.companies[companyId := first.companies[companyId]], customerCompanyId, companyId,
                   Placeholder(invite, companyId, now), first.companies[companyId], d.(customers := Some(removed), updatedAt := Some(later)));
    DeleteTwice(db.invites, inviteCode, InviteRecord(invite, companyId, customerCompanyId, now));
    CleanUpFixed(first, inviteCode, companyId, customerCompanyId, later)
  }

  /** `inviteCustomer` with the corrected clean-up: a failed e-mail leaves
      the invites as they were and the inviter without the new id. */
  function InviteFixed(db: Db, invite: CustomerInvite, companyId: string, outcome: EmailClient.CallOutcome,
                       inviteCode: string, customerCompanyId: string, now: nat, later: nat): (e: Effect<Db, ()>)
    requires inviteCode !in db.invites && customerCompanyId !in db.companies && customerCompanyId != companyId
    ensures EmailClient.SendEmail(outcome).Ok? ==>
              e == Invite(db, invite, companyId, outcome, inviteCode, customerCompanyId, now, later)
    ensures e.result.Err? <==> companyId == "" || companyId !in db.companies || EmailClient.SendEmail(outcome).Err?
    ensures companyId in db.companies && companyId != "" && EmailClient.SendEmail(outcome).Err? ==>
              && e.result == Err("Failed to invite customer: " + EmailClient.SendEmail(outcome).message)
              && e.store.invites == db.invites
              && e.store.companies == db.companies[companyId := Unlinked(db.companies[companyId], customerCompanyId, later)]
  {
    if companyId == "" then Effect(db, Err(Firestore.InvalidReference))
    else if companyId !in db.companies then Effect(db, Err(Firestore.UpdateMissing))
    else
      var written := Batch(db, invite, companyId, inviteCode, customerCompanyId, now);
      match EmailClient.SendEmail(outcome)
      case Ok(_) => Effect(written, Ok(()))
      case Err(msg) =>
        Effect(RolledBack(db, invite, companyId, inviteCode, customerCompanyId, now, later),
               Err("Failed to invite customer: " + msg))
  }

  /** With the corrected clean-up a failed invite leaves the invites and the
      other companies as they were, and the inviter's customers as they were. */
  lemma InviteFixedRollsBack(db: Db, invite: CustomerInvite, companyId: string,
                             outcome: EmailClient.CallOutcome, inviteCode: string,
                             customerCompanyId: string, now: nat, later: nat)
    requires inviteCode !in db.invites && customerCompanyId !in db.companies && customerCompanyId != companyId
    requires companyId != "" && companyId in db.companies
    requires customerCompanyId !in db.companies[companyId].customers.GetOr([])
    requires EmailClient.SendEmail(outcome).Err?
    ensures var s := InviteFixed(db, invite, companyId, outcome, inviteCode, customerCompanyId, now, later).store;
            s.invites == db.invites && s.companies.Keys == db.companies.Keys
            && (forall k :: k in db.companies && k != companyId ==> s.companies[k] == db.companies[k])
            && s.companies[companyId].customers.value == db.companies[companyId].customers.GetOr([])
  {
  }

  /** The placeholder reads back as a schema-valid customer awaiting its
      invitation, with the invite's contact and no activity yet. */
  lemma PlaceholderIsValidCustomer(invite: CustomerInvite, emailOk: string -> bool, companyId: string, now: nat, later: nat)
    requires ParseInvite(invite.name, invite.contactName, invite.primaryContact, Some(invite.tags), invite.notes, emailOk)
             == Some(invite)
    ensures var c := ToCustomer(Placeholder(invite, companyId, now), later);
            ValidCustomer(c, emailOk) && c.status == "pending_invitation" && c.primaryContact == Some(invite.primaryContact)
            && c.taskProgress == 0 && c.pendingRequests == 0 && c.completedRequests == 0
            && c.purchasedProducts == [] && c.lastUpdated == now
  {
  }
}

=== FILE: email_client.dfy ===
/** The browser side of sending e-mail: the callable function's outcome
    turned into success or a failure message.
 */
module EmailClient {

  import opened Wrappers

  /** The templates a caller may ask for. */
  datatype Template = SheetCreated | SheetReminder | SheetSubmitted | SupplierInvitation

  /** A request to the callable function; `data` holds the template fields. */
  datatype EmailRequest = EmailRequest(to: string, template: Template, data: map<string, string>)

  /** What the callable function does: it returns a result whose `data` is
      defined or not, or it throws an error with an optional code, details
      and message. */
  datatype CallOutcome =
    | Returned(data: Option<string>)
    | Threw(code: Option<string>, details: Option<string>, message: Option<string>)

  const InternalCode := "functions/internal"
  const UnavailableCode := "functions/unavailable"
  const FailedPrefix := "Email sending failed: "
  const UnknownFailure := "Failed to send email: Unknown error occurred"

  /** Errors that are taken to mean the e-mail may still go out. */
  predicate Swallowed(code: Option<string>) {
    code == Some(InternalCode) || code == Some(UnavailableCode)
  }

  /** `sendEmail`. A result with defined data is success; one without
      raises an error inside the same `try`, which then reads as a failure
      with that message. Internal and unavailable errors count as success;
      any other error is reported with its details, else its message, else
      as unknown. */
  function SendEmail(o: CallOutcome): (r: Result<()>)
    ensures r.Ok? <==> (o.Returned? && o.data.Some?) || (o.Threw? && Swallowed(o.code))
    ensures o.Returned? && o.data.None? ==> r == Err(FailedPrefix + "Failed to initiate email sending")
    ensures o.Threw? && !Swallowed(o.code) && Truthy(o.details) ==> r == Err(FailedPrefix + o.details.value)
    ensures o.Threw? && !Swallowed(o.code) && !Truthy(o.details) && Truthy(o.message) ==>
              r == Err(FailedPrefix + o.message.value)
    ensures o.Threw? && !Swallowed(o.code) && !Truthy(o.details) && !Truthy(o.message) ==>
              r == Err(UnknownFailure)
  {
    match o
    case Returned(data) =>
      if data.Some? then Ok(())
      else Classify(None, None, Some("Failed to initiate email sending"))
    case Threw(code, details, message) => Classify(code, details, message)
  }

  /** The `catch` block. */
  function Classify(code: Option<string>, details: Option<string>, message: Option<string>): (r: Result<()>)
    ensures r.Ok? <==> Swallowed(code)
  {
    if code == Some(InternalCode) then Ok(())
    else if code == Some(UnavailableCode) then Ok(())
    else if Truthy(details) then Err(FailedPrefix + details.value)
    else if Truthy(message) then Err(FailedPrefix + message.value)
    else Err(UnknownFailure)
  }

  /** Every failure is either prefixed as a send failure or the unknown
      failure, and a swallowed error succeeds whatever else it carries. */
  lemma FailuresAreLabelled(o: CallOutcome)
    ensures SendEmail(o).Err? ==>
              SendEmail(o).message == UnknownFailure
              || (|FailedPrefix| < |SendEmail(o).message|
                  && SendEmail(o).message[..|FailedPrefix|] == FailedPrefix)
    ensures o.Threw? && Swallowed(o.code) ==>
              forall d, m :: SendEmail(Threw(o.code, d, m)).Ok?
  {
  }
}

=== FILE: email_function.dfy ===
/** The server-side `sendEmail` callable function: it checks the mail
    service configuration and the request, picks the template, checks the
    recipient address, and hands one message to the mail service.
 */
module EmailFunction {

  import opened Wrappers
  import Text
  import EmailClient

  // ----- recipient address ------------------------------------------------

  /** A piece of an address: at least one character, none of them white
      space or '@' (`[^\s@]+`). */
  predicate Atom(s: string) {
    |s| > 0 && forall k :: 0 <= k < |s| ==> !Text.IsSpace(s[k]) && s[k] != '@'
  }

  /** The address pattern `^[^\s@]+@[^\s@]+\.[^\s@]+$`: a local part, '@',
      and a domain with a '.' that has text on both sides; the '@' at `at`
      and the '.' at `dot`. */
  predicate SplitsAt(s: string, at: int, dot: int) {
    0 < at < dot < |s| - 1 && s[at] == '@' && s[dot] == '.'
    && Atom(s[..at]) && Atom(s[at + 1..dot]) && Atom(s[dot + 1..])
  }

  predicate MatchesAddress(s: string) {
    exists at, dot | 0 <= at < |s| && 0 <= dot < |s| :: SplitsAt(s, at, dot)
  }

  /** Decides the address pattern in one pass for the '@' and one for the
      '.': no white space anywhere, exactly one '@', not first, and a '.'
      after it that is neither right after the '@' nor last. */
  method CheckRecipient(s: string) returns (ok: bool)
    ensures ok <==> MatchesAddress(s)
  {
    var at := -1;
    var i := 0;
    while i < |s|
      invariant 0 <= i <= |s|
      invariant forall k :: 0 <= k < i ==> !Text.IsSpace(s[k])
      invariant at == -1 ==> forall k :: 0 <= k < i ==> s[k] != '@'
      invariant at != -1 ==> 0 <= at < i && s[at] == '@' && forall k :: 0 <= k < i && k != at ==> s[k] != '@'
    {
      if Text.IsSpace(s[i]) {
        NoMatchWithSpace(s, i);
        return false;
      }
      if s[i] == '@' {
        if at != -1 {
          NoMatchWithTwoAts(s, at, i);
          return false;
        }
        at := i;
      }
      i := i + 1;
    }
    if at <= 0 {
      return false;
    }
    var j := at + 2;
    while j < |s| - 1
      invariant at + 2 <= j
      invariant forall k :: at + 2 <= k < j && k < |s| - 1 ==> s[k] != '.'
    {
      if s[j] == '.' {
        AtomsAround(s, at, j);
        return true;
      }
      j := j + 1;
    }
    return false;
  }

  lemma NoMatchWithSpace(s: string, i: int)
    requires 0 <= i < |s| && Text.IsSpace(s[i])
    ensures !MatchesAddress(s)
  {
    forall a, d
      ensures !SplitsAt(s, a, d)
    {
      if i < a < |s| {
        assert s[..a][i] == s[i];
      } else if 0 <= a < i < d <= |s| {
        assert s[a + 1..d][i - a - 1] == s[i];
      } else if 0 <= d < i {
        assert s[d + 1..][i - d - 1] == s[i];
      }
    }
  }

  lemma NoMatchWithTwoAts(s: string, i: int, j: int)
    requires 0 <= i < j < |s| && s[i] == '@' && s[j] == '@'
    ensures !MatchesAddress(s)
  {
    forall a, d
      ensures !SplitsAt(s, a, d)
    {
      var other := if i != a then i else j;
      if other < a < |s| {
        assert s[..a][other] == s[other];
      } else if 0 <= a < other < d <= |s| {
        assert s[a + 1..d][other - a - 1] == s[other];
      } else if 0 <= d < other {
        assert s[d + 1..][other - d - 1] == s[other];
      }
    }
  }

  lemma AtomsAround(s: string, at: int, dot: int)
    requires 0 < at && at + 2 <= dot < |s| - 1 && s[at] == '@' && s[dot] == '.'
    requires forall k :: 0 <= k < |s| ==> !Text.IsSpace(s[k])
    requires forall k :: 0 <= k < |s| && k != at ==> s[k] != '@'
    ensures MatchesAddress(s)
  {
    assert SplitsAt(s, at, dot);
  }

  // ----- the callable -----------------------------------------------------

  /** The mail service settings from the environment. */
  datatype Config = Config(key: Option<string>, from: Option<string>)

  /** The request as received: every part may be missing. */
  datatype Call = Call(to: Option<string>, template: Option<string>, data: Option<map<string, string>>)

  /** The message handed to the mail service. */
  datatype Message = Message(to: string, from: string, subject: string, body: seq<string>)

  /** The four template names the function knows. */
  function TemplateNamed(name: string): (t: Option<EmailClient.Template>)
    ensures t.Some? <==> name in {"SHEET_CREATED", "SHEET_REMINDER", "SHEET_SUBMITTED", "SUPPLIER_INVITATION"}
  {
    match name
    case "SHEET_CREATED" => Some(EmailClient.SheetCreated)
    case "SHEET_REMINDER" => Some(EmailClient.SheetReminder)
    case "SHEET_SUBMITTED" => Some(EmailClient.SheetSubmitted)
    case "SUPPLIER_INVITATION" => Some(EmailClient.SupplierInvitation)
    case _ => None
  }

  function Subject(t: EmailClient.Template): string {
    match t
    case SupplierInvitation => "Invitation to Join BoltStax"
    case SheetCreated => "New Product Sheet Questionnaire"
    case SheetReminder => "Reminder: Product Sheet Questionnaire Due Soon"
    case SheetSubmitted => "Product Sheet Questionnaire Submitted"
  }

  /** A template field as the page shows it (a missing one reads
      "undefined"). */
  function Field(data: map<string, string>, key: string): string {
    if key in data then data[key] else "undefined"
  }

  function DuePara(data: map<string, string>): string {
    "Please complete it by: " + Field(data, "dueDate")
  }

  /** A due date is given: present and not empty. */
  predicate HasDueDate(data: map<string, string>) {
    "dueDate" in data && data["dueDate"] != ""
  }

  // The fixed paragraphs, each split after its first word: the verifier
  // reads the characters of short string literals only, and the proofs
  // below need each paragraph's first character.
  const ContactLine := "If" + " you have any questions, please contact your account manager."
  const JoinLine := "Click" + " the link below to create your account and get started:"
  const AccessLine := "Click" + " the link below to access the questionnaire:"
  const CompleteLine := "Click" + " the link below to complete the questionnaire:"
  const ReviewLine := "Click" + " below to review the responses:"

  /** The new-sheet body: the due date paragraph comes third, and only
      when a due date is given. */
  function CreatedBody(data: map<string, string>): (b: seq<string>)
    ensures |b| == (if HasDueDate(data) then 6 else 5)
    ensures HasDueDate(data) ==> b[2] == DuePara(data)
    ensures !HasDueDate(data) ==> forall k :: 0 <= k < |b| ==> b[k] != DuePara(data)
  {
    var hello := "Hello " + Field(data, "supplierName") + ",";
    var created := "A new product sheet questionnaire \"" + Field(data, "sheetName") + "\" has been created for you to complete.";
    var access := "Access Questionnaire: " + Field(data, "accessUrl");
    if HasDueDate(data) then [hello, created, DuePara(data), AccessLine, access, ContactLine]
    else
      assert DuePara(data)[0] == 'P';
      assert hello[0] == 'H' && created[0] == 'A' && AccessLine[0] == 'C' && access[0] == 'A' && ContactLine[0] == 'I';
      [hello, created, AccessLine, access, ContactLine]
  }

  /** The reminder body: the due date always comes third, read as it is
      (a missing one reads "undefined"). */
  function ReminderBody(data: map<string, string>): (b: seq<string>)
    ensures |b| == 5 && b[2] == "Due date: " + Field(data, "dueDate")
  {
    ["Hello " + Field(data, "supplierName") + ",",
     "This is a reminder that the product sheet questionnaire \"" + Field(data, "sheetName") + "\" is due soon.",
     "Due date: " + Field(data, "dueDate"),
     CompleteLine,
     "Complete Questionnaire: " + Field(data, "accessUrl")]
  }

  /** The paragraphs of a message body, by template. */
  function Body(t: EmailClient.Template, data: map<string, string>): seq<string> {
    match t
    case SupplierInvitation =>
      ["Hello " + Field(data, "contactName") + ",",
       "You have been invited to join BoltStax as a supplier for " + Field(data, "companyName") + ".",
       JoinLine,
       "Accept Invitation: " + Field(data, "accessUrl"),
       ContactLine]
    case SheetCreated => CreatedBody(data)
    case SheetReminder => ReminderBody(data)
    case SheetSubmitted =>
      ["Product Sheet Submitted",
       "The product sheet \"" + Field(data, "sheetName") + "\" has been submitted by " + Field(data, "supplierName") + ".",
       ReviewLine,
       "View Responses: " + Field(data, "accessUrl")]
  }

  const ConfigMissing := "SendGrid configuration is missing"
  const FieldsMissing := "Missing required email data"
  const UnknownTemplate := "Invalid email template"
  const BadRecipient := "Invalid recipient email address"

  /** What one call does: the message handed to the mail service, if it
      got that far, and the result returned to the caller. */
  datatype Handled = Handled(sent: Option<Message>, result: Result<()>)

  /** `sendEmail`. The checks run in order: configuration, required fields,
      template, recipient address; the first to fail decides the error and
      nothing is sent. Otherwise one message goes to the mail service
      (`delivery` is what its send reports), and success is returned only
      once that send has succeeded; its failure is passed on. */
  method SendEmail(config: Config, call: Call, delivery: Result<()>) returns (h: Handled)
    ensures !Truthy(config.key) || !Truthy(config.from) ==> h == Handled(None, Err(ConfigMissing))
    ensures Truthy(config.key) && Truthy(config.from) && (!Truthy(call.to) || !Truthy(call.template) || call.data.None?) ==>
              h == Handled(None, Err(FieldsMissing))
    ensures Truthy(config.key) && Truthy(config.from) && Truthy(call.to) && Truthy(call.template) && call.data.Some?
            && TemplateNamed(call.template.value).None? ==>
              h == Handled(None, Err(UnknownTemplate))
    ensures Truthy(config.key) && Truthy(config.from) && Truthy(call.to) && Truthy(call.template) && call.data.Some?
            && TemplateNamed(call.template.value).Some? && !MatchesAddress(call.to.value) ==>
              h == Handled(None, Err(BadRecipient))
    ensures h.sent.Some? <==>
              Truthy(config.key) && Truthy(config.from) && Truthy(call.to) && Truthy(call.template) && call.data.Some?
              && TemplateNamed(call.template.value).Some? && MatchesAddress(call.to.value)
    ensures h.sent.Some? ==>
              var t := TemplateNamed(call.template.value).value;
              h.sent.value == Message(call.to.value, config.from.value, Subject(t), Body(t, call.data.value))
              && h.result == delivery
    ensures h.result.Ok? ==> h.sent.Some? && delivery.Ok?
  {
    if !Truthy(config.key) || !Truthy(config.from) {
      return Handled(None, Err(ConfigMissing));
    }
    if !Truthy(call.to) || !Truthy(call.template) || call.data.None? {
      return Handled(None, Err(FieldsMissing));
    }
    var template := TemplateNamed(call.template.value);
    if template.None? {
      return Handled(None, Err(UnknownTemplate));
    }
    var ok := CheckRecipient(call.to.value);
    if !ok {
      return Handled(None, Err(BadRecipient));
    }
    var t := template.value;
    var msg := Message(call.to.value, config.from.value, Subject(t), Body(t, call.data.value));
    return Handled(Some(msg), delivery);
  }

  // ----- as the browser sees it --------------------------------------------

  /** How a call's result reaches the browser. Success arrives as the data
      `{ success: true }`; every error this function throws is a plain
      `Error`, which the callable protocol hands to the caller as its
      internal error, code `functions/internal`, with the message hidden. */
  function AtClient(result: Result<()>): (o: EmailClient.CallOutcome)
    ensures result.Ok? <==> o.Returned?
    ensures o.Returned? ==> o.data.Some?
    ensures o.Threw? ==> o.code == Some(EmailClient.InternalCode)
  {
    if result.Ok? then EmailClient.Returned(Some("{ success: true }"))
    else EmailClient.Threw(Some(EmailClient.InternalCode), None, Some("INTERNAL"))
  }

  /** One call end to end: this function's handling, then the browser's
      `sendEmail` reading the outcome. Whatever went wrong here (missing
      configuration, a refused recipient, the mail service rejecting the
      message) the caller is told the e-mail was sent. */
  method Invoke(config: Config, call: Call, delivery: Result<()>) returns (h: Handled, r: Result<()>)
    ensures r.Ok?
    ensures r == EmailClient.SendEmail(AtClient(h.result))
    ensures h.sent.None? ==> h.result.Err?
    ensures h.sent.Some? ==> h.result == delivery
  {
    h := SendEmail(config, call, delivery);
    r := EmailClient.SendEmail(AtClient(h.result));
  }
}

=== FILE: firestore.dfy ===
/** What the model assumes of the document store.

    A collection is a finite map from document id to document. Ids created by
    `addDoc` are supplied by the caller and assumed fresh; timestamps are
    opaque naturals supplied by the caller.
 */
module Firestore {

  import Seqs
  import opened Wrappers

  /** The error Firestore raises when `updateDoc` targets a missing
      document; callers only ever pass it on. */
  const UpdateMissing: string := "No document to update"

  /** The error Firestore raises when a document reference is built from an
      empty id. */
  const InvalidReference: string := "Invalid document reference"

  /** The most values an `in` filter may list. */
  const InLimit: nat := 30

  const EmptyInFilter: string := "Invalid Query. A non-empty array is required for 'in' filters."
  const TooManyInFilter: string := "Invalid Query. 'in' filter supports a maximum of 30 elements in the value array."

  /** The error a query with `where(field, 'in', values)` raises before it
      reads anything, or none when the list is acceptable: it must be
      non-empty and hold at most `InLimit` values. */
  function InFilterError(values: seq<string>): (r: Option<string>)
    ensures r.None? <==> 0 < |values| <= InLimit
    ensures |values| == 0 ==> r == Some(EmptyInFilter)
    ensures |values| > InLimit ==> r == Some(TooManyInFilter)
  {
    if |values| == 0 then Some(EmptyInFilter)
    else if |values| > InLimit then Some(TooManyInFilter)
    else None
  }

  /** Firestore's `arrayUnion`: appends each value not already present. */
  function ArrayUnion(s: seq<string>, x: string): (r: seq<string>)
    ensures x in r
    ensures forall y :: y in r <==> y in s || y == x
    ensures x in s ==> r == s
    ensures x !in s ==> r == s + [x]
  {
    if x in s then s else s + [x]
  }

  /** `arrayUnion` is idempotent, so applying it again undoes nothing;
      `arrayRemove` (every occurrence dropped) after it removes the value
      as if it had never been added. */
  lemma {:induction false} RemoveUndoesUnion(s: seq<string>, x: string)
    ensures Seqs.RemoveAll(ArrayUnion(s, x), x) == Seqs.RemoveAll(s, x)
    ensures ArrayUnion(ArrayUnion(s, x), x) == ArrayUnion(s, x)
  {
    if x !in s {
      Seqs.RemoveAllAppend(s, [x], x);
      assert Seqs.RemoveAll([x], x) == [];
    }
  }
}

=== FILE: listing.dfy ===
/** Ordered query results.

    Firestore answers `where(...)` + `orderBy(...)` queries with the matching
    documents in order of one field; `Array.prototype.sort` with a comparator
    orders an in-memory array stably. Both are modelled by an insertion sort
    over a caller-supplied "comes no later than" relation.
 */
module Listing {

  import opened Wrappers

  /** String order by code point, which is also the order of the UTF-8 bytes
      Firestore compares. */
  predicate LexLe(a: string, b: string) {
    |a| == 0 || (|b| > 0 && (a[0] < b[0] || (a[0] == b[0] && LexLe(a[1..], b[1..]))))
  }

  lemma {:induction false} LexLeTotal(a: string, b: string)
    ensures LexLe(a, b) || LexLe(b, a)
  {
    if |a| > 0 && |b| > 0 && a[0] == b[0] {
      LexLeTotal(a[1..], b[1..]);
    }
  }

  lemma {:induction false} LexLeTransitive(a: string, b: string, c: string)
    requires LexLe(a, b) && LexLe(b, c)
    ensures LexLe(a, c)
  {
    if |a| > 0 && a[0] == b[0] && b[0] == c[0] {
      LexLeTransitive(a[1..], b[1..], c[1..]);
    }
  }

  lemma {:induction false} LexLeAntisymmetric(a: string, b: string)
    requires LexLe(a, b) && LexLe(b, a)
    ensures a == b
  {
    if |a| > 0 {
      LexLeAntisymmetric(a[1..], b[1..]);
      assert a == [a[0]] + a[1..] && b == [b[0]] + b[1..];
    }
  }

  ghost predicate Total<T(!new)>(le: (T, T) -> bool) {
    forall a, b :: le(a, b) || le(b, a)
  }

  ghost predicate Transitive<T(!new)>(le: (T, T) -> bool) {
    forall a, b, c :: le(a, b) && le(b, c) ==> le(a, c)
  }

  /** A relation usable as a sort order. */
  ghost predicate Preorder<T(!new)>(le: (T, T) -> bool) {
    Total(le) && Transitive(le)
  }

  predicate Sorted<T>(s: seq<T>, le: (T, T) -> bool) {
    forall i, j :: 0 <= i < j < |s| ==> le(s[i], s[j])
  }

  /** No element occurs twice. */
  predicate NoDup<T(==)>(s: seq<T>) {
    forall i, j :: 0 <= i < j < |s| ==> s[i] != s[j]
  }

  /** Inserts `x` in front of the first element it may precede, so it lands
      after every element it must follow and before equal ones. */
  function Insert<T>(x: T, s: seq<T>, le: (T, T) -> bool): (r: seq<T>)
    ensures multiset(r) == multiset(s) + multiset{x}
    ensures |r| == |s| + 1
  {
    if |s| == 0 then [x]
    else if le(x, s[0]) then [x] + s
    else
      assert s == [s[0]] + s[1..];
      [s[0]] + Insert(x, s[1..], le)
  }

  /** Inserting into a sorted list keeps it sorted. */
  lemma {:induction false} InsertSorted<T(!new)>(x: T, s: seq<T>, le: (T, T) -> bool)
    requires Preorder(le) && Sorted(s, le)
    ensures Sorted(Insert(x, s, le), le)
  {
    if |s| > 0 && !le(x, s[0]) {
      assert s == [s[0]] + s[1..];
      InsertSorted(x, s[1..], le);
      var t := Insert(x, s[1..], le);
      assert le(s[0], x);
      forall k | 0 <= k < |t|
        ensures le(s[0], t[k])
      {
        assert t[k] in multiset(s[1..]) + multiset{x};
      }
    }
  }

  /** Inserting a new element into a duplicate-free list keeps it so. */
  lemma {:induction false} InsertNoDup<T>(x: T, s: seq<T>, le: (T, T) -> bool)
    requires NoDup(s) && x !in s
    ensures NoDup(Insert(x, s, le))
  {
    if |s| > 0 && !le(x, s[0]) {
      assert s == [s[0]] + s[1..];
      InsertNoDup(x, s[1..], le);
      assert s[0] !in multiset(Insert(x, s[1..], le));
    }
  }

  /** Insertion sort: a permutation of `s` in the given order; earlier
      elements stay ahead of later equal ones. */
  function Sort<T(!new)>(s: seq<T>, le: (T, T) -> bool): (r: seq<T>)
    ensures multiset(r) == multiset(s)
    ensures Preorder(le) ==> Sorted(r, le)
    ensures NoDup(s) ==> NoDup(r)
  {
    if |s| == 0 then []
    else
      assert s == [s[0]] + s[1..];
      var t := Sort(s[1..], le);
      assert Preorder(le) ==> Sorted(Insert(s[0], t, le), le) by {
        if Preorder(le) {
          InsertSorted(s[0], t, le);
        }
      }
      assert NoDup(s) ==> NoDup(Insert(s[0], t, le)) by {
        if NoDup(s) {
          assert forall k :: 0 <= k < |s| - 1 ==> s[1..][k] == s[k + 1];
          assert s[0] !in s[1..];
          assert s[0] !in multiset(t);
          InsertNoDup(s[0], t, le);
        }
      }
      Insert(s[0], t, le)
  }

  /** Sorting an already sorted list changes nothing. */
  lemma {:induction false} SortSorted<T(!new)>(s: seq<T>, le: (T, T) -> bool)
    requires Sorted(s, le)
    ensures Sort(s, le) == s
  {
    if |s| > 0 {
      assert Sorted(s[1..], le);
      SortSorted(s[1..], le);
      assert |s[1..]| == 0 || le(s[0], s[1..][0]);
    }
  }

  /** The keys of a map, each exactly once, in some order. */
  method Keys<D>(m: map<string, D>) returns (ks: seq<string>)
    ensures forall k :: k in ks <==> k in m
    ensures forall i, j :: 0 <= i < j < |ks| ==> ks[i] != ks[j]
  {
    ks := [];
    var rest := m.Keys;
    while rest != {}
      invariant rest <= m.Keys
      invariant forall k :: k in ks <==> k in m && k !in rest
      invariant forall i, j :: 0 <= i < j < |ks| ==> ks[i] != ks[j]
      decreases |rest|
    {
      var k :| k in rest;
      ks := ks + [k];
      rest := rest - {k};
    }
  }

  /** The order on documents lifted to (id, document) pairs. */
  function OnDocs<D>(le: (D, D) -> bool): ((string, D), (string, D)) -> bool {
    (p: (string, D), q: (string, D)) => le(p.1, q.1)
  }

  /** Every (id, document) entry of `m` whose document is kept, once each:
      a Firestore `where` query before ordering. */
  method Matching<D>(m: map<string, D>, keep: D -> bool) returns (hits: seq<(string, D)>)
    ensures forall i :: 0 <= i < |hits| ==> hits[i].0 in m && m[hits[i].0] == hits[i].1 && keep(hits[i].1)
    ensures forall k :: k in m && keep(m[k]) ==> exists i :: 0 <= i < |hits| && hits[i].0 == k
    ensures forall i, j :: 0 <= i < j < |hits| ==> hits[i].0 != hits[j].0
  {
    var ks := Keys(m);
    hits := [];
    var n := 0;
    while n < |ks|
      invariant 0 <= n <= |ks|
      invariant forall i :: 0 <= i < |hits| ==> hits[i].0 in m && m[hits[i].0] == hits[i].1 && keep(hits[i].1)
      invariant forall i :: 0 <= i < |hits| ==> hits[i].0 in ks[..n]
      invariant forall k :: k in ks[..n] && keep(m[k]) ==> exists i :: 0 <= i < |hits| && hits[i].0 == k
      invariant forall i, j :: 0 <= i < j < |hits| ==> hits[i].0 != hits[j].0
    {
      var k := ks[n];
      assert ks[..n + 1] == ks[..n] + [k];
      assert k !in ks[..n];
      if keep(m[k]) {
        var prev := hits;
        hits := hits + [(k, m[k])];
        assert hits[|prev|].0 == k;
        assert forall i :: 0 <= i < |prev| ==> hits[i] == prev[i];
      }
      n := n + 1;
    }
    assert ks[..n] == ks;
  }

  /** The first kept document of `m` in document-id order, or nothing when
      none is kept: `docs[0]` of a `where` query without an `orderBy`. */
  method First<D>(m: map<string, D>, keep: D -> bool) returns (r: Option<(string, D)>)
    ensures r.None? <==> forall k :: k in m ==> !keep(m[k])
    ensures r.Some? ==> r.value.0 in m && r.value.1 == m[r.value.0] && keep(r.value.1)
    ensures r.Some? ==> forall k :: k in m && keep(m[k]) ==> LexLe(r.value.0, k)
  {
    var hits := Matching(m, keep);
    if |hits| == 0 {
      return None;
    }
    var best := hits[0];
    LexLeTotal(best.0, best.0);
    var n := 1;
    while n < |hits|
      invariant 1 <= n <= |hits|
      invariant best in hits[..n]
      invariant forall i :: 0 <= i < n ==> LexLe(best.0, hits[i].0)
    {
      LexLeTotal(hits[n].0, hits[n].0);
      if !LexLe(best.0, hits[n].0) {
        LexLeTotal(best.0, hits[n].0);
        forall i | 0 <= i < n
          ensures LexLe(hits[n].0, hits[i].0)
        {
          LexLeTransitive(hits[n].0, best.0, hits[i].0);
        }
        best := hits[n];
      }
      n := n + 1;
    }
    r := Some(best);
    forall k | k in m && keep(m[k])
      ensures LexLe(best.0, k)
    {
      var i :| 0 <= i < |hits| && hits[i].0 == k;
    }
  }

  /** Ids in ascending order, or in descending order. */
  predicate IdsInOrder(a: string, b: string, descending: bool) {
    if descending then LexLe(b, a) else LexLe(a, b)
  }

  /** The order on (id, document) pairs Firestore uses: by `le` on the
      documents, and documents `le` cannot tell apart by id, in the
      direction of the query's last ordering. */
  function ThenById<D>(le: (D, D) -> bool, descending: bool): ((string, D), (string, D)) -> bool {
    (p: (string, D), q: (string, D)) => le(p.1, q.1) && (!le(q.1, p.1) || IdsInOrder(p.0, q.0, descending))
  }

  /** No order on the documents: a query without `orderBy`, which comes
      back in document-id order. */
  function NoOrder<D>(): (D, D) -> bool {
    (a: D, b: D) => true
  }

  lemma NoOrderPreorder<D(!new)>()
    ensures Preorder(NoOrder<D>())
  {
  }

  /** Every kept document of `m` exactly once, paired with its id, ordered by
      `le`, and documents that tie by id (descending when the ordering is):
      a Firestore `where` + `orderBy` query. */
  method Query<D(!new)>(m: map<string, D>, keep: D -> bool, le: (D, D) -> bool, descending: bool)
    returns (r: seq<(string, D)>)
    ensures forall i :: 0 <= i < |r| ==> r[i].0 in m && m[r[i].0] == r[i].1 && keep(r[i].1)
    ensures forall k :: k in m && keep(m[k]) ==> exists i :: 0 <= i < |r| && r[i].0 == k
    ensures forall i, j :: 0 <= i < j < |r| ==> r[i].0 != r[j].0
    ensures Preorder(le) ==> Sorted(r, OnDocs(le))
    ensures Preorder(le) ==> forall i, j :: 0 <= i < j < |r| && le(r[j].1, r[i].1) ==> IdsInOrder(r[i].0, r[j].0, descending)
  {
    var hits := Matching(m, keep);
    assert NoDup(hits);
    r := Sort(hits, ThenById(le, descending));
    forall i | 0 <= i < |r|
      ensures r[i] in hits
    {
      assert r[i] in multiset(hits);
    }
    forall k | k in m && keep(m[k])
      ensures exists i :: 0 <= i < |r| && r[i].0 == k
    {
      var j :| 0 <= j < |hits| && hits[j].0 == k;
      assert hits[j] in multiset(r);
    }
    if Preorder(le) {
      ThenByIdPreorder(le, descending);
      assert Sorted(r, ThenById(le, descending));
      forall i, j | 0 <= i < j < |r|
        ensures OnDocs(le)(r[i], r[j])
      {
        assert ThenById(le, descending)(r[i], r[j]);
      }
    }
  }

  lemma ThenByIdPreorder<D(!new)>(le: (D, D) -> bool, descending: bool)
    requires Preorder(le)
    ensures Preorder(ThenById(le, descending))
  {
    var t := ThenById(le, descending);
    forall p: (string, D), q: (string, D)
      ensures t(p, q) || t(q, p)
    {
      assert le(p.1, q.1) || le(q.1, p.1);
      LexLeTotal(p.0, q.0);
    }
    forall p: (string, D), q: (string, D), o: (string, D) | t(p, q) && t(q, o)
      ensures t(p, o)
    {
      assert le(p.1, q.1) && le(q.1, o.1);
      if le(o.1, p.1) {
        assert le(q.1, p.1) && le(o.1, q.1);
        if descending {
          LexLeTransitive(o.0, q.0, p.0);
        } else {
          LexLeTransitive(p.0, q.0, o.0);
        }
      }
    }
  }
}

=== FILE: notifications.dfy ===
/** The notification service: every notification is stored unread and, for
    the four known kinds, an email is queued with a template chosen by kind.
 */
module Notifications {

  import opened Wrappers
  import Firestore

  const QuestionnaireAssigned: string := "questionnaireAssigned"
  const QuestionnaireSubmitted: string := "questionnaireSubmitted"
  const SupplierInvited: string := "supplierInvited"
  const SupplierJoined: string := "supplierJoined"

  /** A notification document. The kind is kept as the raw string the caller
      passed, since the service checks it at run time. `productSheetId` is
      present for questionnaire notifications only. */
  datatype Notification = Notification(
    kind: string,
    productSheetId: Option<string>,
    supplierId: string,
    timestamp: nat,
    read: bool,
    readAt: Option<nat>)

  /** A queued email; `context` maps field names to possibly-undefined values. */
  datatype QueuedEmail = QueuedEmail(
    template: string,
    context: map<string, Option<string>>,
    scheduledFor: nat,
    sent: bool)

  /** The `notifications` collection and the `emailQueue` collection (whose
      ids nobody reads, so it is kept as a log). */
  datatype Store = Store(notifications: map<string, Notification>, queue: seq<QueuedEmail>)

  predicate IsQuestionnaireKind(kind: string) {
    kind == QuestionnaireAssigned || kind == QuestionnaireSubmitted
  }

  predicate IsSupplierKind(kind: string) {
    kind == SupplierInvited || kind == SupplierJoined
  }

  /** The email template queued for a kind of notification, if it is one of
      the four known kinds. */
  function EmailTemplate(kind: string): (r: Option<string>)
    ensures r.Some? <==> IsQuestionnaireKind(kind) || IsSupplierKind(kind)
  {
    if kind == QuestionnaireAssigned then Some("questionnaire-assigned")
    else if kind == QuestionnaireSubmitted then Some("questionnaire-submitted")
    else if kind == SupplierInvited then Some("supplier-invited")
    else if kind == SupplierJoined then Some("supplier-joined")
    else None
  }

  /** Distinct kinds get distinct templates, so the queue entry tells which
      event it announces. */
  lemma EmailTemplateInjective(a: string, b: string)
    requires EmailTemplate(a).Some? && EmailTemplate(a) == EmailTemplate(b)
    ensures a == b
  {
  }

  /** The context handed to the email template. */
  function EmailContext(n: Notification): (r: map<string, Option<string>>)
    requires IsQuestionnaireKind(n.kind) || IsSupplierKind(n.kind)
    ensures "supplierId" in r && r["supplierId"] == Some(n.supplierId)
    ensures "productSheetId" in r <==> IsQuestionnaireKind(n.kind)
    ensures IsQuestionnaireKind(n.kind) ==> r["productSheetId"] == n.productSheetId
    ensures r.Keys <= {"supplierId", "productSheetId"}
  {
    if IsQuestionnaireKind(n.kind) then
      map["productSheetId" := n.productSheetId, "supplierId" := Some(n.supplierId)]
    else
      map["supplierId" := Some(n.supplierId)]
  }

  /** `sendNotification`: the notification is stored unread under the fresh
      id first; then either an unsent email is queued and the id returned,
      or the kind is unknown and the call fails with the notification
      already stored. */
  function Send(s: Store, n: Notification, newId: string, now: nat): (e: Effect<Store, string>)
    requires newId !in s.notifications
    ensures e.store.notifications == s.notifications[newId := n.(read := false)]
    ensures e.result.Ok? <==> IsQuestionnaireKind(n.kind) || IsSupplierKind(n.kind)
    ensures e.result.Ok? ==> e.result.value == newId
    ensures e.result.Err? ==> e.result.message == "Invalid notification type" && e.store.queue == s.queue
    ensures e.result.Ok? ==> |e.store.queue| == |s.queue| + 1 && e.store.queue[..|s.queue|] == s.queue
    ensures e.result.Ok? ==> var q := e.store.queue[|s.queue|];
              Some(q.template) == EmailTemplate(n.kind) && !q.sent && q.scheduledFor == now
              && q.context == EmailContext(n)
  {
    var stored := s.(notifications := s.notifications[newId := n.(read := false)]);
    match EmailTemplate(n.kind)
    case None => Effect(stored, Err("Invalid notification type"))
    case Some(t) =>
      var q := QueuedEmail(t, EmailContext(n), now, false);
      Effect(stored.(queue := s.queue + [q]), Ok(newId))
  }

  /** `markNotificationAsRead`: sets `read` and `readAt` on an existing
      notification and nothing else; an empty id is no document reference,
      and a missing notification makes the update fail. */
  function MarkRead(s: Store, id: string, now: nat): (e: Effect<Store, ()>)
    ensures e.result.Ok? <==> id != "" && id in s.notifications
    ensures id == "" ==> e == Effect(s, Err(Firestore.InvalidReference))
    ensures e.store.notifications.Keys == s.notifications.Keys
    ensures e.result.Ok? ==> e.store.notifications[id].read && e.store.notifications[id].readAt == Some(now)
    ensures e.result.Ok? ==> e.store.notifications[id].(read := false, readAt := None)
                             == s.notifications[id].(read := false, readAt := None)
    ensures forall k :: k in s.notifications && k != id ==> e.store.notifications[k] == s.notifications[k]
    ensures e.store.queue == s.queue
    ensures e.result.Err? ==> e.store == s
    ensures id != "" && id !in s.notifications ==> e.result == Err(Firestore.UpdateMissing)
  {
    if id == "" then Effect(s, Err(Firestore.InvalidReference))
    else if id in s.notifications then
      var n := s.notifications[id];
      Effect(s.(notifications := s.notifications[id := n.(read := true, readAt := Some(now))]), Ok(()))
    else
      Effect(s, Err(Firestore.UpdateMissing))
  }

  /** Marking twice is the same as marking once at the later time. */
  lemma MarkReadTwice(s: Store, id: string, t1: nat, t2: nat)
    requires MarkRead(s, id, t1).result.Ok?
    ensures MarkRead(MarkRead(s, id, t1).store, id, t2) == MarkRead(s, id, t2)
  {
    var n := s.notifications[id];
    assert n.(read := true, readAt := Some(t1)).(read := true, readAt := Some(t2))
        == n.(read := true, readAt := Some(t2));
    assert s.notifications[id := n.(read := true, readAt := Some(t1))][id := n.(read := true, readAt := Some(t2))]
        == s.notifications[id := n.(read := true, readAt := Some(t2))];
  }

}

=== FILE: product_sheets.dfy ===
/** Product sheets: the record and its schema, the conversion to and from
    the stored document, the service operations over the `productSheets`
    collection and the per-company `companyProducts` index, and the
    creation dialog.
 */
module ProductSheets {

  import opened Wrappers
  import Text
  import Listing
  import Firestore

  datatype SheetStatus = Draft | Sent | InProgress | Completed

  /** Free-form answers; values are opaque. */
  type Answers = map<string, string>

  /** A product sheet as the application sees it (the id is kept apart). */
  datatype ProductSheet = ProductSheet(
    name: string,
    supplierId: string,
    status: SheetStatus,
    selectedTags: seq<string>,
    createdAt: nat,
    updatedAt: nat,
    dueDate: Option<nat>,
    submittedAt: Option<nat>,
    accessToken: string,
    responses: Option<Answers>)

  /** The stored document. `None` is a field that is null or missing. */
  datatype StoredSheet = StoredSheet(
    name: string,
    supplierId: string,
    status: SheetStatus,
    selectedTags: Option<seq<string>>,
    dueDate: Option<nat>,
    createdAt: nat,
    updatedAt: nat,
    submittedAt: Option<nat>,
    accessToken: string,
    responses: Option<Answers>,
    sentAt: Option<nat>)

  // ----- schema -----------------------------------------------------------

  /** The problems the schema reports, in field order. The status, the dates
      and the token are enforced by the types here. */
  function Issues(s: ProductSheet): (r: seq<string>)
    ensures |r| <= 3
    ensures s.name == "" <==> "Sheet name is required" in r
    ensures s.supplierId == "" <==> "Supplier is required" in r
    ensures s.selectedTags == [] <==> "At least one tag is required" in r
  {
    (if s.name == "" then ["Sheet name is required"] else [])
    + (if s.supplierId == "" then ["Supplier is required"] else [])
    + (if s.selectedTags == [] then ["At least one tag is required"] else [])
  }

  /** Whether the schema accepts the sheet. */
  predicate Valid(s: ProductSheet) {
    |s.name| >= 1 && |s.supplierId| >= 1 && |s.selectedTags| >= 1
  }

  lemma ValidIffNoIssues(s: ProductSheet)
    ensures Valid(s) <==> Issues(s) == []
  {
  }

  // ----- conversion -------------------------------------------------------

  /** `convertToFirestoreData`: a fresh document has no `sentAt`, and absent
      answers are written as an empty record. */
  function ToStore(s: ProductSheet): (d: StoredSheet)
    ensures d.selectedTags == Some(s.selectedTags)
    ensures d.responses.Some? && d.sentAt.None?
    ensures s.responses.None? ==> d.responses == Some(map[])
  {
    StoredSheet(s.name, s.supplierId, s.status, Some(s.selectedTags), s.dueDate, s.createdAt,
                s.updatedAt, s.submittedAt, s.accessToken, Some(s.responses.GetOr(map[])), None)
  }

  /** `convertFromFirestoreData`: a missing tag list reads as empty; the
      answers are read as stored. */
  function FromStore(d: StoredSheet): (s: ProductSheet)
    ensures s.selectedTags == d.selectedTags.GetOr([])
    ensures d.selectedTags.None? ==> s.selectedTags == []
    ensures s.responses == d.responses
  {
    ProductSheet(d.name, d.supplierId, d.status, d.selectedTags.GetOr([]), d.createdAt, d.updatedAt,
                 d.dueDate, d.submittedAt, d.accessToken, d.responses)
  }

  /** Writing a sheet and reading it back gives the same sheet, except that
      absent answers come back as an empty record. */
  lemma RoundTrip(s: ProductSheet)
    ensures FromStore(ToStore(s)) == s.(responses := Some(s.responses.GetOr(map[])))
    ensures s.responses.Some? ==> FromStore(ToStore(s)) == s
    ensures FromStore(ToStore(s)).dueDate == s.dueDate && FromStore(ToStore(s)).submittedAt == s.submittedAt
  {
  }

  /** After one write and read, further round trips change nothing. */
  lemma RoundTripStable(s: ProductSheet)
    ensures ToStore(FromStore(ToStore(s))) == ToStore(s)
  {
  }

  // ----- the service ------------------------------------------------------

  /** An entry of a company's product index. */
  datatype Link = Link(productSheetId: string, addedAt: nat)

  /** `productSheets`, and `companyProducts/{company}/products`. */
  datatype Db = Db(sheets: map<string, StoredSheet>, companyProducts: map<string, map<string, Link>>)

  /** The index entries of one company (none when it has no index). */
  function LinksOf(db: Db, companyId: string): map<string, Link> {
    if companyId in db.companyProducts then db.companyProducts[companyId] else map[]
  }

  /** The caller's part of a new sheet. */
  datatype SheetData = SheetData(
    name: string,
    supplierId: string,
    status: SheetStatus,
    selectedTags: seq<string>,
    dueDate: Option<nat>,
    submittedAt: Option<nat>,
    responses: Option<Answers>)

  const CreateFailed := "Failed to create product sheet"

  /** `createProductSheet`: the sheet gets both timestamps `now` and the
      fresh `token` and is stored under `sheetId`; then an index entry
      `linkId` of the company is made to point at it. An empty company id
      makes no collection path, so that second write fails after the sheet
      is already stored. */
  function Create(db: Db, companyId: string, data: SheetData, now: nat, token: string,
                  sheetId: string, linkId: string): (e: Effect<Db, (string, ProductSheet)>)
    requires sheetId !in db.sheets && linkId !in LinksOf(db, companyId)
    ensures e.result.Ok? <==> companyId != ""
    ensures e.result.Err? ==> e.result.message == CreateFailed && e.store.companyProducts == db.companyProducts
    ensures sheetId in e.store.sheets && e.store.sheets - {sheetId} == db.sheets - {sheetId}
    ensures var d := e.store.sheets[sheetId];
            d.createdAt == now && d.updatedAt == now && d.accessToken == token
            && d.name == data.name && d.supplierId == data.supplierId && d.status == data.status
            && d.selectedTags == Some(data.selectedTags) && d.dueDate == data.dueDate
            && d.submittedAt == data.submittedAt && d.responses == Some(data.responses.GetOr(map[]))
            && d.sentAt.None?
    ensures e.result.Ok? ==> var s := e.result.value.1;
            e.result.value.0 == sheetId && ToStore(s) == e.store.sheets[sheetId]
            && s.selectedTags == data.selectedTags && s.responses == data.responses
    ensures e.result.Ok? ==> LinksOf(e.store, companyId) == LinksOf(db, companyId)[linkId := Link(sheetId, now)]
    ensures forall c :: c != companyId ==> LinksOf(e.store, c) == LinksOf(db, c)
  {
    var s := ProductSheet(data.name, data.supplierId, data.status, data.selectedTags, now, now,
                          data.dueDate, data.submittedAt, token, data.responses);
    var stored := db.(sheets := db.sheets[sheetId := ToStore(s)]);
    if companyId == "" then Effect(stored, Err(CreateFailed))
    else
      var links := LinksOf(db, companyId)[linkId := Link(sheetId, now)];
      Effect(stored.(companyProducts := db.companyProducts[companyId := links]), Ok((sheetId, s)))
  }

  /** `getSheet`: a missing sheet fails with the generic fetch error. */
  function GetSheet(db: Db, sheetId: string): (r: Result<ProductSheet>)
    ensures r.Err? <==> sheetId !in db.sheets
    ensures r.Err? ==> r.message == "Failed to fetch product sheet"
    ensures r.Ok? ==> var d := db.sheets[sheetId];
              r.value.name == d.name && r.value.status == d.status && r.value.accessToken == d.accessToken
              && r.value.selectedTags == d.selectedTags.GetOr([])
  {
    if sheetId !in db.sheets then Err("Failed to fetch product sheet")
    else Ok(FromStore(db.sheets[sheetId]))
  }

  /** Fetching a created sheet gives what creation returned, with absent
      answers read back as an empty record; after a failed creation the
      sheet can be fetched all the same. */
  lemma CreateThenGet(db: Db, companyId: string, data: SheetData, now: nat, token: string,
                      sheetId: string, linkId: string)
    requires sheetId !in db.sheets && linkId !in LinksOf(db, companyId)
    ensures var e := Create(db, companyId, data, now, token, sheetId, linkId);
            e.result.Ok? ==> var s := e.result.value.1;
                             GetSheet(e.store, sheetId) == Ok(s.(responses := Some(s.responses.GetOr(map[]))))
    ensures var e := Create(db, companyId, data, now, token, sheetId, linkId);
            GetSheet(e.store, sheetId).Ok? && GetSheet(e.store, sheetId).value.name == data.name
  {
  }

  /** The sheet ids a company's index points at. */
  function IndexedIds(db: Db, companyId: string): set<string> {
    set k | k in LinksOf(db, companyId) :: LinksOf(db, companyId)[k].productSheetId
  }

  const FetchAllFailed := "Failed to fetch product sheets"
  const DeleteFailed := "Failed to delete product sheet"

  /** Whether a company id argument makes the index path
      `companyProducts/{companyId}/products`: it must be passed (`None` is an
      argument left out, i.e. `undefined`) and non-empty. */
  predicate NamesCompany(companyId: Option<string>) {
    companyId.Some? && companyId.value != ""
  }

  /** `getAllSheets`: a company id that makes no index path fails; so does
      an index longer than the store's `in` filter allows; otherwise nothing
      for an empty index, else every stored sheet the company's index points
      at, once each, read back in document-id order. */
  method GetAllSheets(db: Db, companyId: Option<string>) returns (r: Result<seq<(string, ProductSheet)>>)
    ensures !NamesCompany(companyId) ==> r == Err(FetchAllFailed)
    ensures NamesCompany(companyId) && |LinksOf(db, companyId.value)| == 0 ==> r == Ok([])
    ensures r.Ok? <==> NamesCompany(companyId) && |LinksOf(db, companyId.value)| <= Firestore.InLimit
    ensures r.Err? ==> r == Err(FetchAllFailed)
    ensures r.Ok? ==> forall i :: 0 <= i < |r.value| ==>
              r.value[i].0 in db.sheets && r.value[i].0 in IndexedIds(db, companyId.value)
              && r.value[i].1 == FromStore(db.sheets[r.value[i].0])
    ensures r.Ok? ==> forall id :: id in db.sheets && id in IndexedIds(db, companyId.value) ==>
              exists i :: 0 <= i < |r.value| && r.value[i].0 == id
    ensures r.Ok? ==> forall i, j :: 0 <= i < j < |r.value| ==>
              r.value[i].0 != r.value[j].0 && Listing.LexLe(r.value[i].0, r.value[j].0)
  {
    if !NamesCompany(companyId) {
      return Err(FetchAllFailed);
    }
    var links := LinksOf(db, companyId.value);
    // One value per index entry goes into the `in` filter.
    if |links| == 0 {
      return Ok([]);
    }
    if |links| > Firestore.InLimit {
      return Err(FetchAllFailed);
    }
    var sheets := ReadSheets(db, IndexedIds(db, companyId.value));
    r := Ok(sheets);
  }

  /** The stored sheets among `ids`, once each, read back in document-id
      order: the `where('__name__', 'in', ids)` query. */
  method ReadSheets(db: Db, ids: set<string>) returns (sheets: seq<(string, ProductSheet)>)
    ensures forall i :: 0 <= i < |sheets| ==>
              sheets[i].0 in db.sheets && sheets[i].0 in ids && sheets[i].1 == FromStore(db.sheets[sheets[i].0])
    ensures forall id :: id in db.sheets && id in ids ==> exists i :: 0 <= i < |sheets| && sheets[i].0 == id
    ensures forall i, j :: 0 <= i < j < |sheets| ==>
              sheets[i].0 != sheets[j].0 && Listing.LexLe(sheets[i].0, sheets[j].0)
  {
    var indexed := map k | k in db.sheets && k in ids :: db.sheets[k];
    Listing.NoOrderPreorder<StoredSheet>();
    var hits := Listing.Query(indexed, (d: StoredSheet) => true, Listing.NoOrder(), false);
    sheets := seq(|hits|, i requires 0 <= i < |hits| => (hits[i].0, FromStore(hits[i].1)));
    forall id | id in db.sheets && id in ids
      ensures exists i :: 0 <= i < |sheets| && sheets[i].0 == id
    {
      assert id in indexed;
      var i :| 0 <= i < |hits| && hits[i].0 == id;
      assert sheets[i].0 == id;
    }
    forall i, j | 0 <= i < j < |sheets|
      ensures Listing.LexLe(sheets[i].0, sheets[j].0)
    {
      assert Listing.NoOrder<StoredSheet>()(hits[j].1, hits[i].1);
    }
  }

  /** As written, the supplier products view loads its sheets with
      `getAllSheets()`, passing no company id, so loading always fails. */
  method ViewLoad(db: Db) returns (r: Result<seq<(string, ProductSheet)>>)
    ensures r == Err(FetchAllFailed)
  {
    r := GetAllSheets(db, None);
  }

  /** The view's load as evidently intended, with the signed-in user's
      company: it lists that company's sheets whenever its index fits the
      `in` filter. */
  method ViewLoadFixed(db: Db, userCompanyId: string) returns (r: Result<seq<(string, ProductSheet)>>)
    ensures r.Ok? <==> userCompanyId != "" && |LinksOf(db, userCompanyId)| <= Firestore.InLimit
    ensures r.Ok? ==> forall id :: id in db.sheets && id in IndexedIds(db, userCompanyId) ==>
              exists i :: 0 <= i < |r.value| && r.value[i].0 == id
  {
    r := GetAllSheets(db, Some(userCompanyId));
  }

  /** `deleteSheet`: an empty sheet id makes no document reference and
      nothing happens; otherwise the sheet goes first. Then every index entry
      of the company pointing at it goes, unless the company id makes no
      index path, in which case the call fails with the sheet already gone
      and the index untouched. Deleting what is not there is not an error. */
  function DeleteSheet(db: Db, sheetId: string, companyId: Option<string>): (e: Effect<Db, ()>)
    ensures e.result.Ok? <==> sheetId != "" && NamesCompany(companyId)
    ensures e.result.Err? ==> e.result.message == DeleteFailed && e.store.companyProducts == db.companyProducts
    ensures sheetId == "" ==> e.store == db
    ensures sheetId != "" ==> e.store.sheets == db.sheets - {sheetId}
    ensures e.result.Ok? ==> forall k :: k in LinksOf(e.store, companyId.value) <==>
              k in LinksOf(db, companyId.value) && LinksOf(db, companyId.value)[k].productSheetId != sheetId
    ensures e.result.Ok? ==> forall k :: k in LinksOf(e.store, companyId.value) ==>
              LinksOf(e.store, companyId.value)[k] == LinksOf(db, companyId.value)[k]
    ensures forall c :: companyId != Some(c) ==> LinksOf(e.store, c) == LinksOf(db, c)
  {
    if sheetId == "" then Effect(db, Err(DeleteFailed))
    else if !NamesCompany(companyId) then Effect(db.(sheets := db.sheets - {sheetId}), Err(DeleteFailed))
    else
      var links := LinksOf(db, companyId.value);
      var kept := map k | k in links && links[k].productSheetId != sheetId :: links[k];
      var cp := if companyId.value in db.companyProducts then db.companyProducts[companyId.value := kept]
                else db.companyProducts;
      Effect(Db(db.sheets - {sheetId}, cp), Ok(()))
  }

  /** After a delete for a company no index entry of that company points at
      the sheet, and fetching the sheet fails. */
  lemma DeleteLeavesNoDangling(db: Db, sheetId: string, companyId: string)
    requires sheetId != "" && companyId != ""
    ensures sheetId !in IndexedIds(DeleteSheet(db, sheetId, Some(companyId)).store, companyId)
    ensures GetSheet(DeleteSheet(db, sheetId, Some(companyId)).store, sheetId).Err?
  {
  }

  /** As written, the view deletes with `deleteSheet(sheetId)`, passing no
      company id: the sheet is deleted, the user is told the delete failed,
      and every index entry that pointed at the sheet still does. */
  lemma ViewDeleteFails(db: Db, sheetId: string, companyId: string)
    requires sheetId != ""
    ensures var e := DeleteSheet(db, sheetId, None);
            e.result == Err(DeleteFailed) && GetSheet(e.store, sheetId).Err?
            && IndexedIds(e.store, companyId) == IndexedIds(db, companyId)
  {
  }

  /** `sendSheet`: whatever the current status, the sheet becomes `sent`
      and records when; a missing sheet makes the update fail. */
  function SendSheet(db: Db, sheetId: string, now: nat): (e: Effect<Db, ()>)
    ensures e.result.Ok? <==> sheetId in db.sheets
    ensures e.result.Err? ==> e.store == db && e.result.message == "Failed to send product sheet"
    ensures e.result.Ok? ==>
              e.store.sheets == db.sheets[sheetId := db.sheets[sheetId].(status := Sent, updatedAt := now, sentAt := Some(now))]
    ensures e.store.companyProducts == db.companyProducts
  {
    if sheetId !in db.sheets then Effect(db, Err("Failed to send product sheet"))
    else
      var d := db.sheets[sheetId];
      Effect(db.(sheets := db.sheets[sheetId := d.(status := Sent, updatedAt := now, sentAt := Some(now))]), Ok(()))
  }

  /** There is no draft check: a completed sheet is sent again too, and
      sending twice is sending once at the later time. */
  lemma SendFromAnyStatus(db: Db, sheetId: string, t1: nat, t2: nat)
    requires sheetId in db.sheets
    ensures GetSheet(SendSheet(db, sheetId, t1).store, sheetId).value.status == Sent
    ensures SendSheet(SendSheet(db, sheetId, t1).store, sheetId, t2) == SendSheet(db, sheetId, t2)
  {
    var d := db.sheets[sheetId];
    assert d.(status := Sent, updatedAt := t1, sentAt := Some(t1)).(status := Sent, updatedAt := t2, sentAt := Some(t2))
        == d.(status := Sent, updatedAt := t2, sentAt := Some(t2));
    assert db.sheets[sheetId := d.(status := Sent, updatedAt := t1, sentAt := Some(t1))][sheetId := d.(status := Sent, updatedAt := t2, sentAt := Some(t2))]
        == db.sheets[sheetId := d.(status := Sent, updatedAt := t2, sentAt := Some(t2))];
  }

  // ----- the creation dialog ----------------------------------------------

  /** The dialog's fields; the due date is the raw date-input string. */
  datatype SheetForm = SheetForm(name: string, supplierId: string, selectedTags: seq<string>, dueDate: string)

  datatype Outcome =
    | FieldError(field: string, message: string)
    | Done(db: Db, result: Result<string>)

  /** `handleSubmit`'s checks, in order. */
  function CheckForm(f: SheetForm): (r: Option<(string, string)>)
    ensures r.None? <==> Text.Trim(f.name) != "" && f.supplierId != "" && |f.selectedTags| > 0
    ensures Text.Trim(f.name) == "" ==> r == Some(("name", "Sheet name is required"))
    ensures Text.Trim(f.name) != "" && f.supplierId == "" ==> r == Some(("supplierId", "Supplier is required"))
    ensures Text.Trim(f.name) != "" && f.supplierId != "" && |f.selectedTags| == 0 ==>
              r == Some(("tags", "At least one tag is required"))
  {
    if Text.Trim(f.name) == "" then Some(("name", "Sheet name is required"))
    else if f.supplierId == "" then Some(("supplierId", "Supplier is required"))
    else if |f.selectedTags| == 0 then Some(("tags", "At least one tag is required"))
    else None
  }

  /** The due date passed on: none for an empty input, else the parsed date. */
  function DueDate(input: string, parsed: nat): (r: Option<nat>)
    ensures r.None? <==> input == ""
  {
    if input == "" then None else Some(parsed)
  }

  /** A call of `createProductSheet(companyId, sheetData)`: the company id
      passed, and the sheet data when what is passed is a sheet record at
      all (`None` when it is a plain string). */
  datatype CreateCall = CreateCall(companyId: string, sheetData: Option<SheetData>)

  /** How far `handleSubmit` as written gets: a field error, or the call it
      makes to the service. */
  datatype Step = Stopped(field: string, message: string) | Calls(call: CreateCall)

  /** `handleSubmit` as written: the field checks, then the supplier lookup
      (its outcome is `supplierFound`), then `createProductSheet` called as
      `(name, supplierId, selectedTags, dueDate)` against its parameters
      `(companyId, sheetData)`: the name lands in the company id, the
      supplier id string in the sheet data, and the tags and due date are
      extra arguments the service ignores. */
  function Submit(f: SheetForm, supplierFound: bool): (o: Step)
    ensures o.Stopped? <==> CheckForm(f).Some? || !supplierFound
    ensures CheckForm(f).Some? ==> o == Stopped(CheckForm(f).value.0, CheckForm(f).value.1)
    ensures CheckForm(f).None? && !supplierFound ==> o == Stopped("supplierId", "Selected supplier not found")
  {
    match CheckForm(f)
    case Some(err) => Stopped(err.0, err.1)
    case None =>
      if !supplierFound then Stopped("supplierId", "Selected supplier not found")
      else Calls(CreateCall(f.name, None))
  }

  /** As written, a form that passes every check never reaches the service
      with a sheet: the service receives no sheet record, and the company it
      is told to index the sheet under is the sheet's name, which is the
      user's company only when the two happen to coincide. */
  lemma SubmitPassesNoSheet(f: SheetForm, companyId: string)
    requires CheckForm(f).None?
    ensures Submit(f, true).Calls?
    ensures Submit(f, true).call.sheetData.None?
    ensures Submit(f, true).call.companyId == companyId <==> f.name == companyId
    ensures f.name != "" && Submit(f, true).call.companyId != ""
  {
    assert f.name != "" by {
      assert Text.Trim(f.name) != "";
    }
  }

  /** `handleSubmit` as evidently intended: the sheet is created for the
      user's company from the form's fields as a draft and, when
      `sendImmediately` and the creation succeeded, sent. */
  function SubmitFixed(db: Db, f: SheetForm, supplierFound: bool, parsedDue: nat, sendImmediately: bool,
                       companyId: string, now: nat, token: string, sheetId: string, linkId: string): (o: Outcome)
    requires sheetId !in db.sheets && linkId !in LinksOf(db, companyId)
    ensures o.FieldError? <==> CheckForm(f).Some? || !supplierFound
    ensures o.FieldError? ==> Submit(f, supplierFound) == Stopped(o.field, o.message)
    ensures o.Done? <==> Submit(f, supplierFound).Calls?
    ensures o.Done? ==> sheetId in o.db.sheets && (o.result == Ok(sheetId) <==> companyId != "")
    ensures o.Done? && o.result.Err? ==> o.result.message == CreateFailed
    ensures o.Done? ==> o.db.sheets[sheetId].status == (if sendImmediately && companyId != "" then Sent else Draft)
    ensures o.Done? ==> o.db.sheets[sheetId].dueDate == DueDate(f.dueDate, parsedDue)
    ensures o.Done? && companyId != "" ==> sheetId in IndexedIds(o.db, companyId)
  {
    match CheckForm(f)
    case Some(err) => FieldError(err.0, err.1)
    case None =>
      if !supplierFound then FieldError("supplierId", "Selected supplier not found")
      else
        var data := SheetData(f.name, f.supplierId, Draft, f.selectedTags, DueDate(f.dueDate, parsedDue), None, None);
        var created := Create(db, companyId, data, now, token, sheetId, linkId);
        if created.result.Err? then Done(created.store, Err(created.result.message))
        else
          assert linkId in LinksOf(created.store, companyId);
          if sendImmediately then
            var sent := SendSheet(created.store, sheetId, now);
            assert LinksOf(sent.store, companyId) == LinksOf(created.store, companyId);
            Done(sent.store, Ok(sheetId))
          else Done(created.store, Ok(sheetId))
  }

  /** Whatever the corrected dialog stores passes the sheet schema, with
      the form's name, supplier and tags. */
  lemma SubmitStoresValidSheet(db: Db, f: SheetForm, supplierFound: bool, parsedDue: nat, sendImmediately: bool,
                               companyId: string, now: nat, token: string, sheetId: string, linkId: string)
    requires sheetId !in db.sheets && linkId !in LinksOf(db, companyId)
    ensures var o := SubmitFixed(db, f, supplierFound, parsedDue, sendImmediately, companyId, now, token, sheetId, linkId);
            o.Done? ==> Valid(FromStore(o.db.sheets[sheetId]))
                        && o.db.sheets[sheetId].name == f.name && o.db.sheets[sheetId].supplierId == f.supplierId
                        && o.db.sheets[sheetId].selectedTags == Some(f.selectedTags)
  {
    if CheckForm(f).None? {
      assert f.name != "" by {
        assert Text.Trim(f.name) != "";
      }
    }
  }
}

=== FILE: question_editor.dfy ===
/** The question editor inside the template editor: options, tags and the
    validation fields of one question.
 */
module QuestionEditor {

  import opened Wrappers
  import opened QuestionnaireTypes
  import Seqs
  import Text

  /** The options editor is shown for the two choice types only. */
  predicate ShowOptions(t: QuestionType) {
    t == SingleChoice || t == MultiChoice
  }

  lemma ShowOptionsExactly(t: QuestionType)
    ensures ShowOptions(t) <==> t in {SingleChoice, MultiChoice}
    ensures !ShowOptions(t) <==> t in {ShortText, LongText, Number, Date, File, Boolean}
  {
  }

  /** `addOption`: one option with empty text and value at the end of the
      options (an absent list counts as empty). */
  function AddOption(q: Question, optionId: string): (r: Question)
    ensures r.options.Some?
    ensures |r.options.value| == |q.options.GetOr([])| + 1
    ensures r.options.value[..|q.options.GetOr([])|] == q.options.GetOr([])
    ensures r.options.value[|q.options.GetOr([])|] == QuestionOption(optionId, "", "")
    ensures r.(options := q.options) == q
  {
    q.(options := Some(q.options.GetOr([]) + [QuestionOption(optionId, "", "")]))
  }

  /** The editable fields of an option. */
  datatype OptionPatch = OptionPatch(text: Option<string>, value: Option<string>)

  /** `updateOption`: patches the option at `index` and no other. */
  function UpdateOption(q: Question, index: int, p: OptionPatch): (r: Question)
    requires 0 <= index < |q.options.GetOr([])|
    ensures r.options.Some? && |r.options.value| == |q.options.GetOr([])|
    ensures var o := q.options.GetOr([])[index];
            r.options.value[index] == o.(text := p.text.GetOr(o.text), value := p.value.GetOr(o.value))
    ensures forall k :: 0 <= k < |r.options.value| && k != index ==> r.options.value[k] == q.options.GetOr([])[k]
    ensures r.(options := q.options) == q
  {
    var os := q.options.GetOr([]);
    var o := os[index];
    q.(options := Some(os[index := o.(text := p.text.GetOr(o.text), value := p.value.GetOr(o.value))]))
  }

  /** `removeOption`: removes the option at `index` (nothing when `index`
      is past the end). */
  function RemoveOption(q: Question, index: nat): (r: Question)
    ensures r.options == Some(Seqs.RemoveAt(q.options.GetOr([]), index))
    ensures index < |q.options.GetOr([])| ==> |r.options.value| + 1 == |q.options.GetOr([])|
    ensures r.(options := q.options) == q
  {
    q.(options := Some(Seqs.RemoveAt(q.options.GetOr([]), index)))
  }

  /** A new option removed again leaves the option list as it was. */
  lemma AddThenRemoveOption(q: Question, optionId: string)
    ensures RemoveOption(AddOption(q, optionId), |q.options.GetOr([])|).options == Some(q.options.GetOr([]))
  {
    var os := q.options.GetOr([]);
    var added := os + [QuestionOption(optionId, "", "")];
    assert AddOption(q, optionId).options.GetOr([]) == added;
    assert added[..|os|] + added[|os| + 1..] == os;
  }

  /** `toggleTag`: removes every occurrence of a present tag, or appends an
      absent one once. */
  function ToggleTag(q: Question, tag: string): (r: Question)
    ensures tag in r.tags <==> tag !in q.tags
    ensures forall t :: t != tag ==> (t in r.tags <==> t in q.tags)
    ensures tag !in q.tags ==> r.tags == q.tags + [tag]
    ensures r.(tags := q.tags) == q
  {
    q.(tags := Seqs.Toggle(q.tags, tag))
  }

  /** Toggling an absent tag twice restores the tag list. */
  lemma ToggleTagTwice(q: Question, tag: string)
    requires tag !in q.tags
    ensures ToggleTag(ToggleTag(q, tag), tag) == q
  {
    Seqs.ToggleTwice(q.tags, tag);
  }

  /** The validation record being edited; an absent one starts empty. */
  function CurrentValidation(q: Question): Validation {
    q.validation.GetOr(NoValidation)
  }

  /** Editing the minimum: an empty input clears it, anything else sets it
      to the number the input parses as. */
  function SetMin(q: Question, input: string, parsed: int): (r: Question)
    ensures r.validation.Some?
    ensures input == "" ==> r.validation.value.min.None?
    ensures input != "" ==> r.validation.value.min == Some(parsed)
    ensures r.validation.value.(min := CurrentValidation(q).min) == CurrentValidation(q)
    ensures r.(validation := q.validation) == q
  {
    q.(validation := Some(CurrentValidation(q).(min := if input == "" then None else Some(parsed))))
  }

  /** Editing the maximum, as for the minimum. */
  function SetMax(q: Question, input: string, parsed: int): (r: Question)
    ensures r.validation.Some?
    ensures input == "" ==> r.validation.value.max.None?
    ensures input != "" ==> r.validation.value.max == Some(parsed)
    ensures r.validation.value.(max := CurrentValidation(q).max) == CurrentValidation(q)
    ensures r.(validation := q.validation) == q
  {
    q.(validation := Some(CurrentValidation(q).(max := if input == "" then None else Some(parsed))))
  }

  /** Whether a string has no white space at either end. */
  predicate IsTrimmed(s: string) {
    |s| == 0 || (!Text.IsSpace(s[0]) && !Text.IsSpace(s[|s| - 1]))
  }

  /** The allowed file types typed into the field: the input split at every
      comma, each piece trimmed. */
  function ParseFileTypes(input: string): (r: seq<string>)
    ensures |r| >= 1
    ensures forall k :: 0 <= k < |r| ==> ',' !in r[k] && IsTrimmed(r[k])
    ensures |r| == |Text.Split(input, ',')|
    ensures forall k :: 0 <= k < |r| ==> r[k] == Text.Trim(Text.Split(input, ',')[k])
  {
    var pieces := Text.Split(input, ',');
    TrimAllKeepsOut(pieces, ',');
    TrimAll(pieces)
  }

  /** Trims every piece. */
  function TrimAll(pieces: seq<string>): (r: seq<string>)
    ensures |r| == |pieces|
    ensures forall k :: 0 <= k < |r| ==> r[k] == Text.Trim(pieces[k])
  {
    seq(|pieces|, k requires 0 <= k < |pieces| => Text.Trim(pieces[k]))
  }

  lemma TrimAllKeepsOut(pieces: seq<string>, c: char)
    requires forall k :: 0 <= k < |pieces| ==> c !in pieces[k]
    ensures forall k :: 0 <= k < |pieces| ==> c !in TrimAll(pieces)[k] && IsTrimmed(TrimAll(pieces)[k])
  {
    var r := TrimAll(pieces);
    forall k | 0 <= k < |pieces|
      ensures c !in r[k] && IsTrimmed(r[k])
    {
      var t := Text.Trim(pieces[k]);
      assert r[k] == t;
      TrimKeepsOut(pieces[k], c);
    }
  }

  /** Trimming never introduces a character. */
  lemma TrimKeepsOut(s: string, c: char)
    requires c !in s
    ensures c !in Text.Trim(s)
  {
    Text.TrimIsSlice(s);
  }

  /** How the field shows a stored list: the types joined by ", ". */
  function ShowFileTypes(types: seq<string>): string {
    if |types| == 0 then ""
    else if |types| == 1 then types[0]
    else types[0] + ", " + ShowFileTypes(types[1..])
  }

  /** The list as the field shows it, split back at the commas: the first
      type, then each further type after a space. */
  function Padded(types: seq<string>): (r: seq<string>)
    requires |types| >= 1
    ensures |r| == |types| && r[0] == types[0]
    ensures forall k :: 1 <= k < |r| ==> r[k] == " " + types[k]
  {
    [types[0]] + seq(|types| - 1, k requires 0 <= k < |types| - 1 => " " + types[k + 1])
  }

  lemma {:induction false} ShowIsJoin(types: seq<string>)
    requires |types| >= 1
    ensures ShowFileTypes(types) == Text.Join(Padded(types), ',')
    decreases |types|
  {
    if |types| > 1 {
      ShowIsJoin(types[1..]);
      var p := Padded(types);
      var p' := Padded(types[1..]);
      assert p[1..] == [" " + p'[0]] + p'[1..];
      JoinPadFirst(p', ',');
    }
  }

  /** Joining pieces whose first one is padded with a space. */
  lemma JoinPadFirst(parts: seq<string>, sep: char)
    requires |parts| >= 1
    ensures Text.Join([" " + parts[0]] + parts[1..], sep) == " " + Text.Join(parts, sep)
  {
    var q := [" " + parts[0]] + parts[1..];
    assert q[1..] == parts[1..];
  }

  /** Showing a list of trimmed, comma-free file types and parsing the field
      back gives the same list. */
  lemma FileTypesRoundTrip(types: seq<string>)
    requires |types| >= 1
    requires forall k :: 0 <= k < |types| ==> ',' !in types[k] && IsTrimmed(types[k])
    ensures ParseFileTypes(ShowFileTypes(types)) == types
  {
    var p := Padded(types);
    ShowIsJoin(types);
    PaddedCommaFree(types);
    Text.SplitJoin(p, ',');
    TrimAllPadded(types);
  }

  lemma PaddedCommaFree(types: seq<string>)
    requires |types| >= 1
    requires forall k :: 0 <= k < |types| ==> ',' !in types[k]
    ensures forall k :: 0 <= k < |types| ==> ',' !in Padded(types)[k]
  {
    var p := Padded(types);
    forall k | 0 <= k < |types|
      ensures ',' !in p[k]
    {
      if k > 0 {
        assert p[k] == [' '] + types[k];
      }
    }
  }

  lemma TrimAllPadded(types: seq<string>)
    requires |types| >= 1
    requires forall k :: 0 <= k < |types| ==> IsTrimmed(types[k])
    ensures TrimAll(Padded(types)) == types
  {
    var p := Padded(types);
    var r := TrimAll(p);
    forall k | 0 <= k < |types|
      ensures r[k] == types[k]
    {
      if k == 0 {
        TrimOfTrimmed(types[k]);
      } else {
        TrimOfPadded(types[k]);
      }
    }
  }

  lemma TrimOfTrimmed(s: string)
    requires IsTrimmed(s)
    ensures Text.Trim(s) == s
  {
    assert Text.TrimStart(s) == s;
    assert Text.TrimEnd(s) == s;
  }

  lemma TrimOfPadded(s: string)
    requires IsTrimmed(s)
    ensures Text.Trim(" " + s) == s
  {
    assert (" " + s)[1..] == s;
    assert Text.TrimStart(" " + s) == Text.TrimStart(s) == s;
    assert Text.TrimEnd(s) == s;
  }
}

=== FILE: question_list.dfy ===
/** The question bank list: questions grouped into an "Unsorted" panel and
    one panel per section, each with move-up / move-down buttons that
    reorder the whole question list.
 */
module QuestionList {

  import opened Wrappers
  import Seqs

  /** The part of a question the list uses. */
  datatype BankQuestion = BankQuestion(id: string, sectionId: Option<string>)

  /** Which panel shows a question: `None` is the unsorted panel (no section
      id, or an empty one), `Some(s)` the panel of section `s`. */
  predicate InGroup(q: BankQuestion, g: Option<string>) {
    match g
    case None => !Truthy(q.sectionId)
    case Some(s) => q.sectionId == Some(s)
  }

  /** The questions a panel renders, in list order. */
  function Panel(qs: seq<BankQuestion>, g: Option<string>): (r: seq<BankQuestion>)
    ensures |r| <= |qs|
    ensures forall j :: 0 <= j < |r| ==> InGroup(r[j], g)
  {
    Seqs.Filter(qs, q => InGroup(q, g))
  }

  /** The indices in the whole list of the questions a panel shows,
      increasing. */
  function Positions(qs: seq<BankQuestion>, g: Option<string>): (ps: seq<nat>)
    ensures forall j :: 0 <= j < |ps| ==> ps[j] < |qs| && InGroup(qs[ps[j]], g)
    ensures forall j, k :: 0 <= j < k < |ps| ==> ps[j] < ps[k]
  {
    if |qs| == 0 then []
    else
      var front := Positions(qs[..|qs| - 1], g);
      if InGroup(qs[|qs| - 1], g) then front + [|qs| - 1] else front
  }

  /** A panel grows at the back as the list does. */
  lemma PanelSnoc(front: seq<BankQuestion>, last: BankQuestion, g: Option<string>)
    ensures Panel(front + [last], g) == Panel(front, g) + (if InGroup(last, g) then [last] else [])
  {
    Seqs.FilterAppend(front, [last], q => InGroup(q, g));
    assert [last][1..] == [];
  }

  /** The panel's `j`-th question is the one at its `j`-th position. */
  lemma {:induction false} PanelAt(qs: seq<BankQuestion>, g: Option<string>)
    ensures |Panel(qs, g)| == |Positions(qs, g)|
    ensures forall j :: 0 <= j < |Positions(qs, g)| ==> Panel(qs, g)[j] == qs[Positions(qs, g)[j]]
  {
    if |qs| > 0 {
      var front := qs[..|qs| - 1];
      var last := qs[|qs| - 1];
      PanelAt(front, g);
      assert qs == front + [last];
      PanelSnoc(front, last, g);
      var pf := Positions(front, g);
      forall j | 0 <= j < |pf|
        ensures Panel(qs, g)[j] == qs[pf[j]]
      {
        assert Panel(qs, g)[j] == Panel(front, g)[j];
      }
    }
  }

  /** Positions only depend on which indices are in the panel. */
  lemma {:induction false} SameMembershipSamePositions(qs: seq<BankQuestion>, rs: seq<BankQuestion>, g: Option<string>)
    requires |qs| == |rs|
    requires forall i :: 0 <= i < |qs| ==> (InGroup(qs[i], g) <==> InGroup(rs[i], g))
    ensures Positions(qs, g) == Positions(rs, g)
  {
    if |qs| > 0 {
      SameMembershipSamePositions(qs[..|qs| - 1], rs[..|rs| - 1], g);
    }
  }

  /** `handleMoveUp(index)`: nothing at the top, otherwise the question
      changes places with the one before it in the whole list. */
  function MoveUp(qs: seq<BankQuestion>, index: int): (r: seq<BankQuestion>)
    requires 0 <= index < |qs|
    ensures |r| == |qs| && multiset(r) == multiset(qs)
    ensures index == 0 ==> r == qs
    ensures index > 0 ==> r[index - 1] == qs[index] && r[index] == qs[index - 1]
    ensures forall k :: 0 <= k < |qs| && k != index && k != index - 1 ==> r[k] == qs[k]
  {
    if index == 0 then qs else Seqs.Swap(qs, index - 1, index)
  }

  /** `handleMoveDown(index)`: nothing at the bottom of the whole list,
      otherwise the question changes places with the one after it. */
  function MoveDown(qs: seq<BankQuestion>, index: int): (r: seq<BankQuestion>)
    requires 0 <= index < |qs|
    ensures |r| == |qs| && multiset(r) == multiset(qs)
    ensures index == |qs| - 1 ==> r == qs
    ensures index < |qs| - 1 ==> r[index + 1] == qs[index] && r[index] == qs[index + 1]
    ensures forall k :: 0 <= k < |qs| && k != index && k != index + 1 ==> r[k] == qs[k]
  {
    if index == |qs| - 1 then qs else Seqs.Swap(qs, index, index + 1)
  }

  /** Moving up and then down again restores the list. */
  lemma MoveUpThenDown(qs: seq<BankQuestion>, index: int)
    requires 0 < index < |qs|
    ensures MoveDown(MoveUp(qs, index), index - 1) == qs
  {
    Seqs.SwapTwice(qs, index - 1, index);
  }

  /** A panel is built front to back. */
  lemma PanelCons(q: BankQuestion, rest: seq<BankQuestion>, g: Option<string>)
    ensures Panel([q] + rest, g) == (if InGroup(q, g) then [q] else []) + Panel(rest, g)
  {
    assert ([q] + rest)[1..] == rest;
  }

  /** Two unsorted questions ahead of two questions of section "s". */
  const UnsortedB := BankQuestion("b", None)
  const UnsortedD := BankQuestion("d", None)
  const SectionA := BankQuestion("a", Some("s"))
  const SectionC := BankQuestion("c", Some("s"))

  function Example(): seq<BankQuestion> {
    [UnsortedB, UnsortedD, SectionA, SectionC]
  }

  lemma ExampleMembership()
    ensures InGroup(SectionA, Some("s")) && InGroup(SectionC, Some("s"))
    ensures !InGroup(UnsortedB, Some("s")) && !InGroup(UnsortedD, Some("s"))
    ensures InGroup(UnsortedB, None) && InGroup(UnsortedD, None)
    ensures !InGroup(SectionA, None) && !InGroup(SectionC, None)
  {
  }

  /** The section's two questions, on their own. */
  lemma PanelsOfSectionPair()
    ensures Panel([SectionA, SectionC], Some("s")) == [SectionA, SectionC]
    ensures Panel([SectionA, SectionC], None) == []
  {
    ExampleMembership();
    PanelCons(SectionC, [], Some("s"));
    PanelCons(SectionC, [], None);
    assert [SectionC] == [SectionC] + [];
    PanelCons(SectionA, [SectionC], Some("s"));
    PanelCons(SectionA, [SectionC], None);
    assert [SectionA, SectionC] == [SectionA] + [SectionC];
  }

  /** An unsorted question put in front is not in the section's panel. */
  lemma UnsortedInFrontOfSection(x: BankQuestion, rest: seq<BankQuestion>)
    requires x == UnsortedB || x == UnsortedD
    ensures Panel([x] + rest, Some("s")) == Panel(rest, Some("s"))
  {
    ExampleMembership();
    PanelCons(x, rest, Some("s"));
  }

  /** An unsorted question put in front heads the unsorted panel. */
  lemma UnsortedInFrontOfUnsorted(x: BankQuestion, rest: seq<BankQuestion>)
    requires x == UnsortedB || x == UnsortedD
    ensures Panel([x] + rest, None) == [x] + Panel(rest, None)
  {
    ExampleMembership();
    PanelCons(x, rest, None);
  }

  /** Two unsorted questions, in either order, ahead of the section's two:
      the section's panel. */
  lemma {:induction false} SectionPanelWithUnsortedFirst(x: BankQuestion, y: BankQuestion)
    requires x == UnsortedB || x == UnsortedD
    requires y == UnsortedB || y == UnsortedD
    ensures Panel([x, y, SectionA, SectionC], Some("s")) == [SectionA, SectionC]
  {
    PanelsOfSectionPair();
    UnsortedInFrontOfSection(y, [SectionA, SectionC]);
    assert [y, SectionA, SectionC] == [y] + [SectionA, SectionC];
    UnsortedInFrontOfSection(x, [y, SectionA, SectionC]);
    assert [x, y, SectionA, SectionC] == [x] + [y, SectionA, SectionC];
  }

  /** The same list: the unsorted panel. */
  lemma {:induction false} UnsortedPanelWithUnsortedFirst(x: BankQuestion, y: BankQuestion)
    requires x == UnsortedB || x == UnsortedD
    requires y == UnsortedB || y == UnsortedD
    ensures Panel([x, y, SectionA, SectionC], None) == [x, y]
  {
    PanelsOfSectionPair();
    UnsortedInFrontOfUnsorted(y, [SectionA, SectionC]);
    assert [y, SectionA, SectionC] == [y] + [SectionA, SectionC];
    UnsortedInFrontOfUnsorted(x, [y, SectionA, SectionC]);
    assert [x, y, SectionA, SectionC] == [x] + [y, SectionA, SectionC];
  }

  /** Move up on index 1 of the whole list swaps its first two questions. */
  lemma ExampleAfterMoveUp()
    ensures MoveUp(Example(), 1) == [UnsortedD, UnsortedB, SectionA, SectionC]
  {
  }

  /** As written the buttons pass the index within the panel, which the
      handlers apply to the whole list. In the example, "move up" on the
      section's second question (panel index 1) swaps the two unsorted
      questions and leaves the section's panel as it was. */
  lemma {:induction false} MoveUpUsesPanelIndex()
    ensures Panel(Example(), Some("s")) == [SectionA, SectionC]
    ensures Panel(MoveUp(Example(), 1), Some("s")) == [SectionA, SectionC]
    ensures Panel(Example(), None) == [UnsortedB, UnsortedD]
    ensures Panel(MoveUp(Example(), 1), None) == [UnsortedD, UnsortedB]
  {
    ExampleAfterMoveUp();
    SectionPanelWithUnsortedFirst(UnsortedB, UnsortedD);
    SectionPanelWithUnsortedFirst(UnsortedD, UnsortedB);
    UnsortedPanelWithUnsortedFirst(UnsortedB, UnsortedD);
    UnsortedPanelWithUnsortedFirst(UnsortedD, UnsortedB);
  }

  /** Exchanging the questions at two positions of a panel exchanges them
      in the panel, and changes nothing else it shows. */
  lemma {:induction false} SwapInPanel(qs: seq<BankQuestion>, g: Option<string>, j: int, k: int)
    requires 0 <= j < k < |Positions(qs, g)|
    ensures var ps := Positions(qs, g);
            var r := Seqs.Swap(qs, ps[j], ps[k]);
            |Panel(qs, g)| == |Panel(r, g)| == |ps| && Panel(r, g) == Seqs.Swap(Panel(qs, g), j, k)
  {
    var ps := Positions(qs, g);
    var r := Seqs.Swap(qs, ps[j], ps[k]);
    SameMembershipSamePositions(qs, r, g);
    PanelAt(qs, g);
    PanelAt(r, g);
    var want := Seqs.Swap(Panel(qs, g), j, k);
    forall m | 0 <= m < |ps|
      ensures Panel(r, g)[m] == want[m]
    {
      if m == j {
        assert Panel(r, g)[m] == r[ps[j]] == qs[ps[k]] == Panel(qs, g)[k];
      } else if m == k {
        assert Panel(r, g)[m] == r[ps[k]] == qs[ps[j]] == Panel(qs, g)[j];
      } else {
        assert ps[m] != ps[j] && ps[m] != ps[k];
        assert Panel(r, g)[m] == r[ps[m]] == qs[ps[m]] == Panel(qs, g)[m];
      }
    }
  }

  /** A swap within one panel leaves every panel that shares no question
      with it as it was. */
  lemma {:induction false} SwapInPanelKeepsOthers(qs: seq<BankQuestion>, g: Option<string>, h: Option<string>, j: int, k: int)
    requires 0 <= j < k < |Positions(qs, g)|
    requires forall q :: InGroup(q, g) ==> !InGroup(q, h)
    ensures Panel(Seqs.Swap(qs, Positions(qs, g)[j], Positions(qs, g)[k]), h) == Panel(qs, h)
  {
    var ps := Positions(qs, g);
    var r := Seqs.Swap(qs, ps[j], ps[k]);
    SameMembershipSamePositions(qs, r, h);
    PanelAt(qs, h);
    PanelAt(r, h);
    var hs := Positions(qs, h);
    forall m | 0 <= m < |hs|
      ensures Panel(r, h)[m] == Panel(qs, h)[m]
    {
      assert hs[m] != ps[j] && hs[m] != ps[k];
    }
  }

  /** Exchanges the questions at the `j`-th and `k`-th positions of a
      panel, in the whole list. */
  function PanelSwap(qs: seq<BankQuestion>, g: Option<string>, j: int, k: int): (r: seq<BankQuestion>)
    requires 0 <= j < k < |Panel(qs, g)|
    ensures multiset(r) == multiset(qs)
    ensures |Panel(r, g)| == |Panel(qs, g)| && Panel(r, g) == Seqs.Swap(Panel(qs, g), j, k)
  {
    PanelAt(qs, g);
    SwapInPanel(qs, g, j, k);
    var ps := Positions(qs, g);
    Seqs.Swap(qs, ps[j], ps[k])
  }

  /** The evident intent of "move up": the question changes places with
      the one before it in its own panel, wherever that one is in the whole
      list. */
  function MoveUpInPanel(qs: seq<BankQuestion>, g: Option<string>, index: int): (r: seq<BankQuestion>)
    requires 0 <= index < |Panel(qs, g)|
    ensures multiset(r) == multiset(qs)
    ensures index == 0 ==> r == qs
    ensures index > 0 ==> |Panel(r, g)| == |Panel(qs, g)| && Panel(r, g) == Seqs.Swap(Panel(qs, g), index - 1, index)
  {
    PanelAt(qs, g);
    if index == 0 then qs else PanelSwap(qs, g, index - 1, index)
  }

  /** "Move down" within the panel: changes places with the next question
      of the same panel. */
  function MoveDownInPanel(qs: seq<BankQuestion>, g: Option<string>, index: int): (r: seq<BankQuestion>)
    requires 0 <= index < |Panel(qs, g)|
    ensures multiset(r) == multiset(qs)
    ensures index == |Panel(qs, g)| - 1 ==> r == qs
    ensures index < |Panel(qs, g)| - 1 ==>
              |Panel(r, g)| == |Panel(qs, g)| && Panel(r, g) == Seqs.Swap(Panel(qs, g), index, index + 1)
  {
    PanelAt(qs, g);
    if index == |Panel(qs, g)| - 1 then qs else PanelSwap(qs, g, index, index + 1)
  }

  /** Moving up within one panel leaves every panel that shares no
      question with it exactly as it was. */
  lemma {:induction false} MoveUpInPanelKeepsOtherPanels(qs: seq<BankQuestion>, g: Option<string>, h: Option<string>, index: int)
    requires 0 <= index < |Panel(qs, g)|
    requires forall q :: InGroup(q, g) ==> !InGroup(q, h)
    ensures Panel(MoveUpInPanel(qs, g, index), h) == Panel(qs, h)
  {
    PanelAt(qs, g);
    if index > 0 {
      SwapInPanelKeepsOthers(qs, g, h, index - 1, index);
    }
  }

  /** The same for moving down. */
  lemma {:induction false} MoveDownInPanelKeepsOtherPanels(qs: seq<BankQuestion>, g: Option<string>, h: Option<string>, index: int)
    requires 0 <= index < |Panel(qs, g)|
    requires forall q :: InGroup(q, g) ==> !InGroup(q, h)
    ensures Panel(MoveDownInPanel(qs, g, index), h) == Panel(qs, h)
  {
    PanelAt(qs, g);
    if index < |Panel(qs, g)| - 1 {
      SwapInPanelKeepsOthers(qs, g, h, index, index + 1);
    }
  }

  /** When a panel holds every question its positions are all indices. */
  lemma {:induction false} PositionsOfWholeList(qs: seq<BankQuestion>, g: Option<string>)
    requires forall i :: 0 <= i < |qs| ==> InGroup(qs[i], g)
    ensures |Positions(qs, g)| == |qs|
    ensures forall j :: 0 <= j < |qs| ==> Positions(qs, g)[j] == j
  {
    if |qs| > 0 {
      PositionsOfWholeList(qs[..|qs| - 1], g);
    }
  }

  /** Where one panel holds the whole list, the corrected buttons do what
      the handlers as written do. */
  lemma {:induction false} SinglePanelAgrees(qs: seq<BankQuestion>, g: Option<string>, index: int)
    requires forall i :: 0 <= i < |qs| ==> InGroup(qs[i], g)
    requires 0 <= index < |qs|
    ensures |Panel(qs, g)| == |qs|
    ensures MoveUpInPanel(qs, g, index) == MoveUp(qs, index)
    ensures MoveDownInPanel(qs, g, index) == MoveDown(qs, index)
  {
    PositionsOfWholeList(qs, g);
    PanelAt(qs, g);
  }

  /** With the correction, the same click moves the section's second
      question to the top of its panel. */
  lemma {:induction false} MoveUpInPanelExample()
    ensures |Panel(Example(), Some("s"))| == 2
    ensures Panel(MoveUpInPanel(Example(), Some("s"), 1), Some("s")) == [SectionC, SectionA]
  {
    SectionPanelWithUnsortedFirst(UnsortedB, UnsortedD);
  }
}

=== FILE: questionnaire_responses.dfy ===
/** The questionnaire response service: creating a response, autosaving one
    answer at a time (upsert into the section's answer list, recompute the
    completion rate), and submitting.
 */
module QuestionnaireResponses {

  import opened Wrappers
  import opened QuestionnaireTypes
  import Notifications
  import Firestore

  /** The collections the service touches: `questionnaireResponses`,
      `responseDrafts` (kept as a log, its ids are never read) and the
      notification collections written on submit. */
  datatype Db = Db(
    responses: map<string, QuestionnaireResponse>,
    drafts: seq<ResponseDraft>,
    notes: Notifications.Store)

  /** One autosave request: the arguments of `updateQuestionResponse`. */
  datatype Save = Save(
    responseId: string,
    sectionId: string,
    questionId: string,
    value: Value,
    userId: string,
    fileUrls: Option<seq<string>>)

  // ----- the upsert -------------------------------------------------------

  /** The answer record written for `questionId`. */
  function Answered(r: QuestionResponse, c: Save, now: nat): QuestionResponse {
    r.(value := c.value, fileUrls := c.fileUrls, updatedAt := now, updatedBy := c.userId)
  }

  predicate HasAnswer(rs: seq<QuestionResponse>, questionId: string) {
    exists i :: 0 <= i < |rs| && rs[i].questionId == questionId
  }

  /** Upserts the answer into one section's list: every entry for the
      question is overwritten in place, and one entry is appended at the end
      when there was none. */
  function UpsertAnswer(rs: seq<QuestionResponse>, c: Save, now: nat): (r: seq<QuestionResponse>)
    ensures HasAnswer(rs, c.questionId) ==> |r| == |rs|
    ensures !HasAnswer(rs, c.questionId) ==>
              (|r| == |rs| + 1 && r[|rs|] == QuestionResponse(c.questionId, c.value, c.fileUrls, now, c.userId))
    ensures forall i :: 0 <= i < |rs| && rs[i].questionId == c.questionId ==> r[i] == Answered(rs[i], c, now)
    ensures forall i :: 0 <= i < |rs| && rs[i].questionId != c.questionId ==> r[i] == rs[i]
  {
    var mapped := seq(|rs|, i requires 0 <= i < |rs| =>
      if rs[i].questionId == c.questionId then Answered(rs[i], c, now) else rs[i]);
    assert HasAnswer(rs, c.questionId) ==> HasAnswer(mapped, c.questionId) by {
      if HasAnswer(rs, c.questionId) {
        var i :| 0 <= i < |rs| && rs[i].questionId == c.questionId;
        assert mapped[i].questionId == c.questionId;
      }
    }
    if HasAnswer(mapped, c.questionId) then mapped
    else mapped + [QuestionResponse(c.questionId, c.value, c.fileUrls, now, c.userId)]
  }

  /** The sections written by an autosave: only sections whose id is the
      target are touched, and in those the answer is upserted. */
  function MergeSections(sections: seq<SectionResponse>, c: Save, now: nat): (r: seq<SectionResponse>)
    ensures |r| == |sections|
    ensures forall i :: 0 <= i < |sections| && sections[i].sectionId != c.sectionId ==> r[i] == sections[i]
    ensures forall i :: 0 <= i < |sections| && sections[i].sectionId == c.sectionId ==>
              r[i] == sections[i].(responses := UpsertAnswer(sections[i].responses, c, now))
  {
    seq(|sections|, i requires 0 <= i < |sections| =>
      if sections[i].sectionId != c.sectionId then sections[i]
      else sections[i].(responses := UpsertAnswer(sections[i].responses, c, now)))
  }

  /** With no section of the target id, an autosave writes the sections back
      unchanged. */
  lemma MergeUnknownSection(sections: seq<SectionResponse>, c: Save, now: nat)
    requires forall i :: 0 <= i < |sections| ==> sections[i].sectionId != c.sectionId
    ensures MergeSections(sections, c, now) == sections
  {
  }

  /** Saving the same answer twice in a row is the same as saving it once
      at the later time. */
  lemma {:induction false} UpsertTwice(rs: seq<QuestionResponse>, c: Save, t1: nat, t2: nat)
    ensures UpsertAnswer(UpsertAnswer(rs, c, t1), c, t2) == UpsertAnswer(rs, c, t2)
  {
    var once := UpsertAnswer(rs, c, t1);
    assert HasAnswer(once, c.questionId) by {
      if HasAnswer(rs, c.questionId) {
        var i :| 0 <= i < |rs| && rs[i].questionId == c.questionId;
        assert once[i].questionId == c.questionId;
      } else {
        assert once[|rs|].questionId == c.questionId;
      }
    }
  }

  // ----- completion rate --------------------------------------------------

  /** Number of answer entries across the sections. */
  function EntryCount(sections: seq<SectionResponse>): nat {
    if |sections| == 0 then 0
    else |sections[0].responses| + EntryCount(sections[1..])
  }

  /** Number of entries whose value is not `null`. */
  function NonNullCount(rs: seq<QuestionResponse>): (n: nat)
    ensures n <= |rs|
  {
    if |rs| == 0 then 0
    else (if rs[0].value.Null? then 0 else 1) + NonNullCount(rs[1..])
  }

  /** Number of answered entries across the sections. */
  function AnsweredCount(sections: seq<SectionResponse>): (n: nat)
    ensures n <= EntryCount(sections)
  {
    if |sections| == 0 then 0
    else NonNullCount(sections[0].responses) + AnsweredCount(sections[1..])
  }

  /** The completion percentage over a list of sections: answered entries
      over all entries, times 100, and 0 when there are no entries. */
  function CompletionRate(sections: seq<SectionResponse>): (r: real)
    ensures 0.0 <= r <= 100.0
    ensures EntryCount(sections) == 0 ==> r == 0.0
    ensures EntryCount(sections) > 0 ==>
              r * (EntryCount(sections) as real) == (AnsweredCount(sections) as real) * 100.0
    ensures r == 100.0 <==> EntryCount(sections) > 0 && AnsweredCount(sections) == EntryCount(sections)
  {
    var total := EntryCount(sections);
    var answered := AnsweredCount(sections);
    if total > 0 then Percent(answered, total) else 0.0
  }

  /** A share of a positive whole, as a percentage. */
  function Percent(part: nat, whole: nat): (r: real)
    requires 0 < whole && part <= whole
    ensures 0.0 <= r <= 100.0
    ensures r * (whole as real) == (part as real) * 100.0
    ensures r == 100.0 <==> part == whole
  {
    var q := part as real / whole as real;
    assert q * (whole as real) == part as real;
    assert 0.0 <= q <= 1.0;
    q * 100.0
  }

  // ----- the service operations -------------------------------------------

  /** `createQuestionnaireResponse`: a pending response with the given
      sections, no documents and a zero completion rate. */
  function Create(db: Db, templateId: string, productSheetId: string, supplierId: string,
                  sections: seq<SectionResponse>, newId: string, now: nat): (e: Effect<Db, string>)
    requires newId !in db.responses
    ensures e.result == Ok(newId)
    ensures e.store.drafts == db.drafts && e.store.notes == db.notes
    ensures e.store.responses.Keys == db.responses.Keys + {newId}
    ensures forall k :: k in db.responses ==> e.store.responses[k] == db.responses[k]
    ensures var r := e.store.responses[newId];
            r.status == Pending && r.completionRate == 0.0 && r.documents == []
            && r.sections == sections && r.templateId == templateId
            && r.productSheetId == productSheetId && r.supplierId == supplierId
            && r.startedAt == now && r.lastUpdated == now
            && r.submittedAt.None? && r.submittedBy.None?
  {
    var r := QuestionnaireResponse(templateId, productSheetId, supplierId, sections, Pending,
                                   now, now, None, None, 0.0, []);
    Effect(db.(responses := db.responses[newId := r]), Ok(newId))
  }

  /** The body of the scheduled autosave. The draft is appended before the
      response is read, so an empty id (an invalid document reference) or a
      missing response fails with the draft already stored and no response
      written. Otherwise the merged sections are
      written, with a completion rate computed from the sections as they
      were BEFORE the merge. */
  function AutoSave(db: Db, c: Save, now: nat): (e: Effect<Db, ()>)
    ensures e.store.drafts == db.drafts + [ResponseDraft(c.responseId, c.questionId, c.value, c.fileUrls, now)]
    ensures e.store.notes == db.notes
    ensures e.result.Ok? <==> c.responseId != "" && c.responseId in db.responses
    ensures c.responseId == "" ==> e.result == Err(Firestore.InvalidReference)
    ensures c.responseId != "" && c.responseId !in db.responses ==> e.result == Err("Response not found")
    ensures e.result.Err? ==> e.store.responses == db.responses
    ensures e.result.Ok? ==>
              var old_ := db.responses[c.responseId];
              e.store.responses == db.responses[c.responseId := old_.(
                sections := MergeSections(old_.sections, c, now),
                lastUpdated := now,
                completionRate := CompletionRate(old_.sections))]
  {
    var withDraft := db.(drafts := db.drafts + [ResponseDraft(c.responseId, c.questionId, c.value, c.fileUrls, now)]);
    if c.responseId == "" then
      Effect(withDraft, Err(Firestore.InvalidReference))
    else if c.responseId !in db.responses then
      Effect(withDraft, Err("Response not found"))
    else
      var r := db.responses[c.responseId];
      var r' := r.(sections := MergeSections(r.sections, c, now),
                   lastUpdated := now,
                   completionRate := CompletionRate(r.sections));
      Effect(withDraft.(responses := db.responses[c.responseId := r']), Ok(()))
  }

  /** An answer saved into a section that has no entries yet is written
      with a completion rate of 0 even though the sections written with it
      are fully answered: the rate describes the sections before the save. */
  lemma AutoSaveRateLags()
    ensures var c := Save("r", "s", "q", Text("yes"), "u", None);
            var before := QuestionnaireResponse("t", "p", "sup", [SectionResponse("s", [], None)],
                                                Pending, 0, 0, None, None, 0.0, []);
            var db := Db(map["r" := before], [], Notifications.Store(map[], []));
            var written := AutoSave(db, c, 1).store.responses["r"];
            written.completionRate == 0.0 && CompletionRate(written.sections) == 100.0
  {
    var c := Save("r", "s", "q", Text("yes"), "u", None);
    var rs := UpsertAnswer([], c, 1);
    assert !HasAnswer([], "q");
    assert NonNullCount(rs) == 1 by {
      assert rs[1..] == [];
    }
    var merged := MergeSections([SectionResponse("s", [], None)], c, 1);
    assert merged == [SectionResponse("s", rs, None)];
    assert merged[1..] == [];
  }

  /** The autosave with the completion rate computed over the sections it
      writes. */
  function AutoSaveFixed(db: Db, c: Save, now: nat): (e: Effect<Db, ()>)
    ensures e.store.drafts == db.drafts + [ResponseDraft(c.responseId, c.questionId, c.value, c.fileUrls, now)]
    ensures e.store.notes == db.notes
    ensures e.result.Ok? <==> c.responseId != "" && c.responseId in db.responses
    ensures c.responseId == "" ==> e.result == Err(Firestore.InvalidReference)
    ensures c.responseId != "" && c.responseId !in db.responses ==> e.result == Err("Response not found")
    ensures e.result.Err? ==> e.store.responses == db.responses
    ensures e.result.Ok? ==>
              var old_ := db.responses[c.responseId];
              e.store.responses == db.responses[c.responseId := old_.(
                sections := MergeSections(old_.sections, c, now),
                lastUpdated := now,
                completionRate := CompletionRate(MergeSections(old_.sections, c, now)))]
  {
    var withDraft := db.(drafts := db.drafts + [ResponseDraft(c.responseId, c.questionId, c.value, c.fileUrls, now)]);
    if c.responseId == "" then
      Effect(withDraft, Err(Firestore.InvalidReference))
    else if c.responseId !in db.responses then
      Effect(withDraft, Err("Response not found"))
    else
      var r := db.responses[c.responseId];
      var merged := MergeSections(r.sections, c, now);
      Effect(withDraft.(responses := db.responses[c.responseId := r.(
        sections := merged, lastUpdated := now, completionRate := CompletionRate(merged))]), Ok(()))
  }

  /** After the corrected autosave, the stored rate always describes the
      stored sections; it differs from the written one exactly in the rate. */
  lemma AutoSaveFixedRateCurrent(db: Db, c: Save, now: nat)
    requires c.responseId != "" && c.responseId in db.responses
    ensures var r := AutoSaveFixed(db, c, now).store.responses[c.responseId];
            r.completionRate == CompletionRate(r.sections)
    ensures var fixed := AutoSaveFixed(db, c, now).store.responses[c.responseId];
            var asWritten := AutoSave(db, c, now).store.responses[c.responseId];
            fixed == asWritten.(completionRate := CompletionRate(asWritten.sections))
  {
  }

  /** `submitQuestionnaireResponse`: marks the response `completed` with the
      submitter and time, then sends a `questionnaireSubmitted` notification
      naming the response's product sheet and supplier. An empty id (an
      invalid document reference) or a missing response fails with nothing
      written. */
  function Submit(db: Db, responseId: string, userId: string, noteId: string, now: nat): (e: Effect<Db, ()>)
    requires noteId !in db.notes.notifications
    ensures e.result.Ok? <==> responseId != "" && responseId in db.responses
    ensures responseId == "" ==> e == Effect(db, Err(Firestore.InvalidReference))
    ensures responseId != "" && responseId !in db.responses ==> e == Effect(db, Err("Response not found"))
    ensures e.result.Err? ==> e.store == db
    ensures e.result.Ok? ==>
              var r := db.responses[responseId];
              && e.store.responses == db.responses[responseId := r.(
                   status := Completed, submittedAt := Some(now), submittedBy := Some(userId), lastUpdated := now)]
              && e.store.notes == Notifications.Send(db.notes,
                   Notifications.Notification(Notifications.QuestionnaireSubmitted,
                     Some(r.productSheetId), r.supplierId, now, false, None), noteId, now).store
    ensures e.store.drafts == db.drafts
  {
    if responseId == "" then Effect(db, Err(Firestore.InvalidReference))
    else if responseId !in db.responses then Effect(db, Err("Response not found"))
    else
      var r := db.responses[responseId];
      var submitted := r.(status := Completed, submittedAt := Some(now),
                          submittedBy := Some(userId), lastUpdated := now);
      var n := Notifications.Notification(Notifications.QuestionnaireSubmitted,
                 Some(r.productSheetId), r.supplierId, now, false, None);
      var sent := Notifications.Send(db.notes, n, noteId, now);
      var db' := db.(responses := db.responses[responseId := submitted], notes := sent.store);
      match sent.result
      case Ok(_) => Effect(db', Ok(()))
      case Err(m) => Effect(db', Err(m))
  }

  /** The status written on submit is not one of the declared submission
      statuses. */
  lemma SubmitLeavesDeclaredStatuses(db: Db, responseId: string, userId: string, noteId: string, now: nat)
    requires noteId !in db.notes.notifications
    requires responseId != "" && responseId in db.responses
    ensures !IsSubmissionStatus(Submit(db, responseId, userId, noteId, now).store.responses[responseId].status)
  {
  }

  // ----- debouncing -------------------------------------------------------

  /** The module-level autosave timer: nothing pending, or one scheduled save. */
  datatype Timer = Idle | Scheduled(save: Save)

  /** One call of `updateQuestionResponse`: cancels any pending save and
      schedules this one. */
  function Schedule(t: Timer, c: Save): (r: Timer)
    ensures r == Scheduled(c)
  {
    Scheduled(c)
  }

  /** A burst of calls with no timer expiry in between. */
  function ScheduleAll(t: Timer, calls: seq<Save>): Timer
    decreases |calls|
  {
    if |calls| == 0 then t else ScheduleAll(Schedule(t, calls[0]), calls[1..])
  }

  /** Only the last call of a burst remains scheduled. */
  lemma {:induction false} LastCallWins(t: Timer, calls: seq<Save>)
    requires |calls| > 0
    ensures ScheduleAll(t, calls) == Scheduled(calls[|calls| - 1])
    decreases |calls|
  {
    if |calls| > 1 {
      LastCallWins(Schedule(t, calls[0]), calls[1..]);
    }
  }

  /** The timer firing: runs the scheduled save, if any. */
  function Fire(t: Timer, db: Db, now: nat): (r: (Timer, Effect<Db, ()>))
    ensures r.0 == Idle
    ensures t.Idle? ==> r.1 == Effect(db, Ok(()))
    ensures t.Scheduled? ==> r.1 == AutoSave(db, t.save, now)
  {
    match t
    case Idle => (Idle, Effect(db, Ok(())))
    case Scheduled(c) => (Idle, AutoSave(db, c, now))
  }

  /** What a burst followed by the timer firing persists: exactly the last
      call's save, whatever the earlier calls were. */
  lemma BurstPersistsLast(t: Timer, calls: seq<Save>, db: Db, now: nat)
    requires |calls| > 0
    ensures Fire(ScheduleAll(t, calls), db, now).1 == AutoSave(db, calls[|calls| - 1], now)
  {
    LastCallWins(t, calls);
  }
}

=== FILE: questionnaire_templates.dfy ===
/** The questionnaire template service: creation, versioned updates,
    archiving, listing and version lookup.
 */
module QuestionnaireTemplates {

  import opened Wrappers
  import opened QuestionnaireTypes
  import Firestore
  import Listing

  /** A `questionnaireSections` document: a section of a template as it was
      created, without its questions. */
  datatype SectionDoc = SectionDoc(templateId: string, section: Section)

  /** A `questionnaireQuestions` document: a question as it was created,
      with the template and the section document it belongs to. */
  datatype QuestionDoc = QuestionDoc(templateId: string, sectionId: string, question: Question)

  /** The `questionnaireTemplates`, `templateVersions`,
      `questionnaireSections` and `questionnaireQuestions` collections. */
  datatype Db = Db(
    templates: map<string, Template>,
    versions: map<string, TemplateVersion>,
    sectionDocs: map<string, SectionDoc>,
    questionDocs: map<string, QuestionDoc>)

  /** What a caller supplies to create a template. */
  datatype NewTemplate = NewTemplate(
    title: string,
    description: string,
    sections: seq<Section>,
    tags: seq<string>,
    createdBy: string,
    isArchived: bool)

  /** A partial template: the keys present in an update. */
  datatype TemplateUpdate = TemplateUpdate(
    title: Option<string>,
    description: Option<string>,
    sections: Option<seq<Section>>,
    tags: Option<seq<string>>,
    createdBy: Option<string>,
    isArchived: Option<bool>)

  /** The ids `addDoc` hands out while a template is created: one for the
      template, one per section, and one per question of each section. */
  datatype NewIds = NewIds(template: string, sections: seq<string>, questions: seq<seq<string>>)

  /** There is one question id per question of each section, and no two
      questions share one. */
  predicate QuestionIdsFit(sections: seq<Section>, ids: NewIds) {
    && |ids.sections| == |sections| && |ids.questions| == |sections|
    && (forall i :: 0 <= i < |sections| ==> |ids.questions[i]| == |sections[i].questions|)
    && (forall i, k, j, l ::
          (0 <= i < |ids.questions| && 0 <= k < |ids.questions[i]| && 0 <= j < |ids.questions| && 0 <= l < |ids.questions[j]|
           && ids.questions[i][k] == ids.questions[j][l]) ==> i == j && k == l)
  }

  /** The ids fit the sections, none is taken, and none is handed out
      twice. */
  predicate FreshIds(db: Db, sections: seq<Section>, ids: NewIds) {
    && ids.template != "" && ids.template !in db.templates
    && QuestionIdsFit(sections, ids)
    && (forall i :: 0 <= i < |ids.sections| ==> ids.sections[i] !in db.sectionDocs)
    && Listing.NoDup(ids.sections)
    && (forall i, k :: 0 <= i < |ids.questions| && 0 <= k < |ids.questions[i]| ==> ids.questions[i][k] !in db.questionDocs)
  }

  /** The section collection after a creation: one new document per
      section, under its id, tagged with the template and with no
      questions; the existing documents stay as they are. */
  function WriteSections(docs: map<string, SectionDoc>, templateId: string, sections: seq<Section>,
                         sectionIds: seq<string>): (m: map<string, SectionDoc>)
    requires |sectionIds| == |sections| && Listing.NoDup(sectionIds)
    requires forall i :: 0 <= i < |sectionIds| ==> sectionIds[i] !in docs
    ensures forall k :: k in m <==> k in docs || k in sectionIds
    ensures forall k :: k in docs ==> m[k] == docs[k]
    ensures forall i :: 0 <= i < |sections| ==>
              m[sectionIds[i]] == SectionDoc(templateId, sections[i].(questions := []))
  {
    docs + map i | 0 <= i < |sectionIds| :: sectionIds[i] := SectionDoc(templateId, sections[i].(questions := []))
  }

  /** The question documents a creation adds, under their ids. */
  function AddedQuestions(templateId: string, sections: seq<Section>, ids: NewIds): (m: map<string, QuestionDoc>)
    requires QuestionIdsFit(sections, ids)
    ensures forall k :: k in m <==>
              exists i, q :: 0 <= i < |ids.questions| && 0 <= q < |ids.questions[i]| && k == ids.questions[i][q]
    ensures forall i, q :: 0 <= i < |sections| && 0 <= q < |sections[i].questions| ==>
              ids.questions[i][q] in m
              && m[ids.questions[i][q]] == QuestionDoc(templateId, ids.sections[i], sections[i].questions[q])
  {
    map i, q | 0 <= i < |sections| && 0 <= q < |sections[i].questions| ::
      ids.questions[i][q] := QuestionDoc(templateId, ids.sections[i], sections[i].questions[q])
  }

  /** The question collection after a creation: one new document per
      question, under its id, tagged with the template and its section's
      document id; the existing documents stay as they are. */
  function WriteQuestions(docs: map<string, QuestionDoc>, templateId: string, sections: seq<Section>, ids: NewIds)
    : (m: map<string, QuestionDoc>)
    requires QuestionIdsFit(sections, ids)
    requires forall i, k :: 0 <= i < |ids.questions| && 0 <= k < |ids.questions[i]| ==> ids.questions[i][k] !in docs
    ensures forall k :: k in m <==>
              k in docs || exists i, q :: 0 <= i < |ids.questions| && 0 <= q < |ids.questions[i]| && k == ids.questions[i][q]
    ensures forall k :: k in docs ==> m[k] == docs[k]
    ensures forall i, q :: 0 <= i < |sections| && 0 <= q < |sections[i].questions| ==>
              ids.questions[i][q] in m
              && m[ids.questions[i][q]] == QuestionDoc(templateId, ids.sections[i], sections[i].questions[q])
  {
    var added := AddedQuestions(templateId, sections, ids);
    forall k | k in added
      ensures k !in docs
    {
      var i, q :| 0 <= i < |ids.questions| && 0 <= q < |ids.questions[i]| && k == ids.questions[i][q];
    }
    docs + added
  }

  /** `createTemplate`. The template document is the caller's fields at
      version 1, not archived (whatever the caller said), created and
      updated now, with its sections embedded. Then each section is also
      written to the section collection, tagged with the template and with
      no questions, and each of its questions to the question collection,
      tagged with the template and that section document. */
  function Create(db: Db, t: NewTemplate, ids: NewIds, now: nat): (e: Effect<Db, string>)
    requires FreshIds(db, t.sections, ids)
    ensures e.result == Ok(ids.template)
    ensures e.store.versions == db.versions
    ensures e.store.templates.Keys == db.templates.Keys + {ids.template}
    ensures forall k :: k in db.templates ==> e.store.templates[k] == db.templates[k]
    ensures var s := e.store.templates[ids.template];
            s.version == 1 && !s.isArchived && s.createdAt == now && s.updatedAt == now
            && s.title == t.title && s.description == t.description && s.sections == t.sections
            && s.tags == t.tags && s.createdBy == t.createdBy
    ensures forall k :: k in e.store.sectionDocs <==> k in db.sectionDocs || k in ids.sections
    ensures forall k :: k in db.sectionDocs ==> e.store.sectionDocs[k] == db.sectionDocs[k]
    ensures forall i :: 0 <= i < |t.sections| ==>
              e.store.sectionDocs[ids.sections[i]] == SectionDoc(ids.template, t.sections[i].(questions := []))
    ensures forall k :: k in e.store.questionDocs <==>
              k in db.questionDocs || exists i, m :: 0 <= i < |ids.questions| && 0 <= m < |ids.questions[i]| && k == ids.questions[i][m]
    ensures forall k :: k in db.questionDocs ==> e.store.questionDocs[k] == db.questionDocs[k]
    ensures forall i, m :: 0 <= i < |t.sections| && 0 <= m < |t.sections[i].questions| ==>
              e.store.questionDocs[ids.questions[i][m]]
                == QuestionDoc(ids.template, ids.sections[i], t.sections[i].questions[m])
  {
    var s := Template(t.title, t.description, t.sections, t.tags, now, now, t.createdBy, false, 1);
    Effect(db.(templates := db.templates[ids.template := s],
               sectionDocs := WriteSections(db.sectionDocs, ids.template, t.sections, ids.sections),
               questionDocs := WriteQuestions(db.questionDocs, ids.template, t.sections, ids)), Ok(ids.template))
  }

  /** Overwrites the fields present in the update and keeps the others. */
  function Apply(t: Template, u: TemplateUpdate): (r: Template)
    ensures r.title == u.title.GetOr(t.title) && r.description == u.description.GetOr(t.description)
    ensures r.sections == u.sections.GetOr(t.sections) && r.tags == u.tags.GetOr(t.tags)
    ensures r.createdBy == u.createdBy.GetOr(t.createdBy) && r.isArchived == u.isArchived.GetOr(t.isArchived)
    ensures r.createdAt == t.createdAt && r.updatedAt == t.updatedAt && r.version == t.version
  {
    t.(title := u.title.GetOr(t.title),
       description := u.description.GetOr(t.description),
       sections := u.sections.GetOr(t.sections),
       tags := u.tags.GetOr(t.tags),
       createdBy := u.createdBy.GetOr(t.createdBy),
       isArchived := u.isArchived.GetOr(t.isArchived))
  }

  /** `updateTemplate`. A missing template fails with 'Template not found'
      and nothing written; an empty id is not a document reference at all.
      Otherwise a version record is added holding the CURRENT version number,
      the one change description, the sections of the update when it has
      them (else the stored ones) and the update's `createdBy` as author;
      then the template gets the update's fields, the next version number and
      a new update time. */
  function Update(db: Db, id: string, u: TemplateUpdate, change: string, versionId: string, now: nat)
    : (e: Effect<Db, ()>)
    requires versionId !in db.versions
    ensures e.result.Ok? <==> id != "" && id in db.templates
    ensures e.result.Err? ==> e.store == db
    ensures e.result.Err? && id != "" ==> e.result.message == "Template not found"
    ensures e.result.Ok? ==>
              var t := db.templates[id];
              && e.store.versions == db.versions[versionId := TemplateVersion(
                   id, t.version, [change], u.sections.GetOr(t.sections), now, u.createdBy)]
              && e.store.templates == db.templates[id := Apply(t, u).(version := t.version + 1, updatedAt := now)]
    ensures e.store.sectionDocs == db.sectionDocs && e.store.questionDocs == db.questionDocs
  {
    if id == "" then Effect(db, Err(Firestore.InvalidReference))
    else if id !in db.templates then Effect(db, Err("Template not found"))
    else
      var t := db.templates[id];
      var v := TemplateVersion(id, t.version, [change], u.sections.GetOr(t.sections), now, u.createdBy);
      var t' := Apply(t, u).(version := t.version + 1, updatedAt := now);
      Effect(db.(templates := db.templates[id := t'], versions := db.versions[versionId := v]), Ok(()))
  }

  /** An update leaves a snapshot of the template as it was: its version
      number is the one before the update and, when the update does not
      replace the sections, so are its sections. */
  lemma UpdateSnapshotsPrevious(db: Db, id: string, u: TemplateUpdate, change: string, versionId: string, now: nat)
    requires versionId !in db.versions && id != "" && id in db.templates
    requires u.sections.None?
    ensures var e := Update(db, id, u, change, versionId, now);
            var v := e.store.versions[versionId];
            v.templateId == id && v.version + 1 == e.store.templates[id].version
            && v.sections == db.templates[id].sections == e.store.templates[id].sections
  {
  }

  /** Two successive updates advance the version by two and leave two
      snapshots with consecutive version numbers. */
  lemma UpdateTwice(db: Db, id: string, u1: TemplateUpdate, u2: TemplateUpdate,
                    v1: string, v2: string, t1: nat, t2: nat)
    requires v1 !in db.versions && v2 !in db.versions && v1 != v2
    requires id != "" && id in db.templates
    ensures var e1 := Update(db, id, u1, "a", v1, t1);
            var e2 := Update(e1.store, id, u2, "b", v2, t2);
            e2.result.Ok?
            && e2.store.templates[id].version == db.templates[id].version + 2
            && e2.store.versions[v1].version + 1 == e2.store.versions[v2].version
  {
  }

  /** `archiveTemplate`: sets `isArchived` and the update time. An empty id
      is not a document reference, and a missing template makes the update
      fail. */
  function Archive(db: Db, id: string, now: nat): (e: Effect<Db, ()>)
    ensures e.result.Ok? <==> id != "" && id in db.templates
    ensures e.result.Err? ==> e.store == db
    ensures id == "" ==> e.result == Err(Firestore.InvalidReference)
    ensures id != "" && id !in db.templates ==> e.result == Err(Firestore.UpdateMissing)
    ensures e.result.Ok? ==>
              e.store.templates == db.templates[id := db.templates[id].(isArchived := true, updatedAt := now)]
    ensures e.store.versions == db.versions
    ensures e.store.sectionDocs == db.sectionDocs && e.store.questionDocs == db.questionDocs
  {
    if id == "" then Effect(db, Err(Firestore.InvalidReference))
    else if id !in db.templates then Effect(db, Err(Firestore.UpdateMissing))
    else Effect(db.(templates := db.templates[id := db.templates[id].(isArchived := true, updatedAt := now)]), Ok(()))
  }

  /** Archiving twice is archiving once (at the later time). */
  lemma ArchiveIdempotent(db: Db, id: string, t1: nat, t2: nat)
    requires id in db.templates
    ensures Archive(Archive(db, id, t1).store, id, t2) == Archive(db, id, t2)
  {
    var t := db.templates[id];
    assert t.(isArchived := true, updatedAt := t1).(isArchived := true, updatedAt := t2)
        == t.(isArchived := true, updatedAt := t2);
    assert db.templates[id := t.(isArchived := true, updatedAt := t1)][id := t.(isArchived := true, updatedAt := t2)]
        == db.templates[id := t.(isArchived := true, updatedAt := t2)];
  }

  /** Archived templates drop out of the default listing. */
  lemma ArchivedNotListed(db: Db, id: string, now: nat)
    requires id != "" && id in db.templates
    ensures !Listed(false)(Archive(db, id, now).store.templates[id])
  {
  }

  /** Which templates a listing keeps. */
  function Listed(includeArchived: bool): Template -> bool {
    (t: Template) => includeArchived || !t.isArchived
  }

  /** Listing order: by title. */
  function ByTitle(): (Template, Template) -> bool {
    (a: Template, b: Template) => Listing.LexLe(a.title, b.title)
  }

  lemma ByTitleIsPreorder()
    ensures Listing.Preorder(ByTitle())
  {
    forall a: Template, b: Template
      ensures ByTitle()(a, b) || ByTitle()(b, a)
    {
      Listing.LexLeTotal(a.title, b.title);
    }
    forall a: Template, b: Template, c: Template | ByTitle()(a, b) && ByTitle()(b, c)
      ensures ByTitle()(a, c)
    {
      Listing.LexLeTransitive(a.title, b.title, c.title);
    }
  }

  // ----- the listing ------------------------------------------------------

  /** A question as `getTemplates` shows it: the fields of a question
      document of the section, with the document's id as its id. */
  predicate ShowsQuestionDoc(qd: map<string, QuestionDoc>, sectionId: string, q: Question) {
    q.id in qd && qd[q.id].sectionId == sectionId && q == qd[q.id].question.(id := q.id)
  }

  /** `qs` is what `getTemplates` lists for a section document: every
      question document of the section exactly once, in document-id order
      (the query has no `orderBy`). */
  predicate ListsQuestionsOf(qd: map<string, QuestionDoc>, sectionId: string, qs: seq<Question>) {
    && (forall i :: 0 <= i < |qs| ==> ShowsQuestionDoc(qd, sectionId, qs[i]))
    && (forall k :: k in qd && qd[k].sectionId == sectionId ==> exists i :: 0 <= i < |qs| && qs[i].id == k)
    && (forall i, j :: 0 <= i < j < |qs| ==> qs[i].id != qs[j].id && Listing.LexLe(qs[i].id, qs[j].id))
  }

  /** A section as `getTemplates` shows it: the fields of a section document
      of the template, with the document's id as its id and the questions
      listed for that document. */
  predicate ShowsSectionDoc(db: Db, templateId: string, s: Section) {
    && s.id in db.sectionDocs && db.sectionDocs[s.id].templateId == templateId
    && s == db.sectionDocs[s.id].section.(id := s.id, questions := s.questions)
    && ListsQuestionsOf(db.questionDocs, s.id, s.questions)
  }

  /** The section query's order: by `order`, ties by document id. */
  predicate SectionBefore(a: Section, b: Section) {
    a.order < b.order || (a.order == b.order && Listing.LexLe(a.id, b.id))
  }

  /** `ss` is what `getTemplates` lists as a template's sections: every
      section document of the template exactly once, in section order. */
  predicate ListsSectionsOf(db: Db, templateId: string, ss: seq<Section>) {
    && (forall i :: 0 <= i < |ss| ==> ShowsSectionDoc(db, templateId, ss[i]))
    && (forall k :: k in db.sectionDocs && db.sectionDocs[k].templateId == templateId ==>
          exists i :: 0 <= i < |ss| && ss[i].id == k)
    && (forall i, j :: 0 <= i < j < |ss| ==> ss[i].id != ss[j].id && SectionBefore(ss[i], ss[j]))
  }

  /** The questions of one section document. */
  method ListQuestions(qd: map<string, QuestionDoc>, sectionId: string) returns (qs: seq<Question>)
    ensures ListsQuestionsOf(qd, sectionId, qs)
  {
    Listing.NoOrderPreorder<QuestionDoc>();
    var hits := Listing.Query(qd, (d: QuestionDoc) => d.sectionId == sectionId, Listing.NoOrder(), false);
    qs := seq(|hits|, i requires 0 <= i < |hits| => hits[i].1.question.(id := hits[i].0));
    forall i | 0 <= i < |qs|
      ensures qs[i].id == hits[i].0 && ShowsQuestionDoc(qd, sectionId, qs[i])
    {
      assert qs[i] == hits[i].1.question.(id := hits[i].0);
    }
    forall k | k in qd && qd[k].sectionId == sectionId
      ensures exists i :: 0 <= i < |qs| && qs[i].id == k
    {
      var i :| 0 <= i < |hits| && hits[i].0 == k;
      assert qs[i].id == k;
    }
    forall i, j | 0 <= i < j < |qs|
      ensures Listing.LexLe(qs[i].id, qs[j].id)
    {
      assert Listing.NoOrder<QuestionDoc>()(hits[j].1, hits[i].1);
    }
  }

  function ByOrder(): (SectionDoc, SectionDoc) -> bool {
    (a: SectionDoc, b: SectionDoc) => a.section.order <= b.section.order
  }

  lemma ByOrderIsPreorder()
    ensures Listing.Preorder(ByOrder())
  {
  }

  /** The sections of one template, read from the section and question
      collections. */
  method ListSections(db: Db, templateId: string) returns (ss: seq<Section>)
    ensures ListsSectionsOf(db, templateId, ss)
  {
    ByOrderIsPreorder();
    var hits := Listing.Query(db.sectionDocs, (d: SectionDoc) => d.templateId == templateId, ByOrder(), false);
    ss := [];
    var n := 0;
    while n < |hits|
      invariant 0 <= n <= |hits| && |ss| == n
      invariant forall i :: 0 <= i < n ==> ss[i].id == hits[i].0 && ShowsSectionDoc(db, templateId, ss[i])
    {
      var qs := ListQuestions(db.questionDocs, hits[n].0);
      ss := ss + [hits[n].1.section.(id := hits[n].0, questions := qs)];
      n := n + 1;
    }
    forall k | k in db.sectionDocs && db.sectionDocs[k].templateId == templateId
      ensures exists i :: 0 <= i < |ss| && ss[i].id == k
    {
      var i :| 0 <= i < |hits| && hits[i].0 == k;
      assert ss[i].id == k;
    }
    forall i, j | 0 <= i < j < |ss|
      ensures SectionBefore(ss[i], ss[j])
    {
      assert Listing.OnDocs(ByOrder())(hits[i], hits[j]);
      assert ss[i].order == hits[i].1.section.order && ss[j].order == hits[j].1.section.order;
    }
  }

  /** `getTemplates`: every template (or, by default, every non-archived
      one) exactly once, ordered by title, each with the sections and
      questions read from their own collections rather than its embedded
      copy. */
  method GetTemplates(db: Db, includeArchived: bool) returns (r: seq<(string, Template)>)
    ensures forall i :: 0 <= i < |r| ==>
              r[i].0 in db.templates && r[i].1 == db.templates[r[i].0].(sections := r[i].1.sections)
    ensures forall i :: 0 <= i < |r| ==> ListsSectionsOf(db, r[i].0, r[i].1.sections)
    ensures forall i :: 0 <= i < |r| ==> includeArchived || !r[i].1.isArchived
    ensures forall id :: id in db.templates && (includeArchived || !db.templates[id].isArchived) ==>
              exists i :: 0 <= i < |r| && r[i].0 == id
    ensures forall i, j :: 0 <= i < j < |r| ==> r[i].0 != r[j].0
    ensures forall i, j :: 0 <= i < j < |r| ==> Listing.LexLe(r[i].1.title, r[j].1.title)
  {
    var docs := GetTemplatesFixed(db, includeArchived);
    r := [];
    var n := 0;
    while n < |docs|
      invariant 0 <= n <= |docs| && |r| == n
      invariant forall i :: 0 <= i < n ==> r[i].0 == docs[i].0 && r[i].1 == docs[i].1.(sections := r[i].1.sections)
      invariant forall i :: 0 <= i < n ==> ListsSectionsOf(db, r[i].0, r[i].1.sections)
    {
      var ss := ListSections(db, docs[n].0);
      r := r + [(docs[n].0, docs[n].1.(sections := ss))];
      n := n + 1;
    }
    forall id | id in db.templates && (includeArchived || !db.templates[id].isArchived)
      ensures exists i :: 0 <= i < |r| && r[i].0 == id
    {
      var i :| 0 <= i < |docs| && docs[i].0 == id;
      assert r[i].0 == id;
    }
  }

  /** The listing as evidently intended: every template (or every
      non-archived one) exactly once, ordered by title, with the sections
      the template document holds, which are the ones the editor saves. */
  method GetTemplatesFixed(db: Db, includeArchived: bool) returns (r: seq<(string, Template)>)
    ensures forall i :: 0 <= i < |r| ==> r[i].0 in db.templates && db.templates[r[i].0] == r[i].1
    ensures forall i :: 0 <= i < |r| ==> includeArchived || !r[i].1.isArchived
    ensures forall id :: id in db.templates && (includeArchived || !db.templates[id].isArchived) ==>
              exists i :: 0 <= i < |r| && r[i].0 == id
    ensures forall i, j :: 0 <= i < j < |r| ==> r[i].0 != r[j].0
    ensures forall i, j :: 0 <= i < j < |r| ==> Listing.LexLe(r[i].1.title, r[j].1.title)
  {
    ByTitleIsPreorder();
    r := Listing.Query(db.templates, Listed(includeArchived), ByTitle(), false);
    assert Listing.Sorted(r, Listing.OnDocs(ByTitle()));
  }

  /** As written, edits never reach the listing. A template created with
      sections and then updated with other sections (even none at all)
      still lists exactly the section documents written at creation: the
      listing is non-empty and shows only those, while the template
      document holds the new sections. */
  lemma EditsNeverListed(db: Db, t: NewTemplate, ids: NewIds, now: nat, newSections: seq<Section>,
                         versionId: string, later: nat, shown: seq<Section>)
    requires FreshIds(db, t.sections, ids) && versionId !in db.versions && |t.sections| > 0
    requires forall k :: k in db.sectionDocs ==> db.sectionDocs[k].templateId != ids.template
    requires var db1 := Create(db, t, ids, now).store;
             var u := TemplateUpdate(None, None, Some(newSections), None, None, None);
             ListsSectionsOf(Update(db1, ids.template, u, "Updated template content", versionId, later).store,
                             ids.template, shown)
    ensures var db1 := Create(db, t, ids, now).store;
            var u := TemplateUpdate(None, None, Some(newSections), None, None, None);
            Update(db1, ids.template, u, "Updated template content", versionId, later).store
              .templates[ids.template].sections == newSections
    ensures |shown| > 0 && forall i :: 0 <= i < |shown| ==> shown[i].id in ids.sections
  {
    var db1 := Create(db, t, ids, now).store;
    var u := TemplateUpdate(None, None, Some(newSections), None, None, None);
    var db2 := Update(db1, ids.template, u, "Updated template content", versionId, later).store;
    assert db2.sectionDocs == db1.sectionDocs;
    assert db2.sectionDocs[ids.sections[0]].templateId == ids.template;
    assert exists i :: 0 <= i < |shown| && shown[i].id == ids.sections[0];
    forall i | 0 <= i < |shown|
      ensures shown[i].id in ids.sections
    {
      assert ShowsSectionDoc(db2, ids.template, shown[i]);
    }
  }

  /** With the corrected listing, an edit shows at once: right after an
      update that replaces the sections, the template is listed (unless it
      is archived and archived ones are left out) with exactly the update's
      sections. */
  method EditThenListFixed(db: Db, id: string, u: TemplateUpdate, versionId: string, now: nat, includeArchived: bool)
    returns (e: Effect<Db, ()>, r: seq<(string, Template)>)
    requires versionId !in db.versions
    ensures e == Update(db, id, u, "Updated template content", versionId, now)
    ensures e.result.Ok? && u.sections.Some? ==>
              forall i :: 0 <= i < |r| && r[i].0 == id ==> r[i].1.sections == u.sections.value
    ensures e.result.Ok? && (includeArchived || !e.store.templates[id].isArchived) ==>
              exists i :: 0 <= i < |r| && r[i].0 == id
  {
    e := Update(db, id, u, "Updated template content", versionId, now);
    r := GetTemplatesFixed(e.store, includeArchived);
    if e.result.Ok? {
      assert id in e.store.templates;
    }
  }

  predicate IsVersionOf(v: TemplateVersion, templateId: string, version: int) {
    v.templateId == templateId && v.version == version
  }

  /** `getTemplateVersion`: the first record of that template and version
      number in document-id order, paired with its id, or nothing when there
      is none. */
  method GetTemplateVersion(db: Db, templateId: string, version: int) returns (r: Option<(string, TemplateVersion)>)
    ensures r.None? <==> forall k :: k in db.versions ==> !IsVersionOf(db.versions[k], templateId, version)
    ensures r.Some? ==> r.value.0 in db.versions && r.value.1 == db.versions[r.value.0]
                        && IsVersionOf(r.value.1, templateId, version)
    ensures r.Some? ==> forall k :: k in db.versions && IsVersionOf(db.versions[k], templateId, version) ==>
                          Listing.LexLe(r.value.0, k)
  {
    r := Listing.First(db.versions, (v: TemplateVersion) => IsVersionOf(v, templateId, version));
  }
}

=== FILE: questionnaire_types.dfy ===
/** The questionnaire domain: templates made of sections of questions, and
    responses made of per-section answer lists.
 */
module QuestionnaireTypes {

  import opened Wrappers

  datatype QuestionType =
    | ShortText | LongText | SingleChoice | MultiChoice
    | Number | Date | File | Boolean

  datatype QuestionOption = QuestionOption(id: string, text: string, value: string)

  /** Per-question validation; every field may be absent. Numbers are
      modelled as integers. */
  datatype Validation = Validation(
    min: Option<int>,
    max: Option<int>,
    pattern: Option<string>,
    allowedFileTypes: Option<seq<string>>)

  const NoValidation := Validation(None, None, None, None)

  datatype Question = Question(
    id: string,
    text: string,
    qtype: QuestionType,
    required: bool,
    description: Option<string>,
    options: Option<seq<QuestionOption>>,
    validation: Option<Validation>,
    tags: seq<string>)

  datatype Section = Section(
    id: string,
    title: string,
    description: Option<string>,
    questions: seq<Question>,
    order: int)

  /** A stored template; the document id is the key it is stored under. */
  datatype Template = Template(
    title: string,
    description: string,
    sections: seq<Section>,
    tags: seq<string>,
    createdAt: nat,
    updatedAt: nat,
    createdBy: string,
    isArchived: bool,
    version: int)

  /** The five statuses the type declares, plus `Completed`, which
      submitting a response writes although the type does not list it. */
  datatype Status = Draft | Submitted | Approved | Rejected | Pending | Completed

  /** The statuses `SubmissionStatus` declares. */
  predicate IsSubmissionStatus(s: Status) {
    !s.Completed?
  }

  /** An answer: text, a list of texts, a number, a flag, or `null`. */
  datatype Value = Null | Text(text: string) | Texts(texts: seq<string>) | Num(num: int) | Flag(flag: bool)

  datatype QuestionResponse = QuestionResponse(
    questionId: string,
    value: Value,
    fileUrls: Option<seq<string>>,
    updatedAt: nat,
    updatedBy: string)

  datatype SectionResponse = SectionResponse(
    sectionId: string,
    responses: seq<QuestionResponse>,
    completedAt: Option<nat>)

  datatype DocumentSubmission = DocumentSubmission(
    id: string,
    name: string,
    url: string,
    kind: string,
    size: int,
    uploadedAt: nat,
    uploadedBy: string)

  /** A stored questionnaire response. The completion rate is a percentage
      computed by division, so it is kept as a real. */
  datatype QuestionnaireResponse = QuestionnaireResponse(
    templateId: string,
    productSheetId: string,
    supplierId: string,
    sections: seq<SectionResponse>,
    status: Status,
    startedAt: nat,
    lastUpdated: nat,
    submittedAt: Option<nat>,
    submittedBy: Option<string>,
    completionRate: real,
    documents: seq<DocumentSubmission>)

  /** An autosave record, written before each save of an answer. */
  datatype ResponseDraft = ResponseDraft(
    responseId: string,
    questionId: string,
    value: Value,
    fileUrls: Option<seq<string>>,
    savedAt: nat)

  /** A snapshot written when a template is updated. */
  datatype TemplateVersion = TemplateVersion(
    templateId: string,
    version: int,
    changes: seq<string>,
    sections: seq<Section>,
    updatedAt: nat,
    updatedBy: Option<string>)

  /** Number of questions across the sections of a template. */
  function QuestionCount(sections: seq<Section>): nat {
    if |sections| == 0 then 0
    else |sections[0].questions| + QuestionCount(sections[1..])
  }

  /** Question counts add up over concatenated section lists. */
  lemma {:induction false} QuestionCountAppend(a: seq<Section>, b: seq<Section>)
    ensures QuestionCount(a + b) == QuestionCount(a) + QuestionCount(b)
  {
    if |a| == 0 {
      assert a + b == b;
    } else {
      assert (a + b)[1..] == a[1..] + b;
      QuestionCountAppend(a[1..], b);
    }
  }
}

=== FILE: questions_view.dfy ===
/** The question bank table: the selection of questions for bulk actions,
    the header checkbox that reflects it, and the type labels.
 */
module QuestionsView {

  import Seqs

  /** `toggleSelectAll`. The decision compares lengths only: a selection as
      long as the question list is cleared, and anything else becomes every
      question id in list order. */
  function ToggleSelectAll(selected: seq<string>, ids: seq<string>): (r: seq<string>)
    ensures |selected| == |ids| ==> r == []
    ensures |selected| != |ids| ==> r == ids
  {
    if |selected| == |ids| then [] else ids
  }

  /** `toggleSelectQuestion`: a selected question is deselected (every
      occurrence), an unselected one is added at the end. */
  function ToggleQuestion(selected: seq<string>, id: string): (r: seq<string>)
    ensures id in r <==> id !in selected
    ensures forall x :: x != id ==> (x in r <==> x in selected)
    ensures id !in selected ==> r == selected + [id]
  {
    Seqs.Toggle(selected, id)
  }

  /** The header checkbox: ticked when the selection is as long as the
      list, a dash when some but not all are selected. */
  datatype HeaderBox = HeaderBox(checked: bool, indeterminate: bool)

  function Header(selectedCount: nat, total: nat): (h: HeaderBox)
    ensures h.indeterminate <==> 0 < selectedCount < total
    ensures h.checked <==> selectedCount == total
    ensures !(h.checked && h.indeterminate)
  {
    HeaderBox(selectedCount == total, selectedCount > 0 && selectedCount < total)
  }

  /** Clicking the header after a partial selection ticks it, and clicking
      it again clears the selection. */
  lemma {:induction false} SelectAllThenClear(selected: seq<string>, ids: seq<string>)
    requires |selected| != |ids|
    ensures Header(|ToggleSelectAll(selected, ids)|, |ids|).checked
    ensures forall id :: id in ids ==> id in ToggleSelectAll(selected, ids)
    ensures ToggleSelectAll(ToggleSelectAll(selected, ids), ids) == []
  {
    var all := ToggleSelectAll(selected, ids);
    assert all == ids;
  }

  /** Toggling the same question twice restores a selection it was not in. */
  lemma {:induction false} ToggleQuestionTwice(selected: seq<string>, id: string)
    requires id !in selected
    ensures ToggleQuestion(ToggleQuestion(selected, id), id) == selected
  {
    Seqs.ToggleTwice(selected, id);
  }

  /** `getTypeLabel`: the four known question types have their own labels,
      any other type is shown as it is. */
  function TypeLabel(kind: string): (shown: string)
    ensures kind == "text" ==> shown == "Short Answer"
    ensures kind == "yesNo" ==> shown == "Yes/No"
    ensures kind == "multipleChoice" ==> shown == "Multiple Choice"
    ensures kind == "scale" ==> shown == "Scale"
    ensures kind !in {"text", "yesNo", "multipleChoice", "scale"} ==> shown == kind
  {
    match kind
    case "text" => "Short Answer"
    case "yesNo" => "Yes/No"
    case "multipleChoice" => "Multiple Choice"
    case "scale" => "Scale"
    case _ => kind
  }

  /** Distinct known types get distinct labels, and no known type is shown
      by its raw name. */
  lemma KnownLabelsDiffer(a: string, b: string)
    requires a in {"text", "yesNo", "multipleChoice", "scale"}
    requires b in {"text", "yesNo", "multipleChoice", "scale"}
    ensures a != b ==> TypeLabel(a) != TypeLabel(b)
    ensures TypeLabel(a) != a
  {
  }
}

=== FILE: response_view.dfy ===
/** The response screen: the template's sections merged with the stored
    answers, the status badge colour, the submit button and the value each
    question shows.
 */
module ResponseView {

  import opened Wrappers
  import opened QuestionnaireTypes
  import Responses = QuestionnaireResponses

  /** Index of the first response section with id `id`, or `|ss|` when
      there is none. */
  function FirstSection(ss: seq<SectionResponse>, id: string): (i: nat)
    ensures i <= |ss|
    ensures forall j :: 0 <= j < i ==> ss[j].sectionId != id
    ensures i < |ss| ==> ss[i].sectionId == id
  {
    if |ss| == 0 then 0
    else if ss[0].sectionId == id then 0
    else 1 + FirstSection(ss[1..], id)
  }

  /** `response.sections.find(s => s.sectionId === section.id)`. */
  function FindSection(ss: seq<SectionResponse>, id: string): (r: Option<SectionResponse>)
    ensures r.None? <==> forall j :: 0 <= j < |ss| ==> ss[j].sectionId != id
    ensures r.Some? ==> r.value.sectionId == id
    ensures forall j :: 0 <= j < |ss| && ss[j].sectionId == id && (forall i :: 0 <= i < j ==> ss[i].sectionId != id)
              ==> r == Some(ss[j])
  {
    var i := FirstSection(ss, id);
    if i < |ss| then Some(ss[i]) else None
  }

  /** A template section together with the answers shown under it. */
  datatype MergedSection = MergedSection(section: Section, responses: seq<QuestionResponse>)

  /** The answers shown under a template section: those of the first
      response section with its id, else none. */
  function ResponsesFor(ss: seq<SectionResponse>, id: string): seq<QuestionResponse> {
    match FindSection(ss, id)
    case Some(s) => s.responses
    case None => []
  }

  /** The merge: one entry per template section, in template order. */
  function Merge(template: seq<Section>, ss: seq<SectionResponse>): (r: seq<MergedSection>)
    ensures |r| == |template|
    ensures forall k :: 0 <= k < |r| ==> r[k].section == template[k]
    ensures forall k :: 0 <= k < |r| ==>
              ((forall j :: 0 <= j < |ss| ==> ss[j].sectionId != template[k].id) ==> r[k].responses == [])
  {
    seq(|template|, k requires 0 <= k < |template| =>
      MergedSection(template[k], ResponsesFor(ss, template[k].id)))
  }

  /** Sections the response has no entry for are shown empty, and a template
      section with a matching entry shows exactly that entry's answers. */
  lemma MergeTakesFirstMatch(template: seq<Section>, ss: seq<SectionResponse>, k: int, j: int)
    requires 0 <= k < |template| && 0 <= j < |ss|
    requires ss[j].sectionId == template[k].id
    requires forall i :: 0 <= i < j ==> ss[i].sectionId != template[k].id
    ensures Merge(template, ss)[k].responses == ss[j].responses
  {
    var i := FirstSection(ss, template[k].id);
    assert i < |ss| ==> ss[i].sectionId == template[k].id;
    assert i == j;
  }

  /** `getStatusColor`: a colour for each of the five declared statuses and
      nothing for `completed`, which the lookup table lacks. */
  function StatusColor(s: Status): (r: Option<string>)
    ensures r.Some? <==> IsSubmissionStatus(s)
  {
    match s
    case Draft => Some("gray")
    case Submitted => Some("blue")
    case Approved => Some("green")
    case Rejected => Some("red")
    case Pending => Some("orange")
    case Completed => None
  }

  /** Distinct declared statuses get distinct colours. */
  lemma StatusColorInjective(a: Status, b: Status)
    requires IsSubmissionStatus(a) && IsSubmissionStatus(b)
    requires StatusColor(a) == StatusColor(b)
    ensures a == b
  {
  }

  /** Whether the submit button is offered. */
  predicate ShowSubmit(s: Status) {
    s == Pending
  }

  /** A freshly created response offers submission; once submitted it no
      longer does, and its badge has no colour. */
  lemma SubmitHidesButton(db: Responses.Db, responseId: string, userId: string, noteId: string, now: nat)
    requires noteId !in db.notes.notifications
    requires responseId != "" && responseId in db.responses
    ensures var st := Responses.Submit(db, responseId, userId, noteId, now).store.responses[responseId].status;
            !ShowSubmit(st) && StatusColor(st).None?
  {
    Responses.SubmitLeavesDeclaredStatuses(db, responseId, userId, noteId, now);
  }

  lemma CreateShowsButton(db: Responses.Db, templateId: string, productSheetId: string, supplierId: string,
                          sections: seq<SectionResponse>, newId: string, now: nat)
    requires newId !in db.responses
    ensures var st := Responses.Create(db, templateId, productSheetId, supplierId, sections, newId, now).store.responses[newId].status;
            ShowSubmit(st) && StatusColor(st) == Some("orange")
  {
  }

  /** Index of the first answer to question `id`, or `|rs|`. */
  function FirstAnswer(rs: seq<QuestionResponse>, id: string): (i: nat)
    ensures i <= |rs|
    ensures forall j :: 0 <= j < i ==> rs[j].questionId != id
    ensures i < |rs| ==> rs[i].questionId == id
  {
    if |rs| == 0 then 0
    else if rs[0].questionId == id then 0
    else 1 + FirstAnswer(rs[1..], id)
  }

  /** The value a question shows: that of its first answer, else `null`. */
  function DisplayedValue(rs: seq<QuestionResponse>, id: string): (v: Value)
    ensures (forall j :: 0 <= j < |rs| ==> rs[j].questionId != id) ==> v == Null
    ensures forall j :: 0 <= j < |rs| && rs[j].questionId == id && (forall i :: 0 <= i < j ==> rs[i].questionId != id)
              ==> v == rs[j].value
  {
    var i := FirstAnswer(rs, id);
    if i < |rs| then rs[i].value else Null
  }

  /** Once an answer is saved, the question shows it. */
  lemma DisplayedAfterUpsert(rs: seq<QuestionResponse>, c: Responses.Save, now: nat)
    ensures DisplayedValue(Responses.UpsertAnswer(rs, c, now), c.questionId) == c.value
  {
    var r := Responses.UpsertAnswer(rs, c, now);
    var i := FirstAnswer(rs, c.questionId);
    var i' := FirstAnswer(r, c.questionId);
    UpsertKeepsIds(rs, c, now);
    assert i' < |rs| ==> rs[i'].questionId == c.questionId;
    assert i < |rs| ==> r[i].questionId == c.questionId;
    assert i == |rs| ==> !Responses.HasAnswer(rs, c.questionId);
    assert i' == i;
  }

  /** The upsert keeps the question id of every existing entry. */
  lemma UpsertKeepsIds(rs: seq<QuestionResponse>, c: Responses.Save, now: nat)
    ensures var r := Responses.UpsertAnswer(rs, c, now);
            |rs| <= |r| && forall j :: 0 <= j < |rs| ==> r[j].questionId == rs[j].questionId
  {
    var r := Responses.UpsertAnswer(rs, c, now);
    forall j | 0 <= j < |rs|
      ensures r[j].questionId == rs[j].questionId
    {
    }
  }

  /** Saving an answer does not change what another question shows. */
  lemma DisplayedOtherUnchanged(rs: seq<QuestionResponse>, c: Responses.Save, now: nat, id: string)
    requires id != c.questionId
    ensures DisplayedValue(Responses.UpsertAnswer(rs, c, now), id) == DisplayedValue(rs, id)
  {
    var r := Responses.UpsertAnswer(rs, c, now);
    var i := FirstAnswer(rs, id);
    var i' := FirstAnswer(r, id);
    UpsertKeepsIds(rs, c, now);
    assert i' < |rs| ==> rs[i'].questionId == id;
    assert i < |rs| ==> r[i].questionId == id && r[i] == rs[i];
    assert |rs| < |r| ==> r[|rs|].questionId == c.questionId;
    assert |r| <= |rs| + 1;
    assert i < |rs| ==> i' == i;
    assert i == |rs| ==> i' == |r|;
  }
}

=== FILE: rounding.dfy ===
/** `Math.round` applied to a mean of integer scores, and the sums it needs. */
module Rounding {

  /** Sum of a list of integers. */
  function Sum(s: seq<int>): int {
    if |s| == 0 then 0 else s[0] + Sum(s[1..])
  }

  /** `Math.round(sum / n)` for a positive count: the nearest integer to the
      exact quotient, with halves rounded up (towards +infinity, as
      JavaScript does). */
  function RoundDiv(sum: int, n: int): (r: int)
    requires n > 0
    ensures 2 * n * r - n <= 2 * sum < 2 * n * r + n
  {
    var q := (2 * sum + n) / (2 * n);
    assert 2 * n * q <= 2 * sum + n < 2 * n * q + 2 * n;
    q
  }

  /** Multiplying by a positive factor keeps a difference of at least one
      at least that factor. */
  lemma MulAtLeast(n: int, d: int)
    requires n > 0
    ensures d >= 1 ==> n * d >= n
    ensures d <= -1 ==> n * d <= -n
  {
  }

  /** The rounding contract pins the result down: no other integer is within
      half a unit of the quotient in the same way. */
  lemma RoundDivUnique(sum: int, n: int, r: int)
    requires n > 0
    requires 2 * n * r - n <= 2 * sum < 2 * n * r + n
    ensures r == RoundDiv(sum, n)
  {
    var q := RoundDiv(sum, n);
    assert 2 * n * r - 2 * n * q == 2 * n * (r - q);
    MulAtLeast(2 * n, r - q);
  }

  /** A rounded mean stays within any bounds every summand respects. */
  lemma RoundDivBounds(sum: int, n: int, lo: int, hi: int)
    requires n > 0 && n * lo <= sum <= n * hi
    ensures lo <= RoundDiv(sum, n) <= hi
  {
    var r := RoundDiv(sum, n);
    assert 2 * n * r - 2 * n * hi == 2 * n * (r - hi);
    assert 2 * n * r - 2 * n * lo == 2 * n * (r - lo);
    MulAtLeast(2 * n, r - hi);
    MulAtLeast(2 * n, r - lo);
  }

  /** A sum of values in `[lo, hi]` lies in `[|s| * lo, |s| * hi]`. */
  lemma {:induction false} SumBounds(s: seq<int>, lo: int, hi: int)
    requires forall i :: 0 <= i < |s| ==> lo <= s[i] <= hi
    ensures |s| * lo <= Sum(s) <= |s| * hi
  {
    if |s| > 0 {
      SumBounds(s[1..], lo, hi);
    }
  }

  /** The sum of a concatenation is the sum of the parts. */
  lemma {:induction false} SumAppend(a: seq<int>, b: seq<int>)
    ensures Sum(a + b) == Sum(a) + Sum(b)
  {
    if |a| == 0 {
      assert a + b == b;
    } else {
      assert (a + b)[1..] == a[1..] + b;
      SumAppend(a[1..], b);
    }
  }

  /** `Math.round` of the mean of a non-empty list of values in `[lo, hi]`
      is again in `[lo, hi]`. */
  lemma RoundedMeanBounds(s: seq<int>, lo: int, hi: int)
    requires |s| > 0
    requires forall i :: 0 <= i < |s| ==> lo <= s[i] <= hi
    ensures lo <= RoundDiv(Sum(s), |s|) <= hi
  {
    SumBounds(s, lo, hi);
    RoundDivBounds(Sum(s), |s|, lo, hi);
  }
}

=== FILE: sections_manager.dfy ===
/** The question bank's section manager: adding a section, renaming one,
    and reordering them by drag and drop.
 */
module SectionsManager {

  import opened Wrappers
  import Seqs
  import Text

  /** A question bank section as the manager lists it. */
  datatype BankSection = BankSection(id: string, name: string, order: int, description: string)

  /** The fields of a section to be added (the store assigns the id). */
  datatype NewSection = NewSection(name: string, order: int, description: string)

  /** `handleAddSection`: nothing for a blank name; otherwise a section with
      the trimmed name, placed after the current ones, without a
      description. */
  function AddSection(sections: seq<BankSection>, name: string): (r: Option<NewSection>)
    ensures r.None? <==> Text.AllSpace(name)
    ensures r.Some? ==> r.value.name == Text.Trim(name)
    ensures r.Some? ==> |r.value.name| > 0 && !Text.IsSpace(r.value.name[0]) && !Text.IsSpace(r.value.name[|r.value.name| - 1])
    ensures r.Some? ==> |r.value.name| <= |name| && r.value.order == |sections| && r.value.description == ""
  {
    var trimmed := Text.Trim(name);
    if trimmed == "" then None else Some(NewSection(trimmed, |sections|, ""))
  }

  /** Typing the stored name again would add the same section: the name
      kept is already trimmed. */
  lemma AddedNameIsStable(sections: seq<BankSection>, name: string)
    requires AddSection(sections, name).Some?
    ensures AddSection(sections, AddSection(sections, name).value.name) == AddSection(sections, name)
  {
    Text.TrimIdempotent(name);
  }

  predicate HasSection(sections: seq<BankSection>, id: string) {
    exists k :: 0 <= k < |sections| && sections[k].id == id
  }

  /** `sections.find(s => s.id === id)`: the first section with that id. */
  function Find(sections: seq<BankSection>, id: string): (r: Option<nat>)
    ensures r.None? <==> !HasSection(sections, id)
    ensures r.Some? ==> r.value < |sections| && sections[r.value].id == id
    ensures r.Some? ==> forall k :: 0 <= k < r.value ==> sections[k].id != id
  {
    if |sections| == 0 then None
    else if sections[0].id == id then Some(0)
    else
      match Find(sections[1..], id)
      case None =>
        assert forall k :: 1 <= k < |sections| ==> sections[k] == sections[1..][k - 1];
        None
      case Some(k) => Some(k + 1)
  }

  /** `handleUpdateSection`: the section written back, with the trimmed new
      name and every other field kept, or nothing when the id is unknown.
      A blank new name is not refused here. */
  function RenameSection(sections: seq<BankSection>, id: string, newName: string): (r: Option<BankSection>)
    ensures r.Some? <==> HasSection(sections, id)
    ensures r.Some? ==> r.value.id == id && r.value.name == Text.Trim(newName)
    ensures r.Some? ==> exists k :: 0 <= k < |sections| && r.value == sections[k].(name := Text.Trim(newName))
  {
    match Find(sections, id)
    case None => None
    case Some(k) => Some(sections[k].(name := Text.Trim(newName)))
  }

  /** Writing a section back by id (`updateSection`, then the refetch). */
  function Replace(sections: seq<BankSection>, s: BankSection): (r: seq<BankSection>)
    ensures |r| == |sections|
    ensures forall k :: 0 <= k < |r| ==> r[k] == (if sections[k].id == s.id then s else sections[k])
  {
    seq(|sections|, k requires 0 <= k < |sections| => if sections[k].id == s.id then s else sections[k])
  }

  /** Renaming twice leaves the second name, and everything else as the
      first rename found it. */
  lemma {:induction false} RenameTwice(sections: seq<BankSection>, id: string, first: string, second: string)
    requires HasSection(sections, id)
    ensures var once := Replace(sections, RenameSection(sections, id, first).value);
            && RenameSection(once, id, second).Some?
            && RenameSection(once, id, second).value == RenameSection(sections, id, first).value.(name := Text.Trim(second))
  {
    var k := Find(sections, id).value;
    var once := Replace(sections, RenameSection(sections, id, first).value);
    assert once[k].id == id;
    var j := Find(once, id).value;
    assert j == k;
  }

  /** Each section with its order set to its position. */
  function Renumber(sections: seq<BankSection>): (r: seq<BankSection>)
    ensures |r| == |sections|
    ensures forall k :: 0 <= k < |r| ==> r[k].order == k
    ensures forall k :: 0 <= k < |r| ==> r[k].(order := 0) == sections[k].(order := 0)
  {
    seq(|sections|, k requires 0 <= k < |sections| => sections[k].(order := k))
  }

  /** The sections with their order fields ignored. */
  function Items(sections: seq<BankSection>): (r: seq<BankSection>)
    ensures |r| == |sections|
    ensures forall k :: 0 <= k < |r| ==> r[k] == sections[k].(order := 0)
  {
    seq(|sections|, k requires 0 <= k < |sections| => sections[k].(order := 0))
  }

  /** `onDragEnd`: a drop outside the list changes nothing; otherwise the
      dragged section is taken out and put in at the drop index, and every
      section's order becomes its new position. */
  function DragEnd(sections: seq<BankSection>, source: int, destination: Option<int>): (r: seq<BankSection>)
    requires 0 <= source < |sections|
    requires destination.Some? ==> 0 <= destination.value < |sections|
    ensures destination.None? ==> r == sections
    ensures destination.Some? ==>
              && |r| == |sections|
              && (forall k :: 0 <= k < |r| ==> r[k].order == k)
              && r[destination.value] == sections[source].(order := destination.value)
              && Items(Seqs.RemoveAt(r, destination.value)) == Items(Seqs.RemoveAt(sections, source))
  {
    if destination.None? then sections
    else
      var moved := Seqs.Move(sections, source, destination.value);
      var r := Renumber(moved);
      ItemsRemoveAt(r, destination.value);
      ItemsRemoveAt(moved, destination.value);
      ItemsRemoveAt(sections, source);
      r
  }

  /** Ignoring orders commutes with deleting an index. */
  lemma ItemsRemoveAt(sections: seq<BankSection>, i: int)
    requires 0 <= i < |sections|
    ensures Items(Seqs.RemoveAt(sections, i)) == Seqs.RemoveAt(Items(sections), i)
  {
  }

  /** Renumbering only looks at the sections with orders ignored. */
  lemma RenumberSeesItems(a: seq<BankSection>, b: seq<BankSection>)
    requires Items(a) == Items(b)
    ensures Renumber(a) == Renumber(b)
  {
    forall k | 0 <= k < |a|
      ensures Renumber(a)[k] == Renumber(b)[k]
    {
      assert Items(a)[k] == Items(b)[k];
    }
  }

  /** Ignoring orders commutes with moving an element. */
  lemma {:induction false} ItemsMove(sections: seq<BankSection>, from: int, to: int)
    requires 0 <= from < |sections| && 0 <= to < |sections|
    ensures Items(Seqs.Move(sections, from, to)) == Seqs.Move(Items(sections), from, to)
  {
    var m := Seqs.Move(sections, from, to);
    var n := Seqs.Move(Items(sections), from, to);
    ItemsRemoveAt(m, to);
    ItemsRemoveAt(sections, from);
    assert Seqs.RemoveAt(Items(m), to) == Seqs.RemoveAt(n, to);
    Seqs.RemoveAtInverse(Items(m), to);
    Seqs.RemoveAtInverse(n, to);
  }

  /** Dragging a section back to where it came from restores the original
      arrangement, numbered by position. */
  lemma {:induction false} DragBack(sections: seq<BankSection>, source: int, destination: int)
    requires 0 <= source < |sections| && 0 <= destination < |sections|
    ensures DragEnd(DragEnd(sections, source, Some(destination)), destination, Some(source)) == Renumber(sections)
  {
    var once := Seqs.Move(sections, source, destination);
    var r := Renumber(once);
    var back := Seqs.Move(r, destination, source);
    assert Items(r) == Items(once);
    ItemsMove(r, destination, source);
    ItemsMove(sections, source, destination);
    Seqs.MoveBack(Items(sections), source, destination);
    assert Items(back) == Items(sections);
    RenumberSeesItems(back, sections);
  }
}

=== FILE: seqs.dfy ===
/** List edits the editors and selectors perform on arrays: remove every
    occurrence (`filter(x => x !== v)`), toggle membership, delete or
    replace one index, swap two neighbours and drag one element elsewhere.
 */
module Seqs {

  /** `s.filter(y => y !== x)`. */
  function RemoveAll<T(==,!new)>(s: seq<T>, x: T): (r: seq<T>)
    ensures x !in r
    ensures forall y :: y != x ==> multiset(r)[y] == multiset(s)[y]
    ensures x !in s ==> r == s
    ensures |r| == |s| - multiset(s)[x]
  {
    if |s| == 0 then []
    else
      assert s == [s[0]] + s[1..];
      if s[0] == x then RemoveAll(s[1..], x)
      else [s[0]] + RemoveAll(s[1..], x)
  }

  /** Removing every occurrence distributes over concatenation. */
  lemma {:induction false} RemoveAllAppend<T(!new)>(a: seq<T>, b: seq<T>, x: T)
    ensures RemoveAll(a + b, x) == RemoveAll(a, x) + RemoveAll(b, x)
  {
    if |a| == 0 {
      assert a + b == b;
    } else {
      assert (a + b)[1..] == a[1..] + b;
      RemoveAllAppend(a[1..], b, x);
    }
  }

  /** `s.includes(x) ? s.filter(y => y !== x) : [...s, x]`: the membership
      toggle used for question tags, expanded sections and selected questions. */
  function Toggle<T(==,!new)>(s: seq<T>, x: T): (r: seq<T>)
    ensures x in r <==> x !in s
    ensures forall y :: y != x ==> (y in r <==> y in s)
    ensures x in s ==> |r| < |s| && r == RemoveAll(s, x)
    ensures x !in s ==> |r| == |s| + 1 && r[|s|] == x && r[..|s|] == s
  {
    if x in s then
      var r := RemoveAll(s, x);
      assert forall y :: y != x ==> (y in r <==> multiset(r)[y] > 0);
      r
    else s + [x]
  }

  /** Toggling an absent element twice restores the original list. */
  lemma ToggleTwice<T(!new)>(s: seq<T>, x: T)
    requires x !in s
    ensures Toggle(Toggle(s, x), x) == s
  {
    RemoveAllAppend(s, [x], x);
    assert RemoveAll([x], x) == [];
  }

  /** `s.filter((_, k) => k !== i)`: deletes index `i`, and changes nothing
      when `i` is not an index of `s`. */
  function RemoveAt<T>(s: seq<T>, i: int): (r: seq<T>)
    ensures 0 <= i < |s| ==> |r| == |s| - 1
    ensures 0 <= i < |s| ==> forall k :: 0 <= k < i ==> r[k] == s[k]
    ensures 0 <= i < |s| ==> forall k :: i <= k < |r| ==> r[k] == s[k + 1]
    ensures !(0 <= i < |s|) ==> r == s
  {
    if 0 <= i < |s| then s[..i] + s[i + 1..] else s
  }

  /** Inserts `x` so that it ends up at index `i`. */
  function InsertAt<T>(s: seq<T>, i: int, x: T): (r: seq<T>)
    requires 0 <= i <= |s|
    ensures |r| == |s| + 1 && r[i] == x
    ensures r[..i] == s[..i] && r[i + 1..] == s[i..]
  {
    s[..i] + [x] + s[i..]
  }

  /** Deleting index `i` loses exactly the element there: putting it back
      restores the list, and the multiset shrinks by that one element. */
  lemma RemoveAtInverse<T>(s: seq<T>, i: int)
    requires 0 <= i < |s|
    ensures InsertAt(RemoveAt(s, i), i, s[i]) == s
    ensures multiset(RemoveAt(s, i)) + multiset{s[i]} == multiset(s)
  {
    assert s == s[..i] + [s[i]] + s[i + 1..];
  }

  /** Exchanges the elements at `i` and `j`. */
  function Swap<T>(s: seq<T>, i: int, j: int): (r: seq<T>)
    requires 0 <= i < |s| && 0 <= j < |s|
    ensures |r| == |s| && r[i] == s[j] && r[j] == s[i]
    ensures forall k :: 0 <= k < |s| && k != i && k != j ==> r[k] == s[k]
    ensures multiset(r) == multiset(s)
  {
    s[i := s[j]][j := s[i]]
  }

  /** Swapping is its own inverse. */
  lemma SwapTwice<T>(s: seq<T>, i: int, j: int)
    requires 0 <= i < |s| && 0 <= j < |s|
    ensures Swap(Swap(s, i, j), i, j) == s
  {
  }

  /** `splice(from, 1)` then `splice(to, 0, item)`: the drag-and-drop move. */
  function Move<T>(s: seq<T>, from: int, to: int): (r: seq<T>)
    requires 0 <= from < |s| && 0 <= to < |s|
    ensures |r| == |s| && r[to] == s[from]
    ensures RemoveAt(r, to) == RemoveAt(s, from)
    ensures multiset(r) == multiset(s)
  {
    RemoveAtInverse(s, from);
    var r := InsertAt(RemoveAt(s, from), to, s[from]);
    assert RemoveAt(r, to) == RemoveAt(s, from) by {
      assert r == RemoveAt(s, from)[..to] + [s[from]] + RemoveAt(s, from)[to..];
    }
    RemoveAtInverse(r, to);
    r
  }

  /** Dragging an element back to where it came from undoes a move. */
  lemma {:induction false} MoveBack<T>(s: seq<T>, from: int, to: int)
    requires 0 <= from < |s| && 0 <= to < |s|
    ensures Move(Move(s, from, to), to, from) == s
  {
    var r := Move(s, from, to);
    var t := Move(r, to, from);
    assert RemoveAt(t, from) == RemoveAt(r, to) == RemoveAt(s, from);
    assert t[from] == r[to] == s[from];
    RemoveAtInverse(t, from);
    RemoveAtInverse(s, from);
  }

  /** `s.filter(p)`: the elements satisfying `p`, in their original order. */
  function Filter<T(==,!new)>(s: seq<T>, p: T -> bool): (r: seq<T>)
    ensures |r| <= |s|
    ensures forall i :: 0 <= i < |r| ==> p(r[i])
    ensures forall x :: x in r <==> x in s && p(x)
  {
    if |s| == 0 then []
    else
      assert s == [s[0]] + s[1..];
      (if p(s[0]) then [s[0]] else []) + Filter(s[1..], p)
  }

  /** Filtering distributes over concatenation, so the kept elements stay in
      their original order. */
  lemma {:induction false} FilterAppend<T(!new)>(a: seq<T>, b: seq<T>, p: T -> bool)
    ensures Filter(a + b, p) == Filter(a, p) + Filter(b, p)
  {
    if |a| == 0 {
      assert a + b == b;
    } else {
      assert (a + b)[1..] == a[1..] + b;
      FilterAppend(a[1..], b, p);
    }
  }

  /** Removing every occurrence is filtering out that one value, so the
      elements kept stay in their original order. */
  lemma {:induction false} RemoveAllIsFilter<T(!new)>(s: seq<T>, x: T)
    ensures RemoveAll(s, x) == Filter(s, (y: T) => y != x)
  {
    if |s| > 0 {
      RemoveAllIsFilter(s[1..], x);
    }
  }

  /** Filtering with a predicate every element satisfies changes nothing. */
  lemma {:induction false} FilterAll<T(!new)>(s: seq<T>, p: T -> bool)
    requires forall i :: 0 <= i < |s| ==> p(s[i])
    ensures Filter(s, p) == s
  {
    if |s| > 0 {
      FilterAll(s[1..], p);
    }
  }

  /** The first `n` elements (all of them when there are fewer): `limit(n)`. */
  function Take<T>(s: seq<T>, n: nat): (r: seq<T>)
    ensures |r| <= n && |r| <= |s|
    ensures |s| <= n ==> r == s
    ensures forall i :: 0 <= i < |r| ==> r[i] == s[i]
  {
    if |s| <= n then s else s[..n]
  }
}

=== FILE: supplier_compliance.dfy ===
/** Supplier compliance: recording a score and recomputing the supplier's
    compliance score, generating a report from approved questionnaire
    submissions, and reading the history within a date range.
 */
module SupplierCompliance {

  import opened Wrappers
  import opened Suppliers
  import Seqs
  import Listing
  import Rounding
  import Firestore

  /** A document of `complianceRecords`. */
  datatype RecordDoc = RecordDoc(supplierId: string, score: int, category: string, date: nat)

  /** One answer of a submission, as the report reads it. */
  datatype Answer = Answer(flagged: bool, comments: Option<string>)

  /** A question embedded in a submission. */
  datatype ReportQuestion = ReportQuestion(id: string, text: string, tags: seq<string>)

  /** A document of `submissions`, as the report reads it. The answers are
      the entries of the answers object in enumeration order. */
  datatype SubmissionDoc = SubmissionDoc(
    supplierId: string,
    questionnaireId: string,
    status: string,
    answers: seq<(string, Answer)>,
    questions: Option<seq<ReportQuestion>>)

  datatype Finding = Finding(category: string, description: string, severity: string, recommendation: string)

  datatype Report = Report(
    supplierId: string,
    generatedAt: nat,
    overallScore: int,
    categoryScores: map<string, int>,
    findings: seq<Finding>,
    questionnairesAnalyzed: seq<string>)

  datatype Db = Db(
    suppliers: Suppliers.Db,
    records: map<string, RecordDoc>,
    submissions: map<string, SubmissionDoc>,
    reports: map<string, Report>)

  // ----- the supplier's score ---------------------------------------------

  /** The comparator `b.date - a.date`: newest first. */
  predicate NewestFirst(a: ComplianceRecord, b: ComplianceRecord) {
    a.date >= b.date
  }

  lemma NewestFirstIsPreorder()
    ensures Listing.Preorder(NewestFirst)
  {
  }

  function Scores(s: seq<ComplianceRecord>): (r: seq<int>)
    ensures |r| == |s| && forall i :: 0 <= i < |s| ==> r[i] == s[i].score
  {
    seq(|s|, i requires 0 <= i < |s| => s[i].score)
  }

  /** The history after the `sort`, which reorders it in place: the same
      records, newest first. */
  function SortedHistory(h: seq<ComplianceRecord>): (r: seq<ComplianceRecord>)
    ensures multiset(r) == multiset(h)
    ensures forall i, j :: 0 <= i < j < |r| ==> r[i].date >= r[j].date
  {
    NewestFirstIsPreorder();
    Listing.Sort(h, NewestFirst)
  }

  /** `slice(0, 3)` of the sorted history: the up to three newest records;
      every record left out is no newer than every record kept. */
  function Recent(h: seq<ComplianceRecord>): (r: seq<ComplianceRecord>)
    ensures |r| == if |h| < 3 then |h| else 3
    ensures forall i :: 0 <= i < |r| ==> r[i] in h
    ensures forall i, j :: 0 <= i < |r| <= j < |SortedHistory(h)| ==> r[i].date >= SortedHistory(h)[j].date
  {
    var s := SortedHistory(h);
    forall i | 0 <= i < |s|
      ensures s[i] in h
    {
      assert s[i] in multiset(h);
    }
    Seqs.Take(s, 3)
  }

  /** `Math.round` of the mean score of the recent records. */
  function RecentMean(h: seq<ComplianceRecord>): (score: int)
    requires |h| > 0
    ensures (forall i :: 0 <= i < |h| ==> ValidRecord(h[i])) ==> Percent(score)
  {
    var recent := Recent(h);
    assert (forall i :: 0 <= i < |h| ==> ValidRecord(h[i])) ==> 0 <= Rounding.RoundDiv(Rounding.Sum(Scores(recent)), |recent|) <= 100 by {
      if forall i :: 0 <= i < |h| ==> ValidRecord(h[i]) {
        Rounding.RoundedMeanBounds(Scores(recent), 0, 100);
      }
    }
    Rounding.RoundDiv(Rounding.Sum(Scores(recent)), |recent|)
  }

  /** `addComplianceRecord`. The record document is written first; then a
      missing supplier fails, leaving that document behind. Otherwise the
      supplier's history gains the new record and is written back newest
      first, and its score becomes the rounded mean of the three newest
      records. */
  function AddComplianceRecord(db: Db, supplierId: string, score: int, category: string,
                               recordId: string, now: nat): (e: Effect<Db, ()>)
    requires recordId !in db.records
    ensures e.store.records == db.records[recordId := RecordDoc(supplierId, score, category, now)]
    ensures e.store.submissions == db.submissions && e.store.reports == db.reports
    ensures e.result.Ok? <==> supplierId != "" && supplierId in db.suppliers
    ensures e.result.Err? ==> e.store.suppliers == db.suppliers
    ensures supplierId == "" ==> e.result == Err("Failed to add compliance record: " + Firestore.InvalidReference)
    ensures supplierId != "" && supplierId !in db.suppliers ==>
              e.result == Err("Failed to add compliance record: Supplier not found")
    ensures e.result.Ok? ==>
              var h := db.suppliers[supplierId].complianceHistory.GetOr([]) + [ComplianceRecord(now, score, category)];
              && e.store.suppliers.Keys == db.suppliers.Keys
              && e.store.suppliers[supplierId] == db.suppliers[supplierId].(
                   complianceScore := Some(RecentMean(h)),
                   complianceHistory := Some(SortedHistory(h)),
                   lastUpdated := now)
    ensures forall k :: k in db.suppliers && k != supplierId ==> k in e.store.suppliers && e.store.suppliers[k] == db.suppliers[k]
  {
    var withRecord := db.(records := db.records[recordId := RecordDoc(supplierId, score, category, now)]);
    if supplierId == "" then Effect(withRecord, Err("Failed to add compliance record: " + Firestore.InvalidReference))
    else if supplierId !in db.suppliers then Effect(withRecord, Err("Failed to add compliance record: Supplier not found"))
    else
      var d := db.suppliers[supplierId];
      var h := d.complianceHistory.GetOr([]) + [ComplianceRecord(now, score, category)];
      var written := d.(complianceScore := Some(RecentMean(h)), complianceHistory := Some(SortedHistory(h)), lastUpdated := now);
      Effect(withRecord.(suppliers := db.suppliers[supplierId := written]), Ok(()))
  }

  /** When the stored history and the new score are percentages, so is the
      supplier's new score; the written history holds exactly the old
      records plus the new one. */
  lemma AddKeepsScoreInRange(db: Db, supplierId: string, score: int, category: string, recordId: string, now: nat)
    requires recordId !in db.records && supplierId != "" && supplierId in db.suppliers
    requires Percent(score)
    requires var h := db.suppliers[supplierId].complianceHistory.GetOr([]);
             forall i :: 0 <= i < |h| ==> ValidRecord(h[i])
    ensures var d := AddComplianceRecord(db, supplierId, score, category, recordId, now).store.suppliers[supplierId];
            && d.complianceScore.Some? && Percent(d.complianceScore.value)
            && d.complianceHistory.Some?
            && multiset(d.complianceHistory.value)
               == multiset(db.suppliers[supplierId].complianceHistory.GetOr([])) + multiset{ComplianceRecord(now, score, category)}
  {
    var h := db.suppliers[supplierId].complianceHistory.GetOr([]) + [ComplianceRecord(now, score, category)];
    assert forall i :: 0 <= i < |h| ==> ValidRecord(h[i]) by {
      forall i | 0 <= i < |h|
        ensures ValidRecord(h[i])
      {
        if i == |h| - 1 {
        } else {
          assert h[i] == db.suppliers[supplierId].complianceHistory.GetOr([])[i];
        }
      }
    }
  }

  /** The first record of a supplier sets its score to that record's score. */
  lemma FirstRecordSetsScore(db: Db, supplierId: string, score: int, category: string, recordId: string, now: nat)
    requires recordId !in db.records && supplierId != "" && supplierId in db.suppliers
    requires db.suppliers[supplierId].complianceHistory.GetOr([]) == []
    ensures AddComplianceRecord(db, supplierId, score, category, recordId, now).store.suppliers[supplierId].complianceScore
            == Some(score)
  {
    var h := [ComplianceRecord(now, score, category)];
    assert db.suppliers[supplierId].complianceHistory.GetOr([]) + [ComplianceRecord(now, score, category)] == h;
    assert Recent(h) == h by {
      assert multiset(SortedHistory(h)) == multiset{h[0]};
      assert |SortedHistory(h)| == 1;
      assert SortedHistory(h)[0] in multiset(h);
    }
    assert Rounding.Sum(Scores(h)) == score;
    Rounding.RoundDivUnique(score, 1, score);
  }

  // ----- the report -------------------------------------------------------

  /** What one tag of one answered question adds to the report: 50 points
      and a medium finding for a flagged answer, 100 points otherwise. */
  datatype Contribution = Contribution(tag: string, points: int, finding: Option<Finding>)

  predicate WellFormed(c: Contribution) {
    || (c.points == 50 && c.finding.Some? && c.finding.value.category == c.tag && c.finding.value.severity == "medium")
    || (c.points == 100 && c.finding.None?)
  }

  const Recommendation := "Review and update response based on previous feedback"

  /** The first embedded question with the given id. */
  function FindQuestion(qs: seq<ReportQuestion>, id: string): (r: Option<ReportQuestion>)
    ensures r.None? <==> forall i :: 0 <= i < |qs| ==> qs[i].id != id
    ensures r.Some? ==> r.value.id == id && r.value in qs
  {
    if |qs| == 0 then None
    else if qs[0].id == id then Some(qs[0])
    else FindQuestion(qs[1..], id)
  }

  function FlagDescription(q: ReportQuestion, a: Answer): string {
    "Question \"" + q.text + "\" was flagged: " + (if Truthy(a.comments) then a.comments.value else "")
  }

  /** One contribution per tag of the question, in tag order. */
  function TagContributions(q: ReportQuestion, a: Answer): (r: seq<Contribution>)
    ensures |r| == |q.tags|
    ensures forall k :: 0 <= k < |r| ==> r[k].tag == q.tags[k] && WellFormed(r[k])
    ensures forall k :: 0 <= k < |r| ==> (r[k].points == 50 <==> a.flagged)
  {
    seq(|q.tags|, k requires 0 <= k < |q.tags| =>
      if a.flagged then Contribution(q.tags[k], 50, Some(Finding(q.tags[k], FlagDescription(q, a), "medium", Recommendation)))
      else Contribution(q.tags[k], 100, None))
  }

  /** An answer whose question is not embedded contributes nothing. */
  function AnswerContributions(questions: Option<seq<ReportQuestion>>, entry: (string, Answer)): (r: seq<Contribution>)
    ensures forall k :: 0 <= k < |r| ==> WellFormed(r[k])
    ensures questions.None? ==> r == []
    ensures questions.Some? && FindQuestion(questions.value, entry.0).None? ==> r == []
  {
    if questions.None? then []
    else match FindQuestion(questions.value, entry.0)
      case None => []
      case Some(q) => TagContributions(q, entry.1)
  }

  function SubmissionContributions(answers: seq<(string, Answer)>, questions: Option<seq<ReportQuestion>>)
    : (r: seq<Contribution>)
    ensures forall k :: 0 <= k < |r| ==> WellFormed(r[k])
  {
    if |answers| == 0 then []
    else AnswerContributions(questions, answers[0]) + SubmissionContributions(answers[1..], questions)
  }

  /** Every contribution of the submissions, in the order they are visited. */
  function AllContributions(subs: seq<SubmissionDoc>): (r: seq<Contribution>)
    ensures forall k :: 0 <= k < |r| ==> WellFormed(r[k])
  {
    if |subs| == 0 then []
    else SubmissionContributions(subs[0].answers, subs[0].questions) + AllContributions(subs[1..])
  }

  lemma {:induction false} AllContributionsAppend(a: seq<SubmissionDoc>, b: seq<SubmissionDoc>)
    ensures AllContributions(a + b) == AllContributions(a) + AllContributions(b)
  {
    if |a| == 0 {
      assert a + b == b;
    } else {
      assert (a + b)[1..] == a[1..] + b;
      AllContributionsAppend(a[1..], b);
    }
  }

  /** Whether some contribution is for tag `t`. */
  predicate HasTag(cs: seq<Contribution>, t: string) {
    exists i :: 0 <= i < |cs| && cs[i].tag == t
  }

  /** The categories in order of first appearance (the key order of the
      score table). */
  function Categories(cs: seq<Contribution>): (r: seq<string>)
    ensures Listing.NoDup(r)
    ensures forall t :: t in r <==> HasTag(cs, t)
  {
    if |cs| == 0 then []
    else
      var init := cs[..|cs| - 1];
      var rest := Categories(init);
      var t := cs[|cs| - 1].tag;
      assert forall u :: HasTag(cs, u) <==> HasTag(init, u) || u == t by {
        forall u | HasTag(init, u)
          ensures HasTag(cs, u)
        {
          var i :| 0 <= i < |init| && init[i].tag == u;
          assert cs[i].tag == u;
        }
        forall u | HasTag(cs, u) && u != t
          ensures HasTag(init, u)
        {
          var i :| 0 <= i < |cs| && cs[i].tag == u;
          assert init[i].tag == u;
        }
      }
      if t in rest then rest else rest + [t]
  }

  /** The points given to tag `t`, in order. */
  function PointsFor(cs: seq<Contribution>, t: string): (r: seq<int>)
    ensures |r| > 0 <==> HasTag(cs, t)
    ensures (forall i :: 0 <= i < |cs| ==> WellFormed(cs[i])) ==> forall k :: 0 <= k < |r| ==> 50 <= r[k] <= 100
  {
    if |cs| == 0 then []
    else
      var rest := PointsFor(cs[1..], t);
      assert HasTag(cs, t) <==> cs[0].tag == t || HasTag(cs[1..], t) by {
        if HasTag(cs[1..], t) {
          var i :| 0 <= i < |cs[1..]| && cs[1..][i].tag == t;
          assert cs[i + 1].tag == t;
        }
        if HasTag(cs, t) && cs[0].tag != t {
          var i :| 0 <= i < |cs| && cs[i].tag == t;
          assert cs[1..][i - 1].tag == t;
        }
      }
      (if cs[0].tag == t then [cs[0].points] else []) + rest
  }

  /** `Math.round(total / count)` for one category: between 50 and 100. */
  function CategoryScore(cs: seq<Contribution>, t: string): (score: int)
    requires forall i :: 0 <= i < |cs| ==> WellFormed(cs[i])
    requires HasTag(cs, t)
    ensures 50 <= score <= 100
  {
    var ps := PointsFor(cs, t);
    Rounding.RoundedMeanBounds(ps, 50, 100);
    Rounding.RoundDiv(Rounding.Sum(ps), |ps|)
  }

  function CategoryScores(cs: seq<Contribution>): (m: map<string, int>)
    requires forall i :: 0 <= i < |cs| ==> WellFormed(cs[i])
    ensures forall t :: t in m <==> HasTag(cs, t)
    ensures forall t :: t in m ==> 50 <= m[t] <= 100
  {
    map t | t in Categories(cs) :: CategoryScore(cs, t)
  }

  /** The overall score: the rounded mean of the category scores, with the
      count replaced by 1 when there are no categories. */
  function OverallScore(cs: seq<Contribution>): (score: int)
    requires forall i :: 0 <= i < |cs| ==> WellFormed(cs[i])
    ensures |Categories(cs)| == 0 ==> score == 0
    ensures |Categories(cs)| > 0 ==> 50 <= score <= 100
    ensures 0 <= score <= 100
  {
    var cats := Categories(cs);
    var scores := seq(|cats|, k requires 0 <= k < |cats| => CategoryScore(cs, cats[k]));
    var n := if |cats| == 0 then 1 else |cats|;
    assert |cats| == 0 ==> Rounding.Sum(scores) == 0;
    Rounding.SumBounds(scores, 50, 100);
    assert |cats| > 0 ==> 50 <= Rounding.RoundDiv(Rounding.Sum(scores), n) <= 100 by {
      if |cats| > 0 {
        Rounding.RoundDivBounds(Rounding.Sum(scores), n, 50, 100);
      }
    }
    assert |cats| == 0 ==> Rounding.RoundDiv(Rounding.Sum(scores), n) == 0 by {
      if |cats| == 0 {
        Rounding.RoundDivUnique(0, 1, 0);
      }
    }
    Rounding.RoundDiv(Rounding.Sum(scores), n)
  }

  /** A contribution of a flagged answer. */
  predicate Flagged(c: Contribution) {
    c.points == 50
  }

  /** The findings, in the order the flagged answers were visited. */
  function Findings(cs: seq<Contribution>): (r: seq<Finding>)
    ensures |r| <= |cs|
  {
    if |cs| == 0 then []
    else if cs[0].finding.Some? then [cs[0].finding.value] + Findings(cs[1..])
    else Findings(cs[1..])
  }

  /** There is one finding per flagged contribution. */
  lemma {:induction false} FindingsMatchFlags(cs: seq<Contribution>)
    requires forall i :: 0 <= i < |cs| ==> WellFormed(cs[i])
    ensures |Findings(cs)| == |Seqs.Filter(cs, Flagged)|
  {
    if |cs| > 0 {
      FindingsMatchFlags(cs[1..]);
    }
  }

  /** Every finding is of medium severity and names a category of the
      report. */
  lemma {:induction false} FindingsNameCategories(cs: seq<Contribution>)
    requires forall i :: 0 <= i < |cs| ==> WellFormed(cs[i])
    ensures forall k :: 0 <= k < |Findings(cs)| ==>
              Findings(cs)[k].severity == "medium" && HasTag(cs, Findings(cs)[k].category)
  {
    if |cs| > 0 {
      FindingsNameCategories(cs[1..]);
      var rest := Findings(cs[1..]);
      forall k | 0 <= k < |rest|
        ensures HasTag(cs, rest[k].category)
      {
        var i :| 0 <= i < |cs[1..]| && cs[1..][i].tag == rest[k].category;
        assert cs[i + 1].tag == rest[k].category;
      }
      if cs[0].finding.Some? {
        assert HasTag(cs, cs[0].finding.value.category);
      }
    }
  }

  /** The report built from the given submissions. */
  function BuildReport(supplierId: string, subs: seq<SubmissionDoc>, questionnaireIds: seq<string>, now: nat): (r: Report)
    ensures r.supplierId == supplierId && r.generatedAt == now && r.questionnairesAnalyzed == questionnaireIds
    ensures 0 <= r.overallScore <= 100
    ensures forall t :: t in r.categoryScores ==> 50 <= r.categoryScores[t] <= 100
    ensures |r.categoryScores| == 0 ==> r.overallScore == 0
  {
    var cs := AllContributions(subs);
    var scores := CategoryScores(cs);
    assert |scores| == 0 ==> |Categories(cs)| == 0 by {
      if |Categories(cs)| > 0 {
        assert Categories(cs)[0] in scores;
      }
    }
    Report(supplierId, now, OverallScore(cs), scores, Findings(cs), questionnaireIds)
  }

  /** Submissions whose answers all refer to questions that are not
      embedded change nothing in the report. */
  lemma UnknownQuestionsSkipped(supplierId: string, subs: seq<SubmissionDoc>, s: SubmissionDoc,
                                questionnaireIds: seq<string>, now: nat)
    requires SubmissionContributions(s.answers, s.questions) == []
    ensures BuildReport(supplierId, subs + [s], questionnaireIds, now) == BuildReport(supplierId, subs, questionnaireIds, now)
  {
    AllContributionsAppend(subs, [s]);
    assert AllContributions([s]) == [];
    assert AllContributions(subs) + [] == AllContributions(subs);
  }

  /** An answer is skipped when its question is not embedded. */
  lemma {:induction false} UnknownAnswersContributeNothing(answers: seq<(string, Answer)>, qs: seq<ReportQuestion>)
    requires forall i, j :: 0 <= i < |answers| && 0 <= j < |qs| ==> qs[j].id != answers[i].0
    ensures SubmissionContributions(answers, Some(qs)) == []
  {
    if |answers| > 0 {
      UnknownAnswersContributeNothing(answers[1..], qs);
    }
  }

  /** Without flagged answers there are no findings and every category
      scores 100. */
  lemma NoFlagsFullMarks(cs: seq<Contribution>)
    requires forall i :: 0 <= i < |cs| ==> WellFormed(cs[i]) && cs[i].points == 100
    ensures Findings(cs) == []
    ensures forall t :: t in CategoryScores(cs) ==> CategoryScores(cs)[t] == 100
  {
    FindingsMatchFlags(cs);
    assert Seqs.Filter(cs, Flagged) == [];
    forall t | t in CategoryScores(cs)
      ensures CategoryScores(cs)[t] == 100
    {
      var ps := PointsFor(cs, t);
      AllHundred(cs, t);
      Rounding.RoundedMeanBounds(ps, 100, 100);
    }
  }

  lemma {:induction false} AllHundred(cs: seq<Contribution>, t: string)
    requires forall i :: 0 <= i < |cs| ==> cs[i].points == 100
    ensures forall k :: 0 <= k < |PointsFor(cs, t)| ==> PointsFor(cs, t)[k] == 100
  {
    if |cs| > 0 {
      AllHundred(cs[1..], t);
    }
  }

  /** The submissions the report reads. */
  predicate Selected(d: SubmissionDoc, supplierId: string, questionnaireIds: seq<string>) {
    d.supplierId == supplierId && d.questionnaireId in questionnaireIds && d.status == "approved"
  }

  /** The stored submissions with the given ids, in that order. */
  function Stored(db: Db, ids: seq<string>): (subs: seq<SubmissionDoc>)
    requires forall i :: 0 <= i < |ids| ==> ids[i] in db.submissions
    ensures |subs| == |ids| && forall i :: 0 <= i < |ids| ==> subs[i] == db.submissions[ids[i]]
  {
    seq(|ids|, i requires 0 <= i < |ids| => db.submissions[ids[i]])
  }

  /** `generateComplianceReport`. A questionnaire list the `in` filter
      refuses (empty, or longer than the store allows) fails before anything
      is written; otherwise the report over the approved submissions of the
      supplier for those questionnaires (`used`, in document-id
      order) is stored and returned. */
  method GenerateReport(db: Db, supplierId: string, questionnaireIds: seq<string>, reportId: string, now: nat)
    returns (e: Effect<Db, (string, Report)>, used: seq<string>)
    requires reportId !in db.reports
    ensures questionnaireIds == [] ==>
              e == Effect(db, Err("Failed to generate compliance report: " + Firestore.EmptyInFilter))
    ensures |questionnaireIds| > Firestore.InLimit ==>
              e == Effect(db, Err("Failed to generate compliance report: " + Firestore.TooManyInFilter))
    ensures e.result.Ok? <==> 0 < |questionnaireIds| <= Firestore.InLimit
    ensures forall i :: 0 <= i < |used| ==> used[i] in db.submissions && Selected(db.submissions[used[i]], supplierId, questionnaireIds)
    ensures e.result.Ok? ==> forall id :: id in db.submissions && Selected(db.submissions[id], supplierId, questionnaireIds) ==> id in used
    ensures Listing.NoDup(used)
    ensures forall i, j :: 0 <= i < j < |used| ==> Listing.LexLe(used[i], used[j])
    ensures e.result.Ok? ==>
              && e.result.value == (reportId, BuildReport(supplierId, Stored(db, used), questionnaireIds, now))
              && e.store == db.(reports := db.reports[reportId := e.result.value.1])
  {
    var refused := Firestore.InFilterError(questionnaireIds);
    if refused.Some? {
      return Effect(db, Err("Failed to generate compliance report: " + refused.value)), [];
    }
    used := SelectedIds(db, supplierId, questionnaireIds);
    var report := BuildReport(supplierId, Stored(db, used), questionnaireIds, now);
    e := Effect(db.(reports := db.reports[reportId := report]), Ok((reportId, report)));
  }

  /** The ids of the submissions the report reads, each once, in
      document-id order: the query has no `orderBy`. */
  method SelectedIds(db: Db, supplierId: string, questionnaireIds: seq<string>) returns (used: seq<string>)
    ensures forall i :: 0 <= i < |used| ==> used[i] in db.submissions && Selected(db.submissions[used[i]], supplierId, questionnaireIds)
    ensures forall id :: id in db.submissions && Selected(db.submissions[id], supplierId, questionnaireIds) ==> id in used
    ensures Listing.NoDup(used)
    ensures forall i, j :: 0 <= i < j < |used| ==> Listing.LexLe(used[i], used[j])
  {
    Listing.NoOrderPreorder<SubmissionDoc>();
    var hits := Listing.Query(db.submissions, (d: SubmissionDoc) => Selected(d, supplierId, questionnaireIds),
                              Listing.NoOrder(), false);
    used := seq(|hits|, i requires 0 <= i < |hits| => hits[i].0);
    assert forall i :: 0 <= i < |used| ==> used[i] == hits[i].0;
    assert Listing.NoDup(used);
    forall i, j | 0 <= i < j < |used|
      ensures Listing.LexLe(used[i], used[j])
    {
      assert Listing.NoOrder<SubmissionDoc>()(hits[j].1, hits[i].1);
    }
    forall id | id in db.submissions && Selected(db.submissions[id], supplierId, questionnaireIds)
      ensures id in used
    {
      var i :| 0 <= i < |hits| && hits[i].0 == id;
      assert used[i] == id;
    }
  }

  // ----- the history ------------------------------------------------------

  /** Inside the optional date range (both ends inclusive). */
  predicate InRange(r: ComplianceRecord, start: Option<nat>, end: Option<nat>) {
    (start.None? || r.date >= start.value) && (end.None? || r.date <= end.value)
  }

  /** `getSupplierComplianceHistory`: the supplier's records within the
      range, newest first. */
  function History(db: Suppliers.Db, supplierId: string, start: Option<nat>, end: Option<nat>)
    : (r: Result<seq<ComplianceRecord>>)
    ensures r.Ok? <==> supplierId != "" && supplierId in db
    ensures supplierId == "" ==> r == Err("Failed to fetch compliance history: " + Firestore.InvalidReference)
    ensures supplierId != "" && supplierId !in db ==>
              r == Err("Failed to fetch compliance history: Supplier not found")
    ensures r.Ok? ==>
              var h := db[supplierId].complianceHistory.GetOr([]);
              && (forall x :: x in r.value <==> x in h && InRange(x, start, end))
              && (forall i, j :: 0 <= i < j < |r.value| ==> r.value[i].date >= r.value[j].date)
              && |r.value| <= |h|
    ensures r.Ok? ==>
              multiset(r.value) == multiset(Seqs.Filter(db[supplierId].complianceHistory.GetOr([]),
                                                        (x: ComplianceRecord) => InRange(x, start, end)))
  {
    if supplierId == "" then Err("Failed to fetch compliance history: " + Firestore.InvalidReference)
    else if supplierId !in db then Err("Failed to fetch compliance history: Supplier not found")
    else
      var h := db[supplierId].complianceHistory.GetOr([]);
      var inRange := (x: ComplianceRecord) => InRange(x, start, end);
      var kept := if start.Some? || end.Some? then Seqs.Filter(h, inRange) else h;
      assert kept == Seqs.Filter(h, inRange) by {
        if start.None? && end.None? { Seqs.FilterAll(h, inRange); }
      }
      assert forall x :: x in kept <==> x in h && InRange(x, start, end);
      var r := SortedHistory(kept);
      assert forall x :: x in r <==> x in multiset(kept);
      Ok(r)
  }

  /** Without a range the history holds every record, each as often as it
      is stored. */
  lemma UnboundedHistoryIsComplete(db: Suppliers.Db, supplierId: string)
    requires supplierId != "" && supplierId in db
    ensures multiset(History(db, supplierId, None, None).value) == multiset(db[supplierId].complianceHistory.GetOr([]))
  {
  }
}

=== FILE: supplier_invitations.dfy ===
/** Inviting suppliers: the new supplier record and the invitation e-mail,
    the invitation status transitions, and the list of pending invitations.
 */
module SupplierInvitations {

  import opened Wrappers
  import opened Suppliers
  import Listing
  import Firestore
  import EmailClient

  /** The supplier record an invitation creates: nothing done yet, a score
      of 0, no tags and no history, sent now. */
  function NewSupplier(invite: SupplierInvite, now: nat): (s: Supplier)
    ensures s.status == PendingInvitation && s.taskProgress == 0
    ensures s.pendingRequests == 0 && s.completedRequests == 0 && s.complianceScore == Some(0)
    ensures s.tags == [] && s.complianceHistory == []
    ensures s.lastUpdated == now && s.invitationSentDate == Some(now)
    ensures s.registrationDate.None? && s.lastLoginDate.None?
    ensures s.name == invite.name && s.contactName == invite.contactName
            && s.primaryContact == invite.primaryContact && s.notes == invite.notes
  {
    Supplier(invite.name, 0, invite.primaryContact, PendingInvitation, Some(0), now, invite.contactName,
             Some(now), None, None, 0, 0, [], invite.notes, [])
  }

  /** An invitation the invite schema accepts yields a supplier the
      supplier schema accepts. */
  lemma NewSupplierIsValid(name: string, contactName: string, primaryContact: string, notes: Option<string>,
                           emailOk: string -> bool, now: nat)
    requires ParseInvite(name, contactName, primaryContact, notes, emailOk).Some?
    ensures ValidSupplier(NewSupplier(ParseInvite(name, contactName, primaryContact, notes, emailOk).value, now), emailOk)
  {
  }

  /** The invitation e-mail; its link carries the new supplier's id. */
  function InviteRequest(invite: SupplierInvite, origin: string, supplierId: string): (m: EmailClient.EmailRequest)
    ensures m.to == invite.primaryContact && m.template == EmailClient.SupplierInvitation
    ensures m.data.Keys == {"contactName", "companyName", "accessUrl"}
    ensures m.data["contactName"] == invite.contactName && m.data["companyName"] == invite.name
    ensures var url := m.data["accessUrl"];
            |url| >= |supplierId| && url[|url| - |supplierId|..] == supplierId
  {
    var url := origin + "?invite=" + supplierId;
    assert url[|url| - |supplierId|..] == supplierId;
    EmailClient.EmailRequest(invite.primaryContact, EmailClient.SupplierInvitation,
      map["contactName" := invite.contactName, "companyName" := invite.name, "accessUrl" := url])
  }

  /** `inviteSupplier`. The record is stored under a fresh id before the
      e-mail (`InviteRequest`) is sent with outcome `outcome`; a failed send
      is reported, and the record stays. */
  function InviteSupplier(db: Db, invite: SupplierInvite, newId: string, now: nat,
                          outcome: EmailClient.CallOutcome): (e: Effect<Db, (string, Supplier)>)
    requires newId != "" && newId !in db
    ensures e.store == db[newId := ToStore(NewSupplier(invite, now))]
    ensures e.result.Ok? <==> EmailClient.SendEmail(outcome).Ok?
    ensures e.result.Ok? ==> e.result.value == (newId, NewSupplier(invite, now))
    ensures e.result.Err? ==>
              e.result.message == "Failed to invite supplier: " + EmailClient.SendEmail(outcome).message
  {
    var s := NewSupplier(invite, now);
    var stored := db[newId := ToStore(s)];
    match EmailClient.SendEmail(outcome)
    case Ok(_) => Effect(stored, Ok((newId, s)))
    case Err(m) => Effect(stored, Err("Failed to invite supplier: " + m))
  }

  /** Whatever the e-mail does, the supplier can be fetched afterwards as
      it was created: a failed invitation leaves its record behind. */
  lemma InvitedSupplierPersists(db: Db, invite: SupplierInvite, newId: string, now: nat,
                                outcome: EmailClient.CallOutcome)
    requires newId != "" && newId !in db
    ensures GetSupplier(InviteSupplier(db, invite, newId, now, outcome).store, newId) == Ok(NewSupplier(invite, now))
  {
    RoundTrip(NewSupplier(invite, now));
  }

  /** The fields `updateInvitationStatus` writes, as a supplier update. */
  function StatusPatch(status: InvitationStatus, now: nat): (p: SupplierPatch)
    ensures p.status == Some(status) && p.lastUpdated == Some(now)
    ensures p.registrationDate.Some? <==> status == Registered
  {
    NoChanges.(status := Some(status), lastUpdated := Some(now),
               registrationDate := if status == Registered then Some(now) else None)
  }

  /** `updateInvitationStatus`: the status and the update time change, and
      the registration date is set exactly when the supplier registers. */
  function UpdateInvitationStatus(db: Db, id: string, status: InvitationStatus, now: nat): (e: Effect<Db, ()>)
    ensures e.result.Ok? <==> id != "" && id in db
    ensures e.result.Err? ==> e.store == db
    ensures id == "" ==> e.result == Err("Failed to update invitation status: " + Firestore.InvalidReference)
    ensures id != "" && id !in db ==>
              e.result == Err("Failed to update invitation status: " + Firestore.UpdateMissing)
    ensures e.result.Ok? ==>
              && id in e.store
              && e.store[id].status == status && e.store[id].lastUpdated == now
              && e.store[id].registrationDate == (if status == Registered then Some(now) else db[id].registrationDate)
              && e.store[id] == db[id].(status := status, lastUpdated := now,
                                        registrationDate := e.store[id].registrationDate)
    ensures forall k :: k in db && k != id ==> k in e.store && e.store[k] == db[k]
  {
    if id == "" then Effect(db, Err("Failed to update invitation status: " + Firestore.InvalidReference))
    else if id !in db then Effect(db, Err("Failed to update invitation status: " + Firestore.UpdateMissing))
    else Effect(db[id := ApplyPatch(db[id], StatusPatch(status, now))], Ok(()))
  }

  /** A status change writes what the general supplier update writes with
      the same fields; only the error text differs. */
  lemma StatusUpdateIsSupplierUpdate(db: Db, id: string, status: InvitationStatus, now: nat)
    ensures UpdateInvitationStatus(db, id, status, now).store == UpdateSupplier(db, id, StatusPatch(status, now)).store
    ensures UpdateInvitationStatus(db, id, status, now).result.Ok?
            <==> UpdateSupplier(db, id, StatusPatch(status, now)).result.Ok?
  {
  }

  /** A registered supplier keeps its registration date through later
      status changes. */
  lemma RegistrationDateSticks(db: Db, id: string, t1: nat, status: InvitationStatus, t2: nat)
    requires id != "" && id in db
    ensures var d := UpdateInvitationStatus(UpdateInvitationStatus(db, id, Registered, t1).store, id, status, t2).store;
            id in d && d[id].registrationDate == (if status == Registered then Some(t2) else Some(t1))
  {
  }

  /** The error reading a document without a compliance history raises. */
  const MissingHistory := "Cannot read properties of undefined (reading 'map')"

  /** `convertFromFirestoreData` of the invitation service: unlike the
      supplier service's, it does not default a missing history, and
      mapping over it fails. Stored tags are copied as they are; a document
      without tags reads with none. */
  function ReadPending(d: StoredSupplier): (r: Result<Supplier>)
    ensures r.Ok? <==> d.complianceHistory.Some?
    ensures r.Ok? ==> r.value == FromStore(d)
    ensures r.Ok? ==> r.value.complianceHistory == d.complianceHistory.value
    ensures r.Ok? && d.tags.Some? ==> r.value.tags == d.tags.value
    ensures r.Err? ==> r.message == MissingHistory
  {
    if d.complianceHistory.None? then Err(MissingHistory) else Ok(FromStore(d))
  }

  /** Reads every listed document; the first failure fails them all. */
  function ReadAll(docs: seq<(string, StoredSupplier)>): (r: Result<seq<(string, Supplier)>>)
    ensures r.Ok? <==> forall i :: 0 <= i < |docs| ==> docs[i].1.complianceHistory.Some?
    ensures r.Ok? ==>
              && |r.value| == |docs|
              && forall i :: 0 <= i < |docs| ==> r.value[i] == (docs[i].0, FromStore(docs[i].1))
    ensures r.Err? ==> r.message == MissingHistory
  {
    if |docs| == 0 then Ok([])
    else
      match ReadPending(docs[0].1)
      case Err(m) => Err(m)
      case Ok(s) =>
        match ReadAll(docs[1..])
        case Err(m) => Err(m)
        case Ok(rest) =>
          assert forall i :: 1 <= i < |docs| ==> docs[i] == docs[1..][i - 1];
          Ok([(docs[0].0, s)] + rest)
  }

  predicate IsPending(d: StoredSupplier) {
    d.status == PendingInvitation
  }

  /** `orderBy('invitationSentDate', 'desc')`: later dates first, and null
      (the smallest value) last. */
  predicate SentNewestFirst(a: StoredSupplier, b: StoredSupplier) {
    match (a.invitationSentDate, b.invitationSentDate)
    case (Some(x), Some(y)) => x >= y
    case (Some(_), None) => true
    case (None, None) => true
    case (None, Some(_)) => false
  }

  lemma SentNewestFirstIsPreorder()
    ensures Listing.Preorder(SentNewestFirst)
  {
  }

  /** `getPendingInvitations`: exactly the suppliers still pending, newest
      invitation first; a pending document without a history fails the
      whole listing. */
  method GetPendingInvitations(db: Db) returns (r: Result<seq<(string, Supplier)>>)
    ensures r.Ok? <==> forall id :: id in db && IsPending(db[id]) ==> db[id].complianceHistory.Some?
    ensures r.Err? ==> r.message == "Failed to fetch pending invitations: " + MissingHistory
    ensures r.Ok? ==> forall i :: 0 <= i < |r.value| ==>
              var id := r.value[i].0;
              id in db && IsPending(db[id]) && r.value[i].1 == FromStore(db[id])
    ensures r.Ok? ==> forall id :: id in db && IsPending(db[id]) ==> exists i :: 0 <= i < |r.value| && r.value[i].0 == id
    ensures r.Ok? ==> forall i, j :: 0 <= i < j < |r.value| ==> r.value[i].0 != r.value[j].0
    ensures r.Ok? ==> forall i, j :: 0 <= i < j < |r.value| ==>
              var a := r.value[i].1.invitationSentDate;
              var b := r.value[j].1.invitationSentDate;
              (b.Some? ==> a.Some? && a.value >= b.value)
  {
    SentNewestFirstIsPreorder();
    var docs := Listing.Query(db, IsPending, SentNewestFirst, true);
    var read := ReadAll(docs);
    if read.Err? {
      assert exists i :: 0 <= i < |docs| && docs[i].1.complianceHistory.None?;
      return Err("Failed to fetch pending invitations: " + read.message);
    }
    r := Ok(read.value);
    forall id | id in db && IsPending(db[id])
      ensures db[id].complianceHistory.Some?
    {
      var i :| 0 <= i < |docs| && docs[i].0 == id;
    }
    forall id | id in db && IsPending(db[id])
      ensures exists i :: 0 <= i < |r.value| && r.value[i].0 == id
    {
      var i :| 0 <= i < |docs| && docs[i].0 == id;
      assert r.value[i].0 == id;
    }
    forall i, j | 0 <= i < j < |r.value|
      ensures var a := r.value[i].1.invitationSentDate;
              var b := r.value[j].1.invitationSentDate;
              (b.Some? ==> a.Some? && a.value >= b.value)
    {
      assert Listing.OnDocs(SentNewestFirst)(docs[i], docs[j]);
    }
  }
}

=== FILE: supplier_questionnaires.dfy ===
/** Questionnaire requests to suppliers: sending a questionnaire built from
    a template (with its first, empty submission), and the operations on a
    supplier's submission.
 */
module SupplierQuestionnaires {

  import opened Wrappers
  import opened QuestionnaireTypes
  import Suppliers
  import Listing
  import Firestore

  /** A document of `questionnaires`: the template's fields plus the
      request's own. */
  datatype QuestionnaireDoc = QuestionnaireDoc(
    template: Template,
    templateId: string,
    supplierId: string,
    createdAt: nat,
    deadline: Option<nat>,
    status: string)

  /** A document of `submissions`. Answers are opaque values keyed by
      question id. */
  datatype Submission = Submission(
    questionnaireId: string,
    supplierId: string,
    status: Status,
    answers: map<string, Value>,
    documents: seq<DocumentSubmission>,
    lastUpdated: nat,
    completionRate: real,
    submittedAt: Option<nat>,
    statusComment: Option<string>)

  datatype Db = Db(
    templates: map<string, Template>,
    questionnaires: map<string, QuestionnaireDoc>,
    submissions: map<string, Submission>,
    suppliers: Suppliers.Db)

  // ----- the request ------------------------------------------------------

  /** `(count + 1) || 1`: one more than the stored count, or 1 when there is
      no count or the sum is 0. */
  function NextPending(count: Option<int>): (n: int)
    ensures count.None? ==> n == 1
    ensures count.Some? && count.value != -1 ==> n == count.value + 1
    ensures n != 0
  {
    if count.None? then 1
    else if count.value + 1 == 0 then 1
    else count.value + 1
  }

  /** The first submission of a request: a draft with nothing answered. */
  function InitialSubmission(questionnaireId: string, supplierId: string, now: nat): (s: Submission)
    ensures s.status == Draft && s.answers == map[] && s.documents == [] && s.completionRate == 0.0
    ensures s.questionnaireId == questionnaireId && s.supplierId == supplierId
    ensures s.submittedAt.None? && s.statusComment.None?
  {
    Submission(questionnaireId, supplierId, Draft, map[], [], now, 0.0, None, None)
  }

  /** `createQuestionnaireRequest`. A missing template fails before any
      write. Otherwise the questionnaire (pending, with a null deadline
      when none is given) and its draft submission are written, and then
      the supplier's pending count is raised; a missing supplier fails at
      that last step, after the first two writes. */
  function CreateRequest(db: Db, supplierId: string, templateId: string, deadline: Option<nat>,
                         questionnaireId: string, submissionId: string, now: nat): (e: Effect<Db, string>)
    requires questionnaireId != "" && questionnaireId !in db.questionnaires
    requires submissionId != "" && submissionId !in db.submissions
    ensures templateId == "" ==>
              e == Effect(db, Err("Failed to create questionnaire request: " + Firestore.InvalidReference))
    ensures templateId != "" && templateId !in db.templates ==>
              e == Effect(db, Err("Failed to create questionnaire request: Template not found"))
    ensures e.result.Ok? <==> templateId != "" && templateId in db.templates && supplierId != "" && supplierId in db.suppliers
    ensures e.result.Ok? ==> e.result.value == questionnaireId
    ensures templateId != "" && templateId in db.templates ==>
              && e.store.questionnaires == db.questionnaires[questionnaireId :=
                   QuestionnaireDoc(db.templates[templateId], templateId, supplierId, now, deadline, "pending")]
              && e.store.submissions == db.submissions[submissionId := InitialSubmission(questionnaireId, supplierId, now)]
    ensures e.result.Ok? ==>
              && e.store.suppliers.Keys == db.suppliers.Keys
              && e.store.suppliers[supplierId] == db.suppliers[supplierId].(
                   pendingRequests := NextPending(Some(db.suppliers[supplierId].pendingRequests)), lastUpdated := now)
    ensures e.result.Err? ==> e.store.suppliers == db.suppliers
    ensures forall k :: k in db.suppliers && k != supplierId ==> k in e.store.suppliers && e.store.suppliers[k] == db.suppliers[k]
    ensures e.store.templates == db.templates
  {
    if templateId == "" then Effect(db, Err("Failed to create questionnaire request: " + Firestore.InvalidReference))
    else if templateId !in db.templates then Effect(db, Err("Failed to create questionnaire request: Template not found"))
    else
      var questionnaire := QuestionnaireDoc(db.templates[templateId], templateId, supplierId, now, deadline, "pending");
      var written := db.(questionnaires := db.questionnaires[questionnaireId := questionnaire],
                         submissions := db.submissions[submissionId := InitialSubmission(questionnaireId, supplierId, now)]);
      if supplierId == "" then
        Effect(written, Err("Failed to create questionnaire request: " + Firestore.InvalidReference))
      else if supplierId !in db.suppliers then
        Effect(written, Err("Failed to create questionnaire request: " + Firestore.UpdateMissing))
      else
        var d := db.suppliers[supplierId];
        var counted := d.(pendingRequests := NextPending(Some(d.pendingRequests)), lastUpdated := now);
        Effect(written.(suppliers := db.suppliers[supplierId := counted]), Ok(questionnaireId))
  }

  /** Each successful request raises a non-negative pending count by one. */
  lemma RequestCountsPending(db: Db, supplierId: string, templateId: string, deadline: Option<nat>,
                             questionnaireId: string, submissionId: string, now: nat)
    requires questionnaireId != "" && questionnaireId !in db.questionnaires
    requires submissionId != "" && submissionId !in db.submissions
    requires supplierId in db.suppliers && db.suppliers[supplierId].pendingRequests >= 0
    ensures var e := CreateRequest(db, supplierId, templateId, deadline, questionnaireId, submissionId, now);
            e.result.Ok? ==> e.store.suppliers[supplierId].pendingRequests == db.suppliers[supplierId].pendingRequests + 1
  {
  }

  /** The new request's submission is the one a lookup finds for it. */
  lemma CreatedSubmissionIsFound(db: Db, supplierId: string, templateId: string, deadline: Option<nat>,
                                 questionnaireId: string, submissionId: string, now: nat)
    requires questionnaireId != "" && questionnaireId !in db.questionnaires
    requires submissionId != "" && submissionId !in db.submissions
    requires templateId != "" && templateId in db.templates
    requires forall k :: k in db.submissions ==> db.submissions[k].questionnaireId in db.questionnaires
    ensures var s := CreateRequest(db, supplierId, templateId, deadline, questionnaireId, submissionId, now).store.submissions;
            forall k :: k in s && Matches(s[k], questionnaireId, supplierId) <==> k == submissionId
  {
  }

  // ----- the lookup -------------------------------------------------------

  predicate Matches(s: Submission, questionnaireId: string, supplierId: string) {
    s.questionnaireId == questionnaireId && s.supplierId == supplierId
  }

  /** `getQuestionnaireSubmission`: the first match in document-id order,
      or nothing when no submission matches. */
  method GetSubmission(db: Db, questionnaireId: string, supplierId: string) returns (r: Option<(string, Submission)>)
    ensures r.None? <==> forall k :: k in db.submissions ==> !Matches(db.submissions[k], questionnaireId, supplierId)
    ensures r.Some? ==> r.value.0 in db.submissions && r.value.1 == db.submissions[r.value.0]
                        && Matches(r.value.1, questionnaireId, supplierId)
    ensures r.Some? ==> forall k :: k in db.submissions && Matches(db.submissions[k], questionnaireId, supplierId) ==>
                          Listing.LexLe(r.value.0, k)
  {
    r := Listing.First(db.submissions, (s: Submission) => Matches(s, questionnaireId, supplierId));
  }

  // ----- updates to a submission -------------------------------------------

  /** `updateSubmissionStatus`: the submission time is set exactly when the
      new status is `submitted`, and the comment only when one is given. */
  function UpdateStatus(db: Db, submissionId: string, status: Status, comment: Option<string>, now: nat)
    : (e: Effect<Db, ()>)
    requires IsSubmissionStatus(status)
    ensures e.result.Ok? <==> submissionId != "" && submissionId in db.submissions
    ensures e.result.Err? ==> e.store == db
    ensures submissionId == "" ==> e.result == Err("Failed to update submission status: " + Firestore.InvalidReference)
    ensures submissionId != "" && submissionId !in db.submissions ==>
              e.result == Err("Failed to update submission status: " + Firestore.UpdateMissing)
    ensures e.result.Ok? ==>
              var before := db.submissions[submissionId];
              && e.store.submissions.Keys == db.submissions.Keys
              && e.store.submissions[submissionId] == before.(
                   status := status,
                   lastUpdated := now,
                   submittedAt := if status == Submitted then Some(now) else before.submittedAt,
                   statusComment := if Truthy(comment) then comment else before.statusComment)
    ensures forall k :: k in db.submissions && k != submissionId ==> k in e.store.submissions && e.store.submissions[k] == db.submissions[k]
  {
    if submissionId == "" then Effect(db, Err("Failed to update submission status: " + Firestore.InvalidReference))
    else if submissionId !in db.submissions then Effect(db, Err("Failed to update submission status: " + Firestore.UpdateMissing))
    else
      var before := db.submissions[submissionId];
      var after := before.(status := status, lastUpdated := now,
                           submittedAt := if status == Submitted then Some(now) else before.submittedAt,
                           statusComment := if Truthy(comment) then comment else before.statusComment);
      Effect(db.(submissions := db.submissions[submissionId := after]), Ok(()))
  }

  /** Approving or rejecting keeps the time the submission was submitted,
      and an empty comment keeps the previous one. */
  lemma ReviewKeepsSubmissionTime(db: Db, submissionId: string, t1: nat, status: Status, t2: nat)
    requires submissionId != "" && submissionId in db.submissions
    requires IsSubmissionStatus(status) && status != Submitted
    ensures var s1 := UpdateStatus(db, submissionId, Submitted, None, t1).store;
            var s2 := UpdateStatus(s1, submissionId, status, Some(""), t2).store;
            && s2.submissions[submissionId].submittedAt == Some(t1)
            && s2.submissions[submissionId].statusComment == db.submissions[submissionId].statusComment
            && s2.submissions[submissionId].status == status
  {
  }

  /** `addDocumentToSubmission`: the document, stamped now, goes after the
      existing ones. A missing submission fails. */
  function AddDocument(db: Db, submissionId: string, document: DocumentSubmission, now: nat): (e: Effect<Db, ()>)
    ensures e.result.Ok? <==> submissionId != "" && submissionId in db.submissions
    ensures e.result.Err? ==> e.store == db
    ensures submissionId == "" ==> e.result == Err("Failed to add document to submission: " + Firestore.InvalidReference)
    ensures submissionId != "" && submissionId !in db.submissions ==>
              e.result == Err("Failed to add document to submission: Submission not found")
    ensures e.result.Ok? ==>
              var before := db.submissions[submissionId].documents;
              && submissionId in e.store.submissions
              && var after := e.store.submissions[submissionId].documents;
              && |after| == |before| + 1
              && after[..|before|] == before
              && after[|before|] == document.(uploadedAt := now)
              && e.store.submissions[submissionId].lastUpdated == now
    ensures forall k :: k in db.submissions && k != submissionId ==> k in e.store.submissions && e.store.submissions[k] == db.submissions[k]
  {
    if submissionId == "" then Effect(db, Err("Failed to add document to submission: " + Firestore.InvalidReference))
    else if submissionId !in db.submissions then Effect(db, Err("Failed to add document to submission: Submission not found"))
    else
      var s := db.submissions[submissionId];
      var after := s.(documents := s.documents + [document.(uploadedAt := now)], lastUpdated := now);
      Effect(db.(submissions := db.submissions[submissionId := after]), Ok(()))
  }

  /** Two uploads leave both documents, in upload order, after the earlier
      ones. */
  lemma TwoUploadsInOrder(db: Db, submissionId: string, a: DocumentSubmission, t1: nat, b: DocumentSubmission, t2: nat)
    requires submissionId != "" && submissionId in db.submissions
    ensures var s := AddDocument(AddDocument(db, submissionId, a, t1).store, submissionId, b, t2).store;
            s.submissions[submissionId].documents
              == db.submissions[submissionId].documents + [a.(uploadedAt := t1), b.(uploadedAt := t2)]
  {
  }

  /** `updateSubmissionAnswers`: the answers and the completion rate are
      replaced as given. */
  function UpdateAnswers(db: Db, submissionId: string, answers: map<string, Value>, completionRate: real, now: nat)
    : (e: Effect<Db, ()>)
    ensures e.result.Ok? <==> submissionId != "" && submissionId in db.submissions
    ensures e.result.Err? ==> e.store == db
    ensures submissionId == "" ==> e.result == Err("Failed to update submission answers: " + Firestore.InvalidReference)
    ensures submissionId != "" && submissionId !in db.submissions ==>
              e.result == Err("Failed to update submission answers: " + Firestore.UpdateMissing)
    ensures e.result.Ok? ==>
              && e.store.submissions.Keys == db.submissions.Keys
              && e.store.submissions[submissionId].answers == answers
              && e.store.submissions[submissionId].completionRate == completionRate
              && e.store.submissions[submissionId].status == db.submissions[submissionId].status
              && e.store.submissions[submissionId].documents == db.submissions[submissionId].documents
    ensures forall k :: k in db.submissions && k != submissionId ==> k in e.store.submissions && e.store.submissions[k] == db.submissions[k]
  {
    if submissionId == "" then Effect(db, Err("Failed to update submission answers: " + Firestore.InvalidReference))
    else if submissionId !in db.submissions then Effect(db, Err("Failed to update submission answers: " + Firestore.UpdateMissing))
    else
      var s := db.submissions[submissionId];
      var after := s.(answers := answers, completionRate := completionRate, lastUpdated := now);
      Effect(db.(submissions := db.submissions[submissionId := after]), Ok(()))
  }

  /** The answers are replaced, not merged: the later of two updates is
      all that remains. */
  lemma LastAnswersWin(db: Db, submissionId: string, a1: map<string, Value>, r1: real, t1: nat,
                       a2: map<string, Value>, r2: real, t2: nat)
    ensures UpdateAnswers(UpdateAnswers(db, submissionId, a1, r1, t1).store, submissionId, a2, r2, t2)
            == UpdateAnswers(db, submissionId, a2, r2, t2)
  {
    if submissionId != "" && submissionId in db.submissions {
      var s := db.submissions[submissionId];
      var m1 := UpdateAnswers(db, submissionId, a1, r1, t1).store.submissions;
      assert m1 == db.submissions[submissionId := s.(answers := a1, completionRate := r1, lastUpdated := t1)];
      assert m1[submissionId := m1[submissionId].(answers := a2, completionRate := r2, lastUpdated := t2)]
             == db.submissions[submissionId := s.(answers := a2, completionRate := r2, lastUpdated := t2)];
    }
  }
}

=== FILE: supplier_questions_form.dfy ===
/** The supplier questionnaire shown at sign-up: the questions an invite's
    tags select, their initial (blank) answers, and the required-answer
    check that decides whether the answers are handed on.
 */
module SupplierQuestionsForm {

  import opened Wrappers
  import Text

  /** The part of a question bank entry the form looks at. */
  datatype FormQuestion = FormQuestion(id: string, required: bool)

  /** The loaded questions and the answers typed so far, by question id. */
  datatype FormState = FormState(questions: seq<FormQuestion>, answers: map<string, string>)

  /** The state before anything is loaded. */
  const Blank := FormState([], map[])

  const RequiredMessage := "This question requires an answer"

  predicate Asks(qs: seq<FormQuestion>, id: string) {
    exists i :: 0 <= i < |qs| && qs[i].id == id
  }

  /** One blank answer per loaded question. */
  function InitialAnswers(qs: seq<FormQuestion>): (m: map<string, string>)
    ensures forall id :: id in m <==> Asks(qs, id)
    ensures forall id :: id in m ==> m[id] == ""
  {
    if |qs| == 0 then map[]
    else
      var init := InitialAnswers(qs[..|qs| - 1]);
      assert forall id :: Asks(qs, id) <==> Asks(qs[..|qs| - 1], id) || qs[|qs| - 1].id == id by {
        forall id | Asks(qs, id) && qs[|qs| - 1].id != id
          ensures Asks(qs[..|qs| - 1], id)
        {
          var i :| 0 <= i < |qs| && qs[i].id == id;
          assert qs[..|qs| - 1][i].id == id;
        }
        forall id | Asks(qs[..|qs| - 1], id)
          ensures Asks(qs, id)
        {
          var i :| 0 <= i < |qs| - 1 && qs[..|qs| - 1][i].id == id;
          assert qs[i].id == id;
        }
      }
      init[qs[|qs| - 1].id := ""]
  }

  /** Loading: an invite without tags (missing or empty) loads nothing and
      leaves the form blank; otherwise the fetched questions are shown with
      a blank answer each. */
  function Load(tags: Option<seq<string>>, fetched: seq<FormQuestion>): (s: FormState)
    ensures (tags.None? || |tags.value| == 0) ==> s == Blank
    ensures tags.Some? && |tags.value| > 0 ==>
              && s.questions == fetched
              && (forall id :: id in s.answers <==> Asks(fetched, id))
              && (forall id :: id in s.answers ==> s.answers[id] == "")
  {
    if tags.None? || |tags.value| == 0 then Blank
    else FormState(fetched, InitialAnswers(fetched))
  }

  /** A required question whose answer is missing or blank after trimming. */
  predicate Unanswered(q: FormQuestion, answers: map<string, string>) {
    q.required && (q.id !in answers || Text.Trim(answers[q.id]) == "")
  }

  /** The error map the submit check builds, one entry per unanswered
      required question. */
  function Errors(qs: seq<FormQuestion>, answers: map<string, string>): (errs: map<string, string>)
    ensures forall id :: id in errs <==> exists i :: 0 <= i < |qs| && qs[i].id == id && Unanswered(qs[i], answers)
    ensures forall id :: id in errs ==> errs[id] == RequiredMessage
  {
    if |qs| == 0 then map[]
    else
      var front := qs[..|qs| - 1];
      var last := qs[|qs| - 1];
      var before := Errors(front, answers);
      assert forall i :: 0 <= i < |front| ==> front[i] == qs[i];
      if Unanswered(last, answers) then before[last.id := RequiredMessage] else before
  }

  /** What submitting does: report the errors, or hand the answers on. */
  datatype Outcome = Rejected(errors: map<string, string>) | Completed(answers: map<string, string>)

  function Submit(s: FormState): (o: Outcome)
    ensures o.Completed? <==> forall i :: 0 <= i < |s.questions| ==> !Unanswered(s.questions[i], s.answers)
    ensures o.Completed? ==> o.answers == s.answers
    ensures o.Rejected? ==> |o.errors| > 0 && o.errors == Errors(s.questions, s.answers)
  {
    var errs := Errors(s.questions, s.answers);
    if |errs| > 0 then Rejected(errs)
    else
      assert forall i :: 0 <= i < |s.questions| ==> s.questions[i].id !in errs;
      Completed(s.answers)
  }

  /** A question nobody is required to answer never gets an error. */
  lemma OptionalNeverFlagged(qs: seq<FormQuestion>, answers: map<string, string>, id: string)
    requires forall i :: 0 <= i < |qs| && qs[i].id == id ==> !qs[i].required
    ensures id !in Errors(qs, answers)
  {
  }

  /** Every loaded question starts with a blank answer. */
  lemma LoadedBlank(tags: seq<string>, fetched: seq<FormQuestion>, i: int)
    requires |tags| > 0 && 0 <= i < |fetched|
    ensures var s := Load(Some(tags), fetched);
            fetched[i].id in s.answers && s.answers[fetched[i].id] == ""
  {
    assert Asks(fetched, fetched[i].id);
  }

  /** A blank answer to a required question counts as unanswered. */
  lemma BlankIsUnanswered(q: FormQuestion, answers: map<string, string>)
    requires q.required && q.id in answers && answers[q.id] == ""
    ensures Unanswered(q, answers)
  {
    assert Text.AllSpace(answers[q.id]);
  }

  /** An unanswered required question is in the error map. */
  lemma Flagged(qs: seq<FormQuestion>, answers: map<string, string>, i: int)
    requires 0 <= i < |qs| && Unanswered(qs[i], answers)
    ensures qs[i].id in Errors(qs, answers)
  {
  }

  /** A freshly loaded form with a required question cannot be submitted
      until that question is answered. */
  lemma {:induction false} FreshFormRejectsRequired(tags: seq<string>, fetched: seq<FormQuestion>, i: int)
    requires |tags| > 0 && 0 <= i < |fetched| && fetched[i].required
    ensures Submit(Load(Some(tags), fetched)).Rejected?
    ensures fetched[i].id in Submit(Load(Some(tags), fetched)).errors
  {
    var s := Load(Some(tags), fetched);
    assert s.questions == fetched;
    LoadedBlank(tags, fetched, i);
    BlankIsUnanswered(fetched[i], s.answers);
    Flagged(fetched, s.answers, i);
    var o := Submit(s);
    assert !o.Completed?;
  }

  /** A form whose questions are all optional submits straight away. */
  lemma AllOptionalCompletes(s: FormState)
    requires forall i :: 0 <= i < |s.questions| ==> !s.questions[i].required
    ensures Submit(s) == Completed(s.answers)
  {
  }
}

=== FILE: suppliers.dfy ===
/** Suppliers: the record and its schema, the conversion to and from the
    stored document, and the service operations over the `suppliers`
    collection.
 */
module Suppliers {

  import opened Wrappers
  import Listing
  import Firestore
  import Zod

  /** The invitation states a supplier (or customer company) goes through. */
  datatype InvitationStatus = PendingInvitation | InvitationSent | Registered | Active | Inactive

  /** One compliance measurement; the score is a percentage. */
  datatype ComplianceRecord = ComplianceRecord(date: nat, score: int, category: string)

  /** A supplier as the application sees it (the id is kept apart). */
  datatype Supplier = Supplier(
    name: string,
    taskProgress: int,
    primaryContact: string,
    status: InvitationStatus,
    complianceScore: Option<int>,
    lastUpdated: nat,
    contactName: string,
    invitationSentDate: Option<nat>,
    registrationDate: Option<nat>,
    lastLoginDate: Option<nat>,
    pendingRequests: int,
    completedRequests: int,
    tags: seq<string>,
    notes: Option<string>,
    complianceHistory: seq<ComplianceRecord>)

  /** The stored document. `None` is a field that is null or missing. */
  datatype StoredSupplier = StoredSupplier(
    name: string,
    taskProgress: int,
    primaryContact: string,
    status: InvitationStatus,
    complianceScore: Option<int>,
    lastUpdated: nat,
    contactName: string,
    invitationSentDate: Option<nat>,
    registrationDate: Option<nat>,
    lastLoginDate: Option<nat>,
    pendingRequests: int,
    completedRequests: int,
    tags: Option<seq<string>>,
    notes: Option<string>,
    complianceHistory: Option<seq<ComplianceRecord>>)

  /** The `suppliers` collection. */
  type Db = map<string, StoredSupplier>

  // ----- schema -----------------------------------------------------------

  /** A percentage as the schema bounds it. */
  predicate Percent(n: int) {
    0 <= n <= 100
  }

  /** `ComplianceRecordSchema`. */
  predicate ValidRecord(r: ComplianceRecord) {
    Percent(r.score)
  }

  /** `SupplierSchema` once defaults are applied; `emailOk` is zod's
      verdict on an address. */
  predicate ValidSupplier(s: Supplier, emailOk: string -> bool) {
    && |s.name| >= 1
    && Percent(s.taskProgress)
    && Zod.Email(emailOk, s.primaryContact)
    && (s.complianceScore.Some? ==> Percent(s.complianceScore.value))
    && |s.contactName| >= 1
    && forall i :: 0 <= i < |s.complianceHistory| ==> ValidRecord(s.complianceHistory[i])
  }

  /** A supplier as parsed before defaults: counters and lists may be absent. */
  datatype SupplierInput = SupplierInput(
    name: string,
    taskProgress: int,
    primaryContact: string,
    status: InvitationStatus,
    complianceScore: Option<int>,
    lastUpdated: nat,
    contactName: string,
    invitationSentDate: Option<nat>,
    registrationDate: Option<nat>,
    lastLoginDate: Option<nat>,
    pendingRequests: Option<int>,
    completedRequests: Option<int>,
    tags: Option<seq<string>>,
    notes: Option<string>,
    complianceHistory: Option<seq<ComplianceRecord>>)

  function Defaults(i: SupplierInput): Supplier {
    Supplier(i.name, i.taskProgress, i.primaryContact, i.status, i.complianceScore, i.lastUpdated,
             i.contactName, i.invitationSentDate, i.registrationDate, i.lastLoginDate,
             i.pendingRequests.GetOr(0), i.completedRequests.GetOr(0), i.tags.GetOr([]), i.notes,
             i.complianceHistory.GetOr([]))
  }

  /** Parsing with `SupplierSchema`: counters default to 0 and lists to
      empty; the result is a supplier the schema accepts, or nothing. */
  function ParseSupplier(i: SupplierInput, emailOk: string -> bool): (r: Option<Supplier>)
    ensures r.Some? ==> ValidSupplier(r.value, emailOk)
    ensures r.Some? ==> && r.value.name == i.name && r.value.taskProgress == i.taskProgress
                        && r.value.primaryContact == i.primaryContact && r.value.status == i.status
                        && r.value.complianceScore == i.complianceScore && r.value.lastUpdated == i.lastUpdated
                        && r.value.contactName == i.contactName
                        && r.value.invitationSentDate == i.invitationSentDate
                        && r.value.registrationDate == i.registrationDate
                        && r.value.lastLoginDate == i.lastLoginDate && r.value.notes == i.notes
    ensures r.Some? ==> && r.value.pendingRequests == i.pendingRequests.GetOr(0)
                        && r.value.completedRequests == i.completedRequests.GetOr(0)
                        && r.value.tags == i.tags.GetOr([])
                        && r.value.complianceHistory == i.complianceHistory.GetOr([])
    ensures r.None? <==>
              i.name == "" || i.contactName == "" || !Percent(i.taskProgress)
              || !Zod.Email(emailOk, i.primaryContact)
              || (i.complianceScore.Some? && !Percent(i.complianceScore.value))
              || exists k :: 0 <= k < |i.complianceHistory.GetOr([])| && !ValidRecord(i.complianceHistory.GetOr([])[k])
  {
    var s := Defaults(i);
    if ValidSupplier(s, emailOk) then Some(s) else None
  }

  /** The invitation form's record. */
  datatype SupplierInvite = SupplierInvite(name: string, contactName: string, primaryContact: string, notes: Option<string>)

  /** Parsing with `SupplierInviteSchema`: both names are required and the
      contact must pass the e-mail check (`emailOk` is zod's verdict). */
  function ParseInvite(name: string, contactName: string, primaryContact: string, notes: Option<string>,
                       emailOk: string -> bool)
    : (r: Option<SupplierInvite>)
    ensures r.Some? <==> name != "" && contactName != "" && Zod.Email(emailOk, primaryContact)
    ensures r.Some? ==> r.value == SupplierInvite(name, contactName, primaryContact, notes)
    ensures primaryContact == "" ==> r.None?
  {
    if name == "" || contactName == "" || !Zod.Email(emailOk, primaryContact) then None
    else Some(SupplierInvite(name, contactName, primaryContact, notes))
  }

  // ----- conversion -------------------------------------------------------

  /** `convertToFirestoreData`: absent dates are written as null and the
      lists are always written. */
  function ToStore(s: Supplier): (d: StoredSupplier)
    ensures d.tags == Some(s.tags) && d.complianceHistory == Some(s.complianceHistory)
    ensures d.invitationSentDate == s.invitationSentDate && d.registrationDate == s.registrationDate
            && d.lastLoginDate == s.lastLoginDate
  {
    StoredSupplier(s.name, s.taskProgress, s.primaryContact, s.status, s.complianceScore, s.lastUpdated,
                   s.contactName, s.invitationSentDate, s.registrationDate, s.lastLoginDate,
                   s.pendingRequests, s.completedRequests, Some(s.tags), s.notes, Some(s.complianceHistory))
  }

  /** `convertFromFirestoreData` of the supplier service: missing tags and
      a missing history read as empty. */
  function FromStore(d: StoredSupplier): (s: Supplier)
    ensures s.tags == d.tags.GetOr([]) && s.complianceHistory == d.complianceHistory.GetOr([])
    ensures d.tags.None? ==> s.tags == []
    ensures d.complianceHistory.None? ==> s.complianceHistory == []
  {
    Supplier(d.name, d.taskProgress, d.primaryContact, d.status, d.complianceScore, d.lastUpdated,
             d.contactName, d.invitationSentDate, d.registrationDate, d.lastLoginDate,
             d.pendingRequests, d.completedRequests, d.tags.GetOr([]), d.notes, d.complianceHistory.GetOr([]))
  }

  /** Writing a supplier and reading it back gives the same supplier. */
  lemma RoundTrip(s: Supplier)
    ensures FromStore(ToStore(s)) == s
  {
  }

  /** Reading a document and writing it back only fills in the lists. */
  lemma StoreRoundTrip(d: StoredSupplier)
    ensures ToStore(FromStore(d)) == d.(tags := Some(d.tags.GetOr([])),
                                        complianceHistory := Some(d.complianceHistory.GetOr([])))
    ensures d.tags.Some? && d.complianceHistory.Some? ==> ToStore(FromStore(d)) == d
  {
  }

  // ----- the service ------------------------------------------------------

  /** `addSupplier`: the record is stored under a fresh id and returned as
      given. */
  function AddSupplier(db: Db, s: Supplier, newId: string): (e: Effect<Db, (string, Supplier)>)
    requires newId != "" && newId !in db
    ensures e.result == Ok((newId, s))
    ensures e.store == db[newId := ToStore(s)]
  {
    Effect(db[newId := ToStore(s)], Ok((newId, s)))
  }

  /** `getSupplier`. */
  function GetSupplier(db: Db, id: string): (r: Result<Supplier>)
    ensures r.Ok? <==> id != "" && id in db
    ensures id == "" ==> r == Err("Failed to fetch supplier: " + Firestore.InvalidReference)
    ensures id != "" && id !in db ==> r == Err("Failed to fetch supplier: Supplier not found")
  {
    if id == "" then Err("Failed to fetch supplier: " + Firestore.InvalidReference)
    else if id !in db then Err("Failed to fetch supplier: Supplier not found")
    else Ok(FromStore(db[id]))
  }

  /** A supplier that was added reads back exactly as it was given. */
  lemma AddThenGet(db: Db, s: Supplier, newId: string)
    requires newId != "" && newId !in db
    ensures GetSupplier(AddSupplier(db, s, newId).store, newId) == Ok(s)
  {
    RoundTrip(s);
  }

  /** `orderBy('lastUpdated', 'desc')`. */
  predicate NewestFirst(a: StoredSupplier, b: StoredSupplier) {
    a.lastUpdated >= b.lastUpdated
  }

  lemma NewestFirstIsPreorder()
    ensures Listing.Preorder(NewestFirst)
  {
  }

  /** `getSuppliers`: every supplier once, read with `FromStore`, most
      recently updated first. */
  method GetSuppliers(db: Db) returns (r: seq<(string, Supplier)>)
    ensures forall i :: 0 <= i < |r| ==> r[i].0 in db && r[i].1 == FromStore(db[r[i].0])
    ensures forall id :: id in db ==> exists i :: 0 <= i < |r| && r[i].0 == id
    ensures forall i, j :: 0 <= i < j < |r| ==> r[i].0 != r[j].0
    ensures forall i, j :: 0 <= i < j < |r| ==> r[i].1.lastUpdated >= r[j].1.lastUpdated
  {
    NewestFirstIsPreorder();
    var docs := Listing.Query(db, (d: StoredSupplier) => true, NewestFirst, true);
    r := seq(|docs|, i requires 0 <= i < |docs| => (docs[i].0, FromStore(docs[i].1)));
    forall id | id in db
      ensures exists i :: 0 <= i < |r| && r[i].0 == id
    {
      var i :| 0 <= i < |docs| && docs[i].0 == id;
      assert r[i].0 == id;
    }
    forall i, j | 0 <= i < j < |r|
      ensures r[i].1.lastUpdated >= r[j].1.lastUpdated
    {
      assert r[i].1 == FromStore(docs[i].1) && r[j].1 == FromStore(docs[j].1);
      assert Listing.OnDocs(NewestFirst)(docs[i], docs[j]);
    }
  }

  /** A partial update: each present field is written, the others are not
      touched. Dates are written as timestamps, which the model does not
      distinguish. */
  datatype SupplierPatch = SupplierPatch(
    name: Option<string>,
    taskProgress: Option<int>,
    primaryContact: Option<string>,
    status: Option<InvitationStatus>,
    complianceScore: Option<int>,
    lastUpdated: Option<nat>,
    contactName: Option<string>,
    invitationSentDate: Option<nat>,
    registrationDate: Option<nat>,
    lastLoginDate: Option<nat>,
    pendingRequests: Option<int>,
    completedRequests: Option<int>,
    tags: Option<seq<string>>,
    notes: Option<string>,
    complianceHistory: Option<seq<ComplianceRecord>>)

  const NoChanges: SupplierPatch :=
    SupplierPatch(None, None, None, None, None, None, None, None, None, None, None, None, None, None, None)

  /** A present field replaces the stored one; for a field the document
      may lack, the new value is present afterwards. */
  function Pick<T>(p: Option<T>, current: T): T {
    if p.Some? then p.value else current
  }

  function PickSome<T>(p: Option<T>, current: Option<T>): Option<T> {
    if p.Some? then p else current
  }

  /** The `updateDoc` of `updateSupplier` on the stored document. */
  function ApplyPatch(d: StoredSupplier, p: SupplierPatch): (r: StoredSupplier)
    ensures p == NoChanges ==> r == d
    ensures p.tags.Some? ==> r.tags == p.tags
    ensures p.complianceHistory.Some? ==> r.complianceHistory == p.complianceHistory
  {
    StoredSupplier(Pick(p.name, d.name), Pick(p.taskProgress, d.taskProgress),
                   Pick(p.primaryContact, d.primaryContact), Pick(p.status, d.status),
                   PickSome(p.complianceScore, d.complianceScore), Pick(p.lastUpdated, d.lastUpdated),
                   Pick(p.contactName, d.contactName), PickSome(p.invitationSentDate, d.invitationSentDate),
                   PickSome(p.registrationDate, d.registrationDate), PickSome(p.lastLoginDate, d.lastLoginDate),
                   Pick(p.pendingRequests, d.pendingRequests), Pick(p.completedRequests, d.completedRequests),
                   PickSome(p.tags, d.tags), PickSome(p.notes, d.notes),
                   PickSome(p.complianceHistory, d.complianceHistory))
  }

  /** `{ ...supplier, ...updates }` on the application's record: the update
      as the caller means it. */
  function PatchSupplier(s: Supplier, p: SupplierPatch): Supplier {
    Supplier(Pick(p.name, s.name), Pick(p.taskProgress, s.taskProgress),
             Pick(p.primaryContact, s.primaryContact), Pick(p.status, s.status),
             PickSome(p.complianceScore, s.complianceScore), Pick(p.lastUpdated, s.lastUpdated),
             Pick(p.contactName, s.contactName), PickSome(p.invitationSentDate, s.invitationSentDate),
             PickSome(p.registrationDate, s.registrationDate), PickSome(p.lastLoginDate, s.lastLoginDate),
             Pick(p.pendingRequests, s.pendingRequests), Pick(p.completedRequests, s.completedRequests),
             Pick(p.tags, s.tags), PickSome(p.notes, s.notes),
             Pick(p.complianceHistory, s.complianceHistory))
  }

  /** Updating the stored document and reading it back is the same as
      reading it and applying the update to the record; applying the same
      update twice is applying it once. */
  lemma UpdateCommutes(d: StoredSupplier, p: SupplierPatch)
    ensures FromStore(ApplyPatch(d, p)) == PatchSupplier(FromStore(d), p)
    ensures ApplyPatch(ApplyPatch(d, p), p) == ApplyPatch(d, p)
  {
  }

  /** `updateSupplier`: a missing supplier fails and nothing is written;
      otherwise only the fields present in the update change. */
  function UpdateSupplier(db: Db, id: string, p: SupplierPatch): (e: Effect<Db, ()>)
    ensures e.result.Ok? <==> id != "" && id in db
    ensures e.result.Err? ==> e.store == db
    ensures id == "" ==> e.result == Err("Failed to update supplier: " + Firestore.InvalidReference)
    ensures id != "" && id !in db ==> e.result == Err("Failed to update supplier: " + Firestore.UpdateMissing)
    ensures e.result.Ok? ==> e.store.Keys == db.Keys
    ensures e.result.Ok? ==> id in e.store && FromStore(e.store[id]) == PatchSupplier(FromStore(db[id]), p)
    ensures forall k :: k in db && k != id ==> k in e.store && e.store[k] == db[k]
  {
    if id == "" then Effect(db, Err("Failed to update supplier: " + Firestore.InvalidReference))
    else if id !in db then Effect(db, Err("Failed to update supplier: " + Firestore.UpdateMissing))
    else
      UpdateCommutes(db[id], p);
      Effect(db[id := ApplyPatch(db[id], p)], Ok(()))
  }
}

=== FILE: tag_selector.dfy ===
/** The tag picker of the question bank: a searchable dropdown of the tags
    not yet chosen, and the chosen tags shown as removable chips.
 */
module TagSelector {

  import Seqs
  import Text

  /** The part of a tag the picker uses. */
  datatype TagInfo = TagInfo(id: string, name: string)

  /** The search text occurs in the tag's name, ignoring (ASCII) case. */
  predicate NameMatches(t: TagInfo, search: string) {
    Text.Includes(Text.ToLower(t.name), Text.ToLower(search))
  }

  /** A tag is offered when it is not chosen yet and its name matches. */
  predicate Offered(selected: seq<string>, search: string, t: TagInfo) {
    t.id !in selected && NameMatches(t, search)
  }

  /** `filteredTags`: the dropdown's entries, in the order of the available
      tags. */
  function FilteredTags(available: seq<TagInfo>, selected: seq<string>, search: string): (r: seq<TagInfo>)
    ensures forall t :: t in r <==> t in available && t.id !in selected && NameMatches(t, search)
    ensures |r| <= |available|
  {
    Seqs.Filter(available, t => Offered(selected, search, t))
  }

  /** `handleTagSelect`: the chosen id goes at the end of the selection. */
  function Select(selected: seq<string>, id: string): (r: seq<string>)
    ensures |r| == |selected| + 1 && r[..|selected|] == selected && r[|selected|] == id
  {
    selected + [id]
  }

  /** `handleTagRemove`: every occurrence of the id leaves the selection,
      and nothing else does. */
  function Remove(selected: seq<string>, id: string): (r: seq<string>)
    ensures id !in r
    ensures forall x :: x != id ==> multiset(r)[x] == multiset(selected)[x]
  {
    Seqs.RemoveAll(selected, id)
  }

  predicate Chosen(selected: seq<string>, t: TagInfo) {
    t.id in selected
  }

  /** `selectedTags`: the chips, taken from the available tags in their
      order, so a selected id with no tag behind it shows nothing. */
  function SelectedTags(available: seq<TagInfo>, selected: seq<string>): (r: seq<TagInfo>)
    ensures forall t :: t in r <==> t in available && t.id in selected
    ensures |r| <= |available|
  {
    Seqs.Filter(available, t => Chosen(selected, t))
  }

  /** Every string contains the empty string. */
  lemma IncludesEmpty(s: string)
    ensures Text.Includes(s, "")
  {
    assert Text.OccursAt(s, "", 0);
  }

  /** With an empty search the dropdown holds exactly the unchosen tags. */
  lemma EmptySearchListsUnselected(available: seq<TagInfo>, selected: seq<string>)
    ensures forall t :: t in FilteredTags(available, selected, "") <==> t in available && t.id !in selected
  {
    assert Text.ToLower("") == "";
    forall t: TagInfo
      ensures NameMatches(t, "")
    {
      IncludesEmpty(Text.ToLower(t.name));
    }
  }

  /** A tag leaves the dropdown once chosen, and shows as a chip if it is
      one of the available tags. */
  lemma SelectMovesTag(available: seq<TagInfo>, selected: seq<string>, search: string, t: TagInfo)
    requires t in available
    ensures t !in FilteredTags(available, Select(selected, t.id), search)
    ensures t in SelectedTags(available, Select(selected, t.id))
  {
    assert Select(selected, t.id)[|selected|] == t.id;
  }

  /** Removing a just-chosen tag restores the previous selection. */
  lemma SelectThenRemove(selected: seq<string>, id: string)
    requires id !in selected
    ensures Remove(Select(selected, id), id) == selected
  {
    Seqs.RemoveAllAppend(selected, [id], id);
    assert Seqs.RemoveAll([id], id) == [];
  }

  /** The chips and the dropdown keep the available tags' order: splitting
      the available tags splits both lists the same way. */
  lemma {:induction false} ListsKeepOrder(a: seq<TagInfo>, b: seq<TagInfo>, selected: seq<string>, search: string)
    ensures SelectedTags(a + b, selected) == SelectedTags(a, selected) + SelectedTags(b, selected)
    ensures FilteredTags(a + b, selected, search) == FilteredTags(a, selected, search) + FilteredTags(b, selected, search)
  {
    Seqs.FilterAppend(a, b, t => Chosen(selected, t));
    Seqs.FilterAppend(a, b, t => Offered(selected, search, t));
  }

  /** A removed tag is offered again whenever its name matches. */
  lemma RemoveOffersTagAgain(available: seq<TagInfo>, selected: seq<string>, search: string, t: TagInfo)
    requires t in available && NameMatches(t, search)
    ensures t in FilteredTags(available, Remove(selected, t.id), search)
    ensures t !in SelectedTags(available, Remove(selected, t.id))
  {
  }
}

=== FILE: tags.dfy ===
/** The tag record shared by questions and the tag selector: its schema and
    the default colour a tag without one is given.
 */
module Tags {

  import opened Wrappers

  /** A tag: id, a name, a display colour and an optional description. */
  datatype Tag = Tag(id: string, name: string, color: string, description: Option<string>)

  predicate HexDigit(c: char) {
    '0' <= c <= '9' || 'a' <= c <= 'f' || 'A' <= c <= 'F'
  }

  /** The colour pattern `^#([A-Fa-f0-9]{6}|[A-Fa-f0-9]{3})$`: a '#' and
      then exactly three or exactly six hex digits, either case. */
  predicate ValidColor(c: string) {
    (|c| == 4 || |c| == 7) && c[0] == '#' && forall k :: 1 <= k < |c| ==> HexDigit(c[k])
  }

  const NameRequired := "Tag name is required"
  const BadColor := "Invalid color format"
  const DefaultColor := "#2E7D32"

  /** The schema's messages for a tag, name first; none means the tag
      passes the schema. */
  function Issues(t: Tag): (issues: seq<string>)
    ensures issues == [] <==> t.name != "" && ValidColor(t.color)
    ensures NameRequired in issues <==> t.name == ""
    ensures BadColor in issues <==> !ValidColor(t.color)
    ensures |issues| <= 2
  {
    (if t.name == "" then [NameRequired] else []) + (if ValidColor(t.color) then [] else [BadColor])
  }

  /** `ensureTagColor`: an empty colour becomes the default green; any other
      colour, valid or not, and every other field is kept. */
  function EnsureTagColor(t: Tag): (r: Tag)
    ensures t.color != "" ==> r == t
    ensures t.color == "" ==> r == t.(color := DefaultColor)
    ensures r.color != ""
  {
    t.(color := if t.color != "" then t.color else DefaultColor)
  }

  /** The default colour itself passes the colour pattern. */
  lemma DefaultColorValid()
    ensures ValidColor(DefaultColor)
  {
    assert DefaultColor == ['#', '2', 'E', '7', 'D', '3', '2'];
  }

  /** Filling in the colour repairs only a missing colour: a named tag whose
      colour is valid or empty passes the schema afterwards, a named tag with
      a malformed colour still fails on its colour, and a second fill-in
      changes nothing. */
  lemma {:induction false} EnsureTagColorRepairs(t: Tag)
    ensures t.name != "" && (t.color == "" || ValidColor(t.color)) ==> Issues(EnsureTagColor(t)) == []
    ensures t.color != "" && !ValidColor(t.color) ==> Issues(EnsureTagColor(t)) == Issues(t)
    ensures EnsureTagColor(EnsureTagColor(t)) == EnsureTagColor(t)
  {
    DefaultColorValid();
  }
}

=== FILE: template_editor.dfy ===
/** The template editor form: validation and saving, and the edits it makes
    to its list of sections and their questions.
 */
module TemplateEditor {

  import opened Wrappers
  import opened QuestionnaireTypes
  import Seqs
  import Text
  import Templates = QuestionnaireTemplates

  /** The form state: title, description, tags and the sections being edited. */
  datatype Form = Form(title: string, description: string, tags: seq<string>, sections: seq<Section>)

  /** The form a template opens with. */
  function FormOf(t: Template): (f: Form)
    ensures f.title == t.title && f.description == t.description
    ensures f.tags == t.tags && f.sections == t.sections
  {
    Form(t.title, t.description, t.tags, t.sections)
  }

  /** The sections expanded when a template opens:
      `[template.sections[0]?.id || '']`. */
  function ExpandedOnOpen(t: Template): (r: seq<string>)
    ensures |r| == 1
  {
    [if |t.sections| > 0 then t.sections[0].id else ""]
  }

  /** A template opens with its first section expanded and every section
      with another id collapsed. */
  lemma OnlyFirstSectionOpen(t: Template)
    requires |t.sections| > 0
    ensures t.sections[0].id in ExpandedOnOpen(t)
    ensures forall j :: 0 <= j < |t.sections| && t.sections[j].id != t.sections[0].id ==>
              t.sections[j].id !in ExpandedOnOpen(t)
    ensures ToggleSection(ExpandedOnOpen(t), t.sections[0].id) == []
  {
    assert multiset(ToggleSection(ExpandedOnOpen(t), t.sections[0].id)) == multiset{};
  }

  /** The result of pressing save: a field error shown in the form, or the
      store after the service call and the call's outcome. */
  datatype Outcome = FieldError(field: string, message: string) | Called(db: Templates.Db, result: Result<()>)

  /** The form checks, in order: a title that is not blank, then at least
      one section. */
  function Validate(f: Form): (r: Option<(string, string)>)
    ensures Text.Trim(f.title) == "" ==> r == Some(("title", "Title is required"))
    ensures Text.Trim(f.title) != "" && |f.sections| == 0 ==>
              r == Some(("sections", "At least one section is required"))
    ensures r.None? <==> Text.Trim(f.title) != "" && |f.sections| > 0
  {
    if Text.Trim(f.title) == "" then Some(("title", "Title is required"))
    else if |f.sections| == 0 then Some(("sections", "At least one section is required"))
    else None
  }

  /** The fields the editor sends when updating. */
  function UpdateOf(f: Form): Templates.TemplateUpdate {
    Templates.TemplateUpdate(Some(f.title), Some(f.description), Some(f.sections), Some(f.tags), None, None)
  }

  /** The fields the editor sends when creating. */
  function NewOf(f: Form): Templates.NewTemplate {
    Templates.NewTemplate(f.title, f.description, f.sections, f.tags, "current-user-id", false)
  }

  /** `handleSave`: validate, then update the template the editor was opened
      with (whatever its id is), or create a new one when it was opened
      without a template. */
  function Save(db: Templates.Db, f: Form, editing: Option<(string, Template)>,
                versionId: string, ids: Templates.NewIds, now: nat): (o: Outcome)
    requires versionId !in db.versions
    requires Templates.FreshIds(db, f.sections, ids)
    ensures Validate(f).Some? <==> o.FieldError?
    ensures o.FieldError? ==> (o.field, o.message) == Validate(f).value
    ensures o.Called? && editing.Some? ==>
              Templates.Update(db, editing.value.0, UpdateOf(f), "Updated template content", versionId, now)
                == Effect(o.db, o.result)
    ensures o.Called? && editing.None? ==>
              o.db == Templates.Create(db, NewOf(f), ids, now).store && o.result.Ok?
  {
    match Validate(f)
    case Some(err) => FieldError(err.0, err.1)
    case None =>
      if editing.Some? then
        var e := Templates.Update(db, editing.value.0, UpdateOf(f), "Updated template content", versionId, now);
        Called(e.store, e.result)
      else
        var e := Templates.Create(db, NewOf(f), ids, now);
        Called(e.store, Ok(()))
  }

  /** `handleSave` as evidently intended: a template without an id (a copy
      not yet stored) is created rather than updated. */
  function SaveFixed(db: Templates.Db, f: Form, editing: Option<(string, Template)>,
                     versionId: string, ids: Templates.NewIds, now: nat): (o: Outcome)
    requires versionId !in db.versions
    requires Templates.FreshIds(db, f.sections, ids)
    ensures Validate(f).Some? <==> o.FieldError?
    ensures o.Called? && editing.Some? && editing.value.0 != "" ==>
              o == Save(db, f, editing, versionId, ids, now)
    ensures o.Called? && (editing.None? || editing.value.0 == "") ==>
              o.db == Templates.Create(db, NewOf(f), ids, now).store && o.result.Ok?
  {
    if editing.Some? && editing.value.0 == "" then Save(db, f, None, versionId, ids, now)
    else Save(db, f, editing, versionId, ids, now)
  }

  // ----- section edits ----------------------------------------------------

  /** The editable fields of a section. */
  datatype SectionPatch = SectionPatch(title: Option<string>, description: Option<string>, questions: Option<seq<Question>>)

  function PatchSection(s: Section, p: SectionPatch): (r: Section)
    ensures r.id == s.id && r.order == s.order
    ensures r.title == p.title.GetOr(s.title) && r.questions == p.questions.GetOr(s.questions)
    ensures p.description.Some? ==> r.description == p.description
    ensures p.description.None? ==> r.description == s.description
  {
    s.(title := p.title.GetOr(s.title),
       description := if p.description.Some? then p.description else s.description,
       questions := p.questions.GetOr(s.questions))
  }

  /** `addSection`: one empty section at the end, ordered after the others,
      and expanded. */
  function AddSection(sections: seq<Section>, expanded: seq<string>, newId: string)
    : (r: (seq<Section>, seq<string>))
    ensures |r.0| == |sections| + 1 && r.0[..|sections|] == sections
    ensures var s := r.0[|sections|];
            s.id == newId && s.title == "" && s.description == Some("") && s.questions == [] && s.order == |sections|
    ensures r.1 == expanded + [newId]
  {
    (sections + [Section(newId, "", Some(""), [], |sections|)], expanded + [newId])
  }

  /** `updateSection`: patches the section at `index`; any other index
      (including one out of range) leaves the list as it was. */
  function UpdateSection(sections: seq<Section>, index: int, p: SectionPatch): (r: seq<Section>)
    ensures |r| == |sections|
    ensures forall k :: 0 <= k < |sections| && k != index ==> r[k] == sections[k]
    ensures 0 <= index < |sections| ==> r[index] == PatchSection(sections[index], p)
  {
    seq(|sections|, k requires 0 <= k < |sections| =>
      if k == index then PatchSection(sections[k], p) else sections[k])
  }

  /** `removeSection`: drops the section at `index` and keeps the others in
      their relative order with their `order` fields untouched. */
  function RemoveSection(sections: seq<Section>, index: int): (r: seq<Section>)
    ensures 0 <= index < |sections| ==> |r| == |sections| - 1
    ensures 0 <= index < |sections| ==> r == sections[..index] + sections[index + 1..]
    ensures !(0 <= index < |sections|) ==> r == sections
  {
    Seqs.RemoveAt(sections, index)
  }

  /** Removing a freshly added section restores the section list. */
  lemma AddThenRemoveSection(sections: seq<Section>, expanded: seq<string>, newId: string)
    ensures RemoveSection(AddSection(sections, expanded, newId).0, |sections|) == sections
  {
  }

  /** Each section's `order` set to its position. */
  function Renumber(sections: seq<Section>): (r: seq<Section>)
    ensures |r| == |sections|
    ensures forall k :: 0 <= k < |r| ==> r[k].order == k
    ensures forall k :: 0 <= k < |r| ==> r[k] == sections[k].(order := k)
  {
    seq(|sections|, k requires 0 <= k < |sections| => sections[k].(order := k))
  }

  datatype Direction = Up | Down

  /** Whether a move has nothing to do: up from the top, down from the bottom. */
  predicate MoveIsNoop(n: int, index: int, d: Direction) {
    (d == Up && index == 0) || (d == Down && index == n - 1)
  }

  /** `moveSection`: nothing at the ends; otherwise the section swaps with
      its neighbour in that direction and every section is renumbered to
      its new position. */
  function MoveSection(sections: seq<Section>, index: int, d: Direction): (r: seq<Section>)
    requires 0 <= index < |sections|
    ensures MoveIsNoop(|sections|, index, d) ==> r == sections
    ensures !MoveIsNoop(|sections|, index, d) ==>
              var target := if d == Up then index - 1 else index + 1;
              && |r| == |sections|
              && (forall k :: 0 <= k < |r| ==> r[k].order == k)
              && r[index] == sections[target].(order := index)
              && r[target] == sections[index].(order := target)
              && (forall k :: 0 <= k < |r| && k != index && k != target ==> r[k] == sections[k].(order := k))
  {
    if MoveIsNoop(|sections|, index, d) then sections
    else
      var target := if d == Up then index - 1 else index + 1;
      Renumber(Seqs.Swap(sections, index, target))
  }

  /** Moving a section down and then back up leaves every section where it
      was, renumbered. */
  lemma MoveDownThenUp(sections: seq<Section>, index: int)
    requires 0 <= index < |sections| - 1
    ensures MoveSection(MoveSection(sections, index, Down), index + 1, Up) == Renumber(sections)
  {
  }

  /** `toggleSection`: collapsing drops every copy of the id and keeps the
      other ids as often as before; expanding appends the id once at the end. */
  function ToggleSection(expanded: seq<string>, id: string): (r: seq<string>)
    ensures id in r <==> id !in expanded
    ensures forall other :: other != id ==> (other in r <==> other in expanded)
    ensures id !in expanded ==> r == expanded + [id]
    ensures id in expanded ==> forall other :: multiset(r)[other] == if other == id then 0 else multiset(expanded)[other]
  {
    Seqs.Toggle(expanded, id)
  }

  // ----- question edits ---------------------------------------------------

  /** The question `addQuestion` appends: short text, optional, untagged,
      with empty validation. */
  function BlankQuestion(id: string): Question {
    Question(id, "", ShortText, false, None, None, Some(NoValidation), [])
  }

  /** `addQuestion`: appends one blank question to the section at
      `sectionIndex` and changes nothing else. */
  function AddQuestion(sections: seq<Section>, sectionIndex: int, newId: string): (r: seq<Section>)
    requires 0 <= sectionIndex < |sections|
    ensures |r| == |sections|
    ensures forall k :: 0 <= k < |sections| && k != sectionIndex ==> r[k] == sections[k]
    ensures var s := sections[sectionIndex];
            r[sectionIndex] == s.(questions := s.questions + [BlankQuestion(newId)])
    ensures var q := r[sectionIndex].questions[|sections[sectionIndex].questions|];
            q.qtype == ShortText && !q.required && q.tags == []
  {
    var s := sections[sectionIndex];
    UpdateSection(sections, sectionIndex, SectionPatch(None, None, Some(s.questions + [BlankQuestion(newId)])))
  }

  /** The editable fields of a question. */
  datatype QuestionPatch = QuestionPatch(
    text: Option<string>,
    qtype: Option<QuestionType>,
    required: Option<bool>,
    description: Option<string>,
    options: Option<seq<QuestionOption>>,
    validation: Option<Validation>,
    tags: Option<seq<string>>)

  function PatchQuestion(q: Question, p: QuestionPatch): (r: Question)
    ensures r.id == q.id
    ensures r.text == p.text.GetOr(q.text) && r.qtype == p.qtype.GetOr(q.qtype)
    ensures r.required == p.required.GetOr(q.required) && r.tags == p.tags.GetOr(q.tags)
    ensures p.options.Some? ==> r.options == p.options
    ensures p.options.None? ==> r.options == q.options
  {
    q.(text := p.text.GetOr(q.text),
       qtype := p.qtype.GetOr(q.qtype),
       required := p.required.GetOr(q.required),
       description := if p.description.Some? then p.description else q.description,
       options := if p.options.Some? then p.options else q.options,
       validation := if p.validation.Some? then p.validation else q.validation,
       tags := p.tags.GetOr(q.tags))
  }

  /** `updateQuestion`: patches one question of one section and nothing else. */
  function UpdateQuestion(sections: seq<Section>, sectionIndex: int, questionIndex: int, p: QuestionPatch)
    : (r: seq<Section>)
    requires 0 <= sectionIndex < |sections|
    requires 0 <= questionIndex < |sections[sectionIndex].questions|
    ensures |r| == |sections|
    ensures forall k :: 0 <= k < |sections| && k != sectionIndex ==> r[k] == sections[k]
    ensures var qs := sections[sectionIndex].questions;
            && r[sectionIndex].(questions := qs) == sections[sectionIndex]
            && |r[sectionIndex].questions| == |qs|
            && r[sectionIndex].questions[questionIndex] == PatchQuestion(qs[questionIndex], p)
            && (forall j :: 0 <= j < |qs| && j != questionIndex ==> r[sectionIndex].questions[j] == qs[j])
  {
    var qs := sections[sectionIndex].questions;
    UpdateSection(sections, sectionIndex, SectionPatch(None, None, Some(qs[questionIndex := PatchQuestion(qs[questionIndex], p)])))
  }

  /** `removeQuestion`: deletes exactly one question of one section (none
      when the question index is past the end). */
  function RemoveQuestion(sections: seq<Section>, sectionIndex: int, questionIndex: nat): (r: seq<Section>)
    requires 0 <= sectionIndex < |sections|
    ensures |r| == |sections|
    ensures forall k :: 0 <= k < |sections| && k != sectionIndex ==> r[k] == sections[k]
    ensures var qs := sections[sectionIndex].questions;
            r[sectionIndex] == sections[sectionIndex].(questions := Seqs.RemoveAt(qs, questionIndex))
    ensures questionIndex < |sections[sectionIndex].questions| ==>
              QuestionCount(r) + 1 == QuestionCount(sections)
  {
    var qs := sections[sectionIndex].questions;
    var r := UpdateSection(sections, sectionIndex, SectionPatch(None, None, Some(Seqs.RemoveAt(qs, questionIndex))));
    QuestionCountUpdate(sections, sectionIndex, r);
    r
  }

  /** Replacing one section changes the question count by the difference in
      that section's questions. */
  lemma {:induction false} QuestionCountUpdate(sections: seq<Section>, i: int, r: seq<Section>)
    requires 0 <= i < |sections| && |r| == |sections|
    requires forall k :: 0 <= k < |sections| && k != i ==> r[k] == sections[k]
    ensures QuestionCount(r) - |r[i].questions| == QuestionCount(sections) - |sections[i].questions|
  {
    assert sections == sections[..i] + [sections[i]] + sections[i + 1..];
    assert r == r[..i] + [r[i]] + r[i + 1..];
    assert r[..i] == sections[..i];
    assert r[i + 1..] == sections[i + 1..];
    QuestionCountAppend(sections[..i] + [sections[i]], sections[i + 1..]);
    QuestionCountAppend(sections[..i], [sections[i]]);
    QuestionCountAppend(r[..i] + [r[i]], r[i + 1..]);
    QuestionCountAppend(r[..i], [r[i]]);
    assert QuestionCount([r[i]]) == |r[i].questions| by {
      assert [r[i]][1..] == [];
    }
    assert QuestionCount([sections[i]]) == |sections[i].questions| by {
      assert [sections[i]][1..] == [];
    }
  }

  /** Adding a question raises the template's question count by one. */
  lemma AddQuestionCount(sections: seq<Section>, sectionIndex: int, newId: string)
    requires 0 <= sectionIndex < |sections|
    ensures QuestionCount(AddQuestion(sections, sectionIndex, newId)) == QuestionCount(sections) + 1
  {
    QuestionCountUpdate(sections, sectionIndex, AddQuestion(sections, sectionIndex, newId));
  }
}

=== FILE: templates_view.dfy ===
/** The template list: duplicating a template into the editor, and the
    section and question counts shown per row.
 */
module TemplatesView {

  import opened Wrappers
  import opened QuestionnaireTypes
  import Text
  import Firestore
  import Templates = QuestionnaireTemplates
  import TemplateEditor

  /** `handleDuplicate`: the template the editor is opened with. It has an
      empty id, the title with " (Copy)" appended, version 1 and new
      timestamps; everything else is the original's. */
  function Duplicate(id: string, t: Template, now: nat): (r: (string, Template))
    ensures r.0 == ""
    ensures r.1.title == t.title + " (Copy)" && r.1.version == 1
    ensures r.1.createdAt == now && r.1.updatedAt == now
    ensures r.1.sections == t.sections && r.1.tags == t.tags && r.1.description == t.description
    ensures r.1.createdBy == t.createdBy && r.1.isArchived == t.isArchived
  {
    ("", t.(title := t.title + " (Copy)", createdAt := now, updatedAt := now, version := 1))
  }

  /** The section count shown for a template. */
  function SectionCount(t: Template): (n: nat)
    ensures n == |t.sections|
    ensures n == 0 <==> t.sections == []
  {
    |t.sections|
  }

  /** The question count shown for a template, summed section by section
      from the first. */
  method CountQuestions(t: Template) returns (n: nat)
    ensures n == QuestionCount(t.sections)
  {
    n := 0;
    var i := 0;
    while i < |t.sections|
      invariant 0 <= i <= |t.sections|
      invariant n == QuestionCount(t.sections[..i])
    {
      QuestionCountAppend(t.sections[..i], [t.sections[i]]);
      assert t.sections[..i + 1] == t.sections[..i] + [t.sections[i]];
      n := n + |t.sections[i].questions|;
      i := i + 1;
    }
    assert t.sections[..i] == t.sections;
  }

  /** A duplicate shows the same counts as its original. */
  lemma DuplicateKeepsCounts(id: string, t: Template, now: nat)
    ensures SectionCount(Duplicate(id, t, now).1) == SectionCount(t)
    ensures QuestionCount(Duplicate(id, t, now).1.sections) == QuestionCount(t.sections)
  {
  }

  /** A copy is never blocked by validation when its original has a title
      and a section: the appended " (Copy)" alone is non-blank. */
  lemma DuplicateValidates(id: string, t: Template, now: nat)
    requires |t.sections| > 0
    ensures TemplateEditor.Validate(TemplateEditor.FormOf(Duplicate(id, t, now).1)).None?
  {
    var title := t.title + " (Copy)";
    assert title[|title| - 1] == ')';
    assert !Text.AllSpace(title) by {
      assert !Text.IsSpace(title[|title| - 1]);
    }
  }

  /** Saving a duplicate as the editor is written: the copy's empty id is
      passed to the update, which is not a document reference, so nothing is
      stored and the save fails. */
  lemma DuplicateSaveFails(db: Templates.Db, id: string, t: Template, now: nat,
                           versionId: string, ids: Templates.NewIds, later: nat)
    requires versionId !in db.versions
    requires Templates.FreshIds(db, t.sections, ids)
    requires |t.sections| > 0
    ensures var d := Duplicate(id, t, now);
            var o := TemplateEditor.Save(db, TemplateEditor.FormOf(d.1), Some(d), versionId, ids, later);
            o == TemplateEditor.Called(db, Err(Firestore.InvalidReference))
  {
    DuplicateValidates(id, t, now);
  }

  /** Saving a duplicate with the corrected editor stores a new template: a
      fresh id, the " (Copy)" title, the original's sections, version 1. */
  lemma DuplicateSaveFixedCreates(db: Templates.Db, id: string, t: Template, now: nat,
                                  versionId: string, ids: Templates.NewIds, later: nat)
    requires versionId !in db.versions
    requires Templates.FreshIds(db, t.sections, ids)
    requires |t.sections| > 0
    ensures var d := Duplicate(id, t, now);
            var o := TemplateEditor.SaveFixed(db, TemplateEditor.FormOf(d.1), Some(d), versionId, ids, later);
            && o.Called? && o.result.Ok?
            && ids.template in o.db.templates && ids.template !in db.templates
            && o.db.templates[ids.template].title == t.title + " (Copy)"
            && o.db.templates[ids.template].sections == t.sections
            && o.db.templates[ids.template].version == 1
  {
    DuplicateValidates(id, t, now);
  }
}

=== FILE: text.dfy ===
/** The handful of JavaScript string operations the forms and services rely
    on: `trim`, `split(',')`, `includes` and `toLowerCase`.
 */
module Text {

  /** Code points JavaScript treats as white space (`\s`, and what `trim`
      strips): the ECMAScript WhiteSpace and LineTerminator characters. */
  predicate IsSpace(c: char) {
    var n := c as int;
    || 9 <= n <= 13
    || n == 0x20 || n == 0xA0 || n == 0x1680
    || 0x2000 <= n <= 0x200A
    || n == 0x2028 || n == 0x2029 || n == 0x202F || n == 0x205F
    || n == 0x3000 || n == 0xFEFF
  }

  predicate AllSpace(s: string) {
    forall i :: 0 <= i < |s| ==> IsSpace(s[i])
  }

  /** Strips leading white space; what remains is a suffix of `s`. */
  function TrimStart(s: string): (r: string)
    ensures |r| <= |s| && r == s[|s| - |r|..]
    ensures AllSpace(s[..|s| - |r|])
    ensures |r| > 0 ==> !IsSpace(r[0])
    ensures r == "" <==> AllSpace(s)
  {
    if |s| > 0 && IsSpace(s[0]) then
      var r := TrimStart(s[1..]);
      assert s[1..][|s| - 1 - |r|..] == s[|s| - |r|..];
      AllSpaceCons(s[..|s| - |r|]);
      assert s[..|s| - |r|][1..] == s[1..][..|s| - 1 - |r|];
      AllSpaceCons(s);
      r
    else s
  }

  /** Behind a leading white space character, all of `s` is white space
      exactly when the rest is. */
  lemma AllSpaceCons(s: string)
    requires |s| > 0 && IsSpace(s[0])
    ensures AllSpace(s) <==> AllSpace(s[1..])
  {
    assert forall i :: 1 <= i < |s| ==> s[i] == s[1..][i - 1];
  }

  /** The same at the back. */
  lemma AllSpaceSnoc(s: string)
    requires |s| > 0 && IsSpace(s[|s| - 1])
    ensures AllSpace(s) <==> AllSpace(s[..|s| - 1])
  {
    assert forall i :: 0 <= i < |s| - 1 ==> s[i] == s[..|s| - 1][i];
  }

  /** Strips trailing white space; what remains is a prefix of `s`. */
  function TrimEnd(s: string): (r: string)
    ensures |r| <= |s| && r == s[..|r|]
    ensures AllSpace(s[|r|..])
    ensures |r| > 0 ==> !IsSpace(r[|r| - 1])
    ensures r == "" <==> AllSpace(s)
  {
    if |s| > 0 && IsSpace(s[|s| - 1]) then
      var r := TrimEnd(s[..|s| - 1]);
      assert s[..|s| - 1][..|r|] == s[..|r|];
      AllSpaceSnoc(s[|r|..]);
      assert s[|r|..][..|s| - |r| - 1] == s[..|s| - 1][|r|..];
      AllSpaceSnoc(s);
      r
    else s
  }

  /** `s.trim()`: no white space is left at either end, and the result is
      empty exactly when `s` is all white space, which is how the forms'
      `!x.trim()` emptiness checks read. */
  function Trim(s: string): (r: string)
    ensures |r| <= |s|
    ensures |r| > 0 ==> !IsSpace(r[0]) && !IsSpace(r[|r| - 1])
    ensures r == "" <==> AllSpace(s)
  {
    var t := TrimStart(s);
    assert |t| > 0 ==> !AllSpace(t);
    TrimEnd(t)
  }

  /** What `trim` keeps is one contiguous piece of `s`, and only white space
      is dropped on either side of it. */
  lemma TrimIsSlice(s: string)
    ensures var r := Trim(s);
            exists a :: 0 <= a <= |s| - |r| && r == s[a..a + |r|]
                        && AllSpace(s[..a]) && AllSpace(s[a + |r|..])
  {
    var t := TrimStart(s);
    var r := TrimEnd(t);
    var a := |s| - |t|;
    assert Trim(s) == r;
    assert t == s[a..] && r == t[..|r|];
    SliceOfSuffix(s, a, |r|);
    assert AllSpace(t[|r|..]);
    assert 0 <= a <= |s| - |r| && r == s[a..a + |r|] && AllSpace(s[..a]) && AllSpace(s[a + |r|..]);
  }

  lemma SliceOfSuffix<T>(s: seq<T>, a: nat, n: nat)
    requires a + n <= |s|
    ensures s[a..][..n] == s[a..a + n] && s[a..][n..] == s[a + n..]
  {
  }

  /** Trimming twice changes nothing more. */
  lemma TrimIdempotent(s: string)
    ensures Trim(Trim(s)) == Trim(s)
  {
  }

  /** `toLowerCase` on one character; only ASCII letters are mapped. */
  function LowerChar(c: char): char {
    if 'A' <= c <= 'Z' then (c as int + 32) as char else c
  }

  /** `s.toLowerCase()`, restricted to the ASCII letters. */
  function ToLower(s: string): (r: string)
    ensures |r| == |s|
    ensures forall i :: 0 <= i < |s| ==> r[i] == LowerChar(s[i])
  {
    seq(|s|, i requires 0 <= i < |s| => LowerChar(s[i]))
  }

  /** Lower-casing is idempotent, so comparing lower-cased strings is stable. */
  lemma ToLowerIdempotent(s: string)
    ensures ToLower(ToLower(s)) == ToLower(s)
  {
  }

  /** `sub` occurs in `s` starting at offset `i`. */
  predicate OccursAt(s: string, sub: string, i: int) {
    0 <= i <= |s| - |sub| && s[i..i + |sub|] == sub
  }

  /** `s.includes(sub)`: `sub` occurs at some offset of `s`. */
  function Includes(s: string, sub: string): (r: bool)
    ensures r <==> exists i :: OccursAt(s, sub, i)
    decreases |s|
  {
    if |sub| <= |s| && s[..|sub|] == sub then
      assert OccursAt(s, sub, 0);
      true
    else if |s| == 0 then
      assert forall i :: !OccursAt(s, sub, i);
      false
    else
      var r := Includes(s[1..], sub);
      assert forall i :: OccursAt(s, sub, i) ==> i >= 1 && OccursAt(s[1..], sub, i - 1);
      if r then
        var j :| OccursAt(s[1..], sub, j);
        assert OccursAt(s, sub, j + 1);
        true
      else
        false
  }

  /** Joins pieces with a one-character separator. */
  function Join(parts: seq<string>, sep: char): string
  {
    if |parts| == 0 then ""
    else if |parts| == 1 then parts[0]
    else parts[0] + [sep] + Join(parts[1..], sep)
  }

  /** `s.split(sep)` for a one-character separator: always at least one
      piece, no piece contains the separator, and joining the pieces back
      with the separator gives `s` again. */
  function Split(s: string, sep: char): (r: seq<string>)
    ensures |r| >= 1
    ensures forall k :: 0 <= k < |r| ==> sep !in r[k]
    ensures Join(r, sep) == s
  {
    if |s| == 0 then [""]
    else
      var rest := Split(s[1..], sep);
      if s[0] == sep then
        assert s == [sep] + s[1..];
        [""] + rest
      else
        var r := [[s[0]] + rest[0]] + rest[1..];
        assert r[1..] == rest[1..];
        assert s == [s[0]] + s[1..];
        r
  }

  /** One step of `split`: a leading separator starts a new empty piece,
      any other character extends the first piece. */
  lemma SplitStep(c: char, t: string, sep: char)
    ensures c == sep ==> Split([c] + t, sep) == [""] + Split(t, sep)
    ensures c != sep ==> Split([c] + t, sep) == [[c] + Split(t, sep)[0]] + Split(t, sep)[1..]
  {
    assert ([c] + t)[1..] == t;
  }

  /** One step of `join`: a non-empty first piece gives up its first
      character. */
  lemma JoinStep(parts: seq<string>, sep: char)
    requires |parts| >= 1 && |parts[0]| > 0
    ensures Join(parts, sep) == [parts[0][0]] + Join([parts[0][1..]] + parts[1..], sep)
  {
    var p := parts[0];
    assert p == [p[0]] + p[1..];
    if |parts| > 1 {
      assert ([p[1..]] + parts[1..])[1..] == parts[1..];
    }
  }

  /** Splitting a join of separator-free pieces gives the pieces back. */
  lemma {:induction false} SplitJoin(parts: seq<string>, sep: char)
    requires |parts| >= 1
    requires forall k :: 0 <= k < |parts| ==> sep !in parts[k]
    ensures Split(Join(parts, sep), sep) == parts
    decreases |parts|, |parts[0]|
  {
    var p := parts[0];
    if |p| == 0 {
      if |parts| > 1 {
        SplitJoin(parts[1..], sep);
        assert Join(parts, sep) == [sep] + Join(parts[1..], sep);
        SplitStep(sep, Join(parts[1..], sep), sep);
        assert parts == [""] + parts[1..];
      }
    } else {
      var parts' := [p[1..]] + parts[1..];
      assert forall k :: 1 <= k < |parts'| ==> parts'[k] == parts[k];
      SplitJoin(parts', sep);
      JoinStep(parts, sep);
      SplitStep(p[0], Join(parts', sep), sep);
      assert [p[0]] + p[1..] == p;
      assert parts == [p] + parts'[1..];
    }
  }
}

=== FILE: wrappers.dfy ===
/** Failure-compatible wrappers shared by every part of the model.

    The source signals failure by throwing an `Error` whose message is the
    only thing callers ever inspect, so a failure here is just that message.
 */
module Wrappers {

  /** A value that may be absent: `undefined`, `null` or a missing document. */
  datatype Option<+T> = None | Some(value: T) {

    /** The wrapped value, or `default` when absent. */
    function GetOr(default: T): T {
      match this
      case Some(v) => v
      case None => default
    }
  }

  /** The outcome of an operation that can throw. */
  datatype Result<+T> = Ok(value: T) | Err(message: string) {

    predicate IsFailure() {
      Err?
    }

    function PropagateFailure<U>(): Result<U>
      requires Err?
    {
      Err(message)
    }

    function Extract(): T
      requires Ok?
    {
      value
    }
  }

  /** A state transition that may fail part-way: the store as it is left
      behind (including writes made before the failure) and the outcome. */
  datatype Effect<+S, +T> = Effect(store: S, result: Result<T>)

  /** A JavaScript string is truthy exactly when it is non-empty. */
  predicate Truthy(s: Option<string>) {
    s.Some? && s.value != ""
  }

  /** `a || b` on optional strings: the first operand when it is truthy. */
  function OrElse(a: Option<string>, b: Option<string>): (r: Option<string>)
    ensures Truthy(a) ==> r == a
    ensures !Truthy(a) ==> r == b
  {
    if Truthy(a) then a else b
  }
}

=== FILE: zod.dfy ===
/** The one zod string check the schemas use that is not a length bound:
    `z.string().email()`.
 */
module Zod {

  /** An address with an '@' that has text on both sides: what every
      version of zod's e-mail pattern demands of an address. */
  predicate HasInnerAt(s: string) {
    exists i | 0 < i < |s| - 1 :: s[i] == '@'
  }

  /** Whether `.email()` accepts `s`. The pattern itself lives in the zod
      library and differs between its versions, so the library's verdict is
      the parameter `accepts`; the model adds the part all versions share,
      which is enough to refuse an empty or '@'-less address whatever
      `accepts` says. */
  predicate Email(accepts: string -> bool, s: string) {
    HasInnerAt(s) && accepts(s)
  }
}
